=== FILE: README.md ===
# Poll_Air core, modelled in Dafny

Poll_Air collects French air-quality data and serves it back. Data comes
from official indices, pollution episodes and scraped daily averages. It
is stored in PostgreSQL and MongoDB and exposed through a FastAPI service.
This project models the deterministic core of its Python scripts:

- the hybrid retrieval and cross-referencing of `scripts/hybride/sql+nosql.py`, in modules
  `HybridRecords`, `HybridQuery`, `HybridFlatten` and `HybridCross`. This covers:
  - the relational query builder, with a real SQL `LIKE` matcher;
  - the document-store filters;
  - flattening of episode and daily-average documents;
  - per-source statistics;
  - the ±1-day correspondence matcher;
  - the first-row helper.
- the episode-file cleaning of `scripts/clean_api.py` (`CleanApi`). This covers:
  - first-occurrence deduplication on a five-field key;
  - the coordinate-rounding guard;
  - the pollutant name derived from the file name;
  - result records and report totals;
  - the exceptions that make a file fail: null `properties`, a list among the key fields, a null `geometry` on a kept feature.
- the scraped-CSV cleaning of `scripts/clean_scraping_data.py` (`CleanScraping`): header normalisation, line parsing with its column-count check, and the error/duplicate/kept loop.
- the personalised pollution level of `scripts/api/routers/profils.py` (`Profils`). This covers:
  - the five-level threshold classifier and the running maximum;
  - the per-pollutant details;
  - the activity `LIKE` pattern and the choice of recommendation.
- the request validators and parameter sanitisers:
  - `scripts/api/security/input_validation.py`, in `SecurityValidation`;
  - `scripts/api/routers/security/input_validation.py`, in `RouterValidation`;
  - the regular expressions and parameter values they share, in `Patterns`.
- the pandas pipelines:
  - the column drop / 7th-column drop / rename / `dropna` / `fillna` pipeline of `scripts/cleaned_csv.py` (`CleanedCsv`);
  - the data-quality check of `scripts/missing_values_detect.py` (`MissingValues`).

Shared helpers:

- `Wrappers` holds `Option` and `Result`.
- `JsonData` holds JSON values, fields that may be missing or null, and GeoJSON geometries.
- `Text` holds Python string operations: `strip`, `split`, `replace`, `upper`/`lower` and `int`/`str` of integers.
- `Seqs` holds first-occurrence deduplication and order-preserving filtering.

Modelling conventions:

- Dates are integer days (see "## Left out" for what this changes in the ±1-day matching window).
- Store reads are given sequences.
- A store query is a filter, then a sort, then a take.
- Python truthiness is written out. An empty zone or an empty pollutant list adds no condition.
- An exception the code raises becomes the `Failure` of a `Result`, on the inputs the model represents; "## Left out" names the input shapes that are not represented.

## Model

| member | source | states |
|---|---|---|
| `HybridRecords.Take` | scripts/hybride/sql+nosql.py:394-398 | `xs[:n]` is the prefix of `xs` of length min(n, \|xs\|) |
| `HybridQuery.LikePrefix` | scripts/hybride/sql+nosql.py:139-142 | with a zone free of `%`, `_` and `\`, `code_zone LIKE zone%` holds exactly when the zone is a prefix of the code |
| `HybridQuery.LikeContains` | scripts/api/routers/profils.py:238-241 | with a segment free of wildcards, `LIKE %seg%` holds exactly when the segment occurs in the text |
| `HybridQuery.LikeAnything` | scripts/hybride/sql+nosql.py:139-142 | the pattern `%` matches every text |
| `HybridQuery.UnderscoreZoneSelectsOtherCodes` | scripts/hybride/sql+nosql.py:139-142 | a short zone holding `_` is a wildcard: zone `7_` selects code 75056, which it is not a prefix of |
| `HybridQuery.BuildPgQuery` | scripts/hybride/sql+nosql.py:136-153 | one parameter per placeholder, of the kind its comparison needs, one per active filter; the WHERE clause holds on a row exactly when the zone (prefix for at most 3 characters, exact otherwise) and the inclusive date bounds accept it |
| `HybridQuery.WhereMeaning` | scripts/hybride/sql+nosql.py:136-153 | the conditions built in source order mean exactly the configured filter |
| `HybridQuery.Insert` | scripts/hybride/sql+nosql.py:156 | inserting a row adds exactly that row to the multiset |
| `HybridQuery.InsertSorted` | scripts/hybride/sql+nosql.py:156 | insertion keeps rows in descending date order, with NULL dates first as in PostgreSQL's `DESC` |
| `HybridQuery.SortDesc` | scripts/hybride/sql+nosql.py:156 | `ORDER BY date_prise_mesure DESC` is a permutation sorted newest first |
| `HybridQuery.GetPgData` | scripts/hybride/sql+nosql.py:108-176 | at most 10000 rows, each from the table and selected by the filter, sorted newest first; they are the first 10000 of the sorted selection, and the whole selection when it fits |
| `HybridQuery.FindEpisodes` | scripts/hybride/sql+nosql.py:189-213 | at most 5000 documents, each from the store; the zone is a prefix of `code_insee` whatever its length, `date_debut` is at or after the lower bound, and the pollutant is in the list; every match is returned when they fit |
| `HybridQuery.EpisodeQueryIgnoresDateFin` | scripts/hybride/sql+nosql.py:189-198 | the episode query does not depend on the upper date bound |
| `HybridQuery.FindMoyennes` | scripts/hybride/sql+nosql.py:259-280 | at most 5000 documents from the store, each meeting the lower date bound and the pollutant list; every match is returned when they fit |
| `HybridQuery.MoyenneQueryIgnoresZoneAndDateFin` | scripts/hybride/sql+nosql.py:259-265 | the daily-average query depends on neither the zone nor the upper date bound |
| `HybridFlatten.FlattenEpisode` | scripts/hybride/sql+nosql.py:217-234 | indexing the coordinates fails exactly when they are null or hold fewer than two items; otherwise the row copies the properties and id, has null coordinates when the field is absent, and has the first two items as longitude and latitude |
| `HybridFlatten.FlattenEpisodes` | scripts/hybride/sql+nosql.py:217-234 | one row per document in input order, or the first document whose coordinates cannot be indexed |
| `HybridFlatten.GetMongoEpisodes` | scripts/hybride/sql+nosql.py:178-246 | the flattened rows of the episode query, at most 5000, each satisfying the zone-prefix, date and pollutant conditions |
| `HybridFlatten.MoyenneCoordinates` | scripts/hybride/sql+nosql.py:286-298 | missing, null or empty coordinates give two nulls; one item raises; otherwise the first two items are taken |
| `HybridFlatten.FlattenMoyenne` | scripts/hybride/sql+nosql.py:284-299 | the flat row copies every listed field, and fails exactly when the coordinates hold one item |
| `HybridFlatten.FlattenMoyennes` | scripts/hybride/sql+nosql.py:284-299 | one row per document in input order, or the first failing document |
| `HybridFlatten.GetMongoMoyennes` | scripts/hybride/sql+nosql.py:248-310 | the flattened rows of the daily-average query, at most 5000, each meeting the date and pollutant conditions |
| `HybridCross.MinDay` | scripts/hybride/sql+nosql.py:336 | `min()` of a date column skipping nulls: None exactly when all are null, else a present date no later than any other |
| `HybridCross.MaxDay` | scripts/hybride/sql+nosql.py:337 | `max()` skipping nulls: None exactly when all are null, else a present date no earlier than any other |
| `HybridCross.NUnique` | scripts/hybride/sql+nosql.py:339 | `nunique()` is at most the length and is 0 exactly when every value is null |
| `HybridCross.PresentBound` | scripts/hybride/sql+nosql.py:339 | there are no more distinct values than rows |
| `HybridCross.ValueCounts` | scripts/hybride/sql+nosql.py:349-358 | `value_counts()` has the non-null values as keys, each with its number of occurrences, at least 1 |
| `HybridCross.StatsPg` | scripts/hybride/sql+nosql.py:333-346 | count is the row count; an empty source gives no dates and 0 zones; the date bounds are both present or both absent, ordered, and enclose every present date |
| `HybridCross.EpisodeStatsOf` | scripts/hybride/sql+nosql.py:347-352 | count is the row count, an empty source gives empty tables, and the keys of the pollutant, state and level tables are exactly the values present in those columns |
| `HybridCross.EpisodePolluantCounts` | scripts/hybride/sql+nosql.py:350 | each pollutant's count is the number of episodes of that pollutant |
| `HybridCross.MoyenneStatsOf` | scripts/hybride/sql+nosql.py:353-358 | count is the row count, an empty source gives empty tables, and the keys of the organisation and pollutant tables are exactly the values present in those columns |
| `HybridCross.Details` | scripts/hybride/sql+nosql.py:379-380 | one detail per episode, carrying only pollutant, state and level |
| `HybridCross.CorrespondencesSound` | scripts/hybride/sql+nosql.py:365-382 | at most one entry per row; each entry has a count equal to its number of details, at least 1, the details of exactly the episodes starting within a day of the row's date, and the id, zone, date and quality of one of the rows (zones are never compared) |
| `HybridCross.CorrespondencesInOrder` | scripts/hybride/sql+nosql.py:365-382 | the entries are, in row order and one each, those of exactly the rows with some episode starting within a day of their date: entry k carries the id, zone, date and quality of the k-th such row, the details of exactly the episodes near that date, and their number |
| `HybridCross.LastEntry` | scripts/hybride/sql+nosql.py:369-382 | a dated row gets an entry exactly when some episode starts within a day of its date, and that entry is the row's own |
| `HybridCross.MatchCorrespondences` | scripts/hybride/sql+nosql.py:361-382 | no entry unless both sources are non-empty; otherwise the entries for the first 100 rows in row order, or failure at the first of them without a date |
| `HybridCross.CrossReferenceData` | scripts/hybride/sql+nosql.py:312-408 | the three statistics, at most 50 correspondences in relational order, and the first 10 rows of each source as samples; it fails exactly when the matcher meets an undated row |
| `HybridCross.GetOneSqlOneMongo` | scripts/hybride/sql+nosql.py:517-535 | the first relational row is None exactly when nothing is selected, and otherwise is a selected row no older than any other; the episode is the first flattened one, None when the query finds none |
| `HybridCross.FirstIsNewest` | scripts/hybride/sql+nosql.py:526-530 | the head of the sorted rows is at least as recent as any row |
| `CleanApi.Prop` | scripts/clean_api.py:20-29 | `props.get(name, '')` with `props = feature.get('properties', {})`: the property when present, '' when it or the properties object are missing, and no value (the call raises) when `properties` is null |
| `CleanApi.FeatureKey` | scripts/clean_api.py:20-31 | the five-field key of a feature, and no key exactly when `properties` is null or one of the five fields is a list, the cases where building the key or hashing it in `seen` raises |
| `CleanApi.FeatureKeyFails` | scripts/clean_api.py:20-31 | a feature has no key exactly when its properties are null or some key field among the five holds a list |
| `CleanApi.RemoveDuplicates` | scripts/clean_api.py:13-37 | fails exactly when some feature has no key, and then at the first such feature; otherwise the kept features are the first of each five-field key, in order, kept plus duplicates is the input length, and no two kept features share a key |
| `CleanApi.RemoveDuplicatesTwice` | scripts/clean_api.py:31-35 | a second pass removes nothing |
| `CleanApi.RemoveDuplicatesKeepsFirst` | scripts/clean_api.py:31-35 | a feature whose key no earlier feature has is kept |
| `CleanApi.Optimize` | scripts/clean_api.py:41-55 | no result (the call raises) exactly when `geometry` is null, or when the coordinates pass the two-number guard but `float()` overflows on one of them (an integer of magnitude at least 2^1024 - 2^970, an `OverflowError` the `except (TypeError, ValueError)` does not catch); otherwise only a feature whose coordinates are a list of exactly two numbers changes, and then only those two coordinates, which become rounded floats; properties never change |
| `CleanApi.HugeCoordinateFails` | scripts/clean_api.py:46-50 | a coordinate of 2^1024 passes the number guard, yet the rewrite raises instead of rounding it |
| `CleanApi.Coordinates` | scripts/clean_api.py:42 | `feature.get('geometry', {}).get('coordinates', [])`: missing when the geometry is missing, none (the call raises) exactly when the geometry is null |
| `CleanApi.OptimizeCoordinates` | scripts/clean_api.py:39-55 | the array is rewritten in place, each feature becoming its `Optimize` image; it stops exactly when some feature's rewrite raises (null geometry or float overflow), at the first one, with the features before it rewritten and the rest untouched |
| `CleanApi.OptimizeIdempotent` | scripts/clean_api.py:46-51 | with an idempotent rounding, optimising twice is optimising once |
| `CleanApi.PollutantName` | scripts/clean_api.py:60 | the name is no longer than the file name and holds no lower-case ASCII letter |
| `CleanApi.PollutantOfDataFile` | scripts/clean_api.py:60 | `data_<stem>.json` names the pollutant `<stem>` in upper case |
| `CleanApi.PollutantOfNo2File` | scripts/clean_api.py:60 | `data_no2.json` gives `NO2` |
| `CleanApi.CleanJsonFile` | scripts/clean_api.py:57-129 | success exactly when the file is read, every feature has a key and no kept feature's rewrite raises (a null geometry or a coordinate too large for `float()`), any other case raising into the `except` at lines 117-129; on success kept plus duplicates is the original count and the features written are the deduplicated ones with coordinates optimised; a failure has every count 0 and writes nothing |
| `CleanApi.KeptFailureFails` | scripts/clean_api.py:42-50 | a kept feature whose rewrite raises (null geometry, float overflow) makes the file fail |
| `CleanApi.OptimizedIsCleanable` | scripts/clean_api.py:79-83 | when every kept feature is optimised without raising, the file is cleaned |
| `CleanApi.Successful` | scripts/clean_api.py:147-148 | the successful results, each from the input, and every successful input among them |
| `CleanApi.ReportTotals` | scripts/clean_api.py:140-163 | the totals are sums over the successful results only, and the success counter is their number |
| `CleanApi.SumCountsRecords` | scripts/clean_api.py:149 | the success counter counts the summed results |
| `CleanApi.ReportBalances` | scripts/clean_api.py:158-163 | for consistent results, total cleaned plus total duplicates is the total original |
| `CleanApi.ReportIgnoresFailures` | scripts/clean_api.py:147-163 | a failed result does not change the totals |
| `CleanScraping.CleanHeaders` | scripts/clean_scraping_data.py:44-81 | one header per ';'-separated piece |
| `CleanScraping.CleanHeadersNoBom` | scripts/clean_scraping_data.py:47 | no cleaned header holds U+FEFF |
| `CleanScraping.RenameNoBom` | scripts/clean_scraping_data.py:51-79 | renaming adds no U+FEFF |
| `CleanScraping.CleanHeadersConversions` | scripts/clean_scraping_data.py:28-96 | after renaming, `valeur` is the only numeric header that can occur and `validité` never occurs, so only `valeur` is converted |
| `CleanScraping.RenameConversions` | scripts/clean_scraping_data.py:51-79 | the rename table maps no name to a numeric header other than `valeur`, nor to `validité` |
| `CleanScraping.Convert` | scripts/clean_scraping_data.py:28-41 | a text result is the stripped value; an integer result is what `int` parses; a float is kept only for a decimal value under a numeric header; every other header keeps the text |
| `CleanScraping.Cells` | scripts/clean_scraping_data.py:24-41 | one cell per header, each the conversion of the stripped value |
| `CleanScraping.ParseCsvLine` | scripts/clean_scraping_data.py:15-42 | None exactly when the number of ';'-separated fields differs from the number of headers |
| `CleanScraping.FillKeys` | scripts/clean_scraping_data.py:22-41 | the record's keys are the headers |
| `CleanScraping.FillLastWins` | scripts/clean_scraping_data.py:22-41 | with repeated headers, the last column wins |
| `CleanScraping.FillFromColumn` | scripts/clean_scraping_data.py:22-41 | every field's value comes from a column of that name |
| `CleanScraping.CellsConvert` | scripts/clean_scraping_data.py:24-40 | the value stored for column i is the conversion, chosen by header i, of the stripped field i |
| `CleanScraping.ParseRowValues` | scripts/clean_scraping_data.py:22-41 | each field holds the conversion of its stripped column value, and the plain stripped text under a non-numeric header |
| `CleanScraping.WithMetadata` | scripts/clean_scraping_data.py:114-116 | the record gains exactly `source` = `scraping-moy_journaliere` and `polluant_type` = the file stem |
| `CleanScraping.Parsed` | scripts/clean_scraping_data.py:103-116 | at most one record per item, each carrying the metadata |
| `CleanScraping.CleanFile` | scripts/clean_scraping_data.py:83-136 | an empty file gives 0; otherwise the kept records are the first per key of the parsed ones, every item is exactly one of error, duplicate or kept, each kept record carries the metadata, and the count is the number kept |
| `CleanScraping.KeptRecordsFromParsed` | scripts/clean_scraping_data.py:114-126 | deduplication keeps the metadata of every record |
| `CleanScraping.KeyJoinsWithUnderscore` | scripts/clean_scraping_data.py:119 | the `_`-joined key makes distinct records collide when a field contains `_` |
| `Seqs.KeepFirstKeys` | scripts/clean_api.py:31-35 | deduplication keeps every key |
| `Seqs.KeepFirstDistinct` | scripts/clean_api.py:31-35 | no two kept items share a key |
| `Seqs.KeepFirstSubseq` | scripts/clean_api.py:31-35 | the kept items are an order-preserving subsequence of the input |
| `Seqs.KeepFirstKeepsFirsts` | scripts/clean_scraping_data.py:121-126 | the first item with a key is kept |
| `Seqs.KeepFirstOfDistinct` | scripts/clean_scraping_data.py:121-126 | an input with distinct keys is kept whole |
| `Seqs.KeepFirstIdempotent` | scripts/clean_api.py:31-35 | deduplicating twice is deduplicating once |
| `Profils.Priority` | scripts/api/routers/profils.py:313 | the priorities of the five levels lie in 0..4 |
| `Profils.PriorityInjective` | scripts/api/routers/profils.py:313 | no two levels share a priority |
| `Profils.ClassifyCountsThresholds` | scripts/api/routers/profils.py:328-337 | with ordered thresholds, a value's level is the number of thresholds among 0.7×info, info, 1.5×info and alerte that it reaches |
| `Profils.MauvaisUnreachable` | scripts/api/routers/profils.py:328-337 | with an alert threshold at most 1.5×info, no value is rated `mauvais`, and every value reaching 1.5×info is `tres_mauvais` |
| `Profils.SensiblePm25NeverMauvais` | scripts/sql/table_created/import_table_profils_seuils_recos.py:34 | the sensible profile's PM2.5 thresholds (12, 17) never give `mauvais` |
| `Profils.ClassifyMonotone` | scripts/api/routers/profils.py:328-337 | a larger value never gets a lower level |
| `Profils.ClassifyStricterThresholds` | scripts/api/routers/profils.py:328-337 | higher thresholds never give a higher level |
| `Profils.CalculatePersonalPollutionLevel` | scripts/api/routers/profils.py:291-342 | the level is at least that of every rated measurement and is either `bon` or one of those levels |
| `Profils.PersonalLevelIsMaximum` | scripts/api/routers/profils.py:307-340 | the running maximum is the most restrictive rated level, or `bon` |
| `Profils.PersonalLevelWithoutThresholds` | scripts/api/routers/profils.py:321-325 | with no threshold for any measured pollutant the level is `bon` |
| `Profils.PersonalLevelGrows` | scripts/api/routers/profils.py:339-340 | adding measurements never lowers the level |
| `Profils.PersonalLevelOrderIndependent` | scripts/api/routers/profils.py:307-310 | the level does not depend on the order of the measurements |
| `Profils.StatusAgreesWithLevel` | scripts/api/routers/profils.py:328-337 | with 0 <= info <= alerte, status `bon` means level bon or moyen, `danger` means tres_mauvais, and `alerte` means degrade or mauvais |
| `Profils.DetailOf` | scripts/api/routers/profils.py:265-272 | the value and both thresholds are copied; the status is `bon` below info, `danger` at or above both thresholds, else `alerte`; the advice is the fixed no-precaution text exactly for `bon` |
| `Profils.PollutantDetails` | scripts/api/routers/profils.py:253-272 | the details are keyed by exactly the pollutants that have a threshold |
| `Profils.DetailsKeys` | scripts/api/routers/profils.py:254-258 | only pollutants with a threshold entry appear |
| `Profils.DetailsLastWins` | scripts/api/routers/profils.py:262-272 | a later row for the same pollutant overwrites an earlier one |
| `Profils.ActivityPatternSegment` | scripts/api/routers/profils.py:232-241 | the pattern is `%` + the longest `_`-free prefix of the activity + `%` |
| `Profils.DefaultActivityPattern` | scripts/api/routers/profils.py:232-241 | without an activity, or with an empty one, the pattern is `%sortie%` |
| `Profils.ActivityPatternMatches` | scripts/api/routers/profils.py:238-241 | a stored activity matches exactly when it contains the first segment of the requested one |
| `Profils.BestReco` | scripts/api/routers/profils.py:233-243 | None exactly when no recommendation matches; otherwise a matching one of the highest urgency |
| `Profils.ChooseAdvice` | scripts/api/routers/profils.py:243-250 | the default advice when nothing matches; otherwise the advice of a matching recommendation of the highest urgency |
| `Profils.ErrorStatusAsWritten` | scripts/api/routers/profils.py:208-286 | as written, an unknown profile or no recent pollution ends in status 500 |
| `Profils.UnknownProfileGivesServerError` | scripts/api/routers/profils.py:208-286 | the unknown-profile case yields 500, not 404 |
| `Profils.GetRecommandations` | scripts/api/routers/profils.py:156-286 | 404 exactly for an unknown profile or no recent pollution; otherwise the profile's type and commune, the personal level, the chosen advice and the details |
| `SecurityValidation.DefaultsAccepted` | scripts/api/security/input_validation.py:38-89 | the default queries and the falsy values are accepted |
| `SecurityValidation.PolluantAllowList` | scripts/api/security/input_validation.py:49-54 | `PM25` passes; `PM2.5` and `pm10` do not |
| `SecurityValidation.EpisodeLimitStricter` | scripts/api/security/input_validation.py:62-107 | an accepted episode limit is an accepted air-quality limit but not conversely (51); negative limits are refused by both |
| `SecurityValidation.CodeInseeIsNumber` | scripts/api/security/input_validation.py:43-47 | an accepted INSEE code without a trailing newline parses as an integer below 100000 |
| `SecurityValidation.ShapeOnlyChecks` | scripts/api/security/input_validation.py:43-101 | `75056\n` passes (Python's `$`), `2024-13-45` passes the date check, and `7505` and `75056\n\n` do not |
| `SecurityValidation.SanitizeFacts` | scripts/api/security/input_validation.py:135 | a sanitised value has no `;`, twice the quotes of the input, and length = input + quotes − semicolons |
| `SecurityValidation.SanitizeUndone` | scripts/api/security/input_validation.py:135 | without `;`, reading `''` back as `'` restores the input |
| `SecurityValidation.SecureSqlParams` | scripts/api/security/input_validation.py:109-137 | the keys are exactly those with a non-null value, each mapped to its sanitised text, and no value holds `;` |
| `Patterns.AnchoredTrailingNewline` | scripts/api/security/input_validation.py:45 | a value the pattern accepts is also accepted with one trailing newline |
| `RouterValidation.QualiteAirAgreement` | scripts/api/routers/security/input_validation.py:5-29 | this query model accepts what the other accepts, and also station names over 100 characters |
| `RouterValidation.EpisodesStricter` | scripts/api/routers/security/input_validation.py:38-42 | an episode query accepted here is accepted by the other model, which also accepts the one-character code `A` |
| `RouterValidation.ValidateName` | scripts/api/routers/security/input_validation.py:66-97 | accepted exactly when the stripped name has at least 2 characters, the raw name at most 100, and neither holds any of `< > " ' ;`; the stripped name is returned |
| `RouterValidation.ValidateNameClean` | scripts/api/routers/security/input_validation.py:66-75 | an accepted name has 2 to 100 characters and no forbidden character |
| `RouterValidation.ValidateNameIdempotent` | scripts/api/routers/security/input_validation.py:66-75 | an accepted name validates to itself |
| `RouterValidation.ValidateStation` | scripts/api/routers/security/input_validation.py:56-115 | accepted exactly when both names pass, the code matches `[A-Z0-9_-]{3,20}`, the INSEE code is five digits, and the present coordinates and altitude are within their inclusive bounds; only the names change (they are stripped) |
| `RouterValidation.ValidateStationIdempotent` | scripts/api/routers/security/input_validation.py:56-115 | a validated station validates to itself |
| `RouterValidation.StationInseeMandatory` | scripts/api/routers/security/input_validation.py:83-87 | an empty INSEE code is refused for a station, though the query validators accept it |
| `RouterValidation.ValidateSqlParams` | scripts/api/routers/security/input_validation.py:117-130 | fails exactly when some non-null value's text exceeds 100 characters, naming such a key; otherwise null values are dropped and the rest are kept unchanged |
| `Text.SplitCount` | scripts/clean_scraping_data.py:17-21 | `split(';')` gives one more piece than there are separators |
| `Text.SplitJoin` | scripts/clean_scraping_data.py:17 | joining the pieces with the separator gives back the text |
| `Text.StripIdempotent` | scripts/clean_scraping_data.py:25 | stripping twice is stripping once |
| `Text.StripEmptyIffBlank` | scripts/missing_values_detect.py:35 | a text strips to '' exactly when it is all whitespace |
| `Text.EscapeQuotesFacts` | scripts/api/security/input_validation.py:135 | doubling quotes adds one character per quote, doubles the quotes, keeps other characters, and is undone by un-doubling |
| `Text.ParseIntOfString` | scripts/clean_scraping_data.py:36 | `int(str(i)) == i` |
| `CleanedCsv.KeptIndicesFacts` | scripts/cleaned_csv.py:26-27 | the kept positions increase, and a position is kept exactly when its label is not dropped |
| `CleanedCsv.DropColumns` | scripts/cleaned_csv.py:27-33 | dropping by label keeps the frame rectangular and keeps every row |
| `CleanedCsv.DropColumnsLabels` | scripts/cleaned_csv.py:26-27 | the remaining labels are the undropped ones, in order |
| `CleanedCsv.DropColumnsCells` | scripts/cleaned_csv.py:26-27 | each remaining column is an undropped column of the input, with the same cells in every row |
| `CleanedCsv.DropColumnsDistinct` | scripts/cleaned_csv.py:26-27 | dropping keeps labels distinct |
| `CleanedCsv.DropListedColumns` | scripts/cleaned_csv.py:8-27 | only listed columns that are present are dropped: the remaining labels are the unlisted ones in order |
| `CleanedCsv.DropSeventhExact` | scripts/cleaned_csv.py:31-34 | with distinct labels and more than 6 columns, exactly the column at index 6 is removed, from the labels and from every row |
| `CleanedCsv.CleanedColumns` | scripts/cleaned_csv.py:14-42 | the output has the 11 new names exactly when 12 unlisted columns remain before the 7th-column drop; otherwise every label is an original unlisted one |
| `CleanedCsv.CleanedRows` | scripts/cleaned_csv.py:45-53 | the rows kept are an order-preserving subsequence, no more than the input, and a row is kept exactly when it has a value in every present critical column |
| `CleanedCsv.CleanedCells` | scripts/cleaned_csv.py:45-59 | critical and defaulted columns have no nulls; present values are unchanged; a null becomes `Inconnu` in a defaulted column and stays null elsewhere |
| `CleanedCsv.DropIncomplete` | scripts/cleaned_csv.py:45-49 | the loop of `dropna(subset=[col])` over the present critical columns keeps exactly the rows complete in all of them |
| `CleanedCsv.CompleteSnoc` | scripts/cleaned_csv.py:47-49 | one more `dropna` restricts the kept rows to those complete in one more column |
| `CleanedCsv.FillDefaults` | scripts/cleaned_csv.py:56-59 | the loop of `fillna("Inconnu")` fills every null of the present defaulted columns and nothing else |
| `CleanedCsv.FilledTwice` | scripts/cleaned_csv.py:57-59 | filling one more column composes with the earlier fills |
| `CleanedCsv.CleanTable` | scripts/cleaned_csv.py:25-59 | the frame written is the pipeline's result, whose properties `CleanedColumns`, `CleanedRows` and `CleanedCells` state |
| `CleanedCsv.CleanedFolderNames` | scripts/cleaned_csv.py:19-20 | one output per `.csv` file, in listing order, each with its cleaned frame |
| `CleanedCsv.CleanFolder` | scripts/cleaned_csv.py:19-62 | the loop produces exactly the cleaned `.csv` files |
| `MissingValues.MarkerTextIsListed` | scripts/missing_values_detect.py:42 | the marker match is membership in the five-element list |
| `MissingValues.CountWhere` | scripts/missing_values_detect.py:25-42 | a boolean sum is positive exactly when some cell satisfies the test |
| `MissingValues.MissingCount` | scripts/missing_values_detect.py:25-26 | positive exactly when the column has a null |
| `MissingValues.EmptyCount` | scripts/missing_values_detect.py:34 | a positive count of '' implies a blank value |
| `MissingValues.BlankCount` | scripts/missing_values_detect.py:35 | positive exactly when some value strips to '' |
| `MissingValues.NullMarkerCount` | scripts/missing_values_detect.py:42 | positive exactly when some value lower-cases to a null marker |
| `MissingValues.FileHasIssues` | scripts/missing_values_detect.py:22-45 | the flag is set exactly when some column has a null, some text column a blank value, or some column a null marker |
| `MissingValues.IssuesByCheck` | scripts/missing_values_detect.py:24-45 | a file has issues exactly when one of the three checks finds one |
| `MissingValues.EmptyIsBlank` | scripts/missing_values_detect.py:34-36 | the check for '' adds nothing to the whitespace check |
| `MissingValues.MissingIsNullMarker` | scripts/missing_values_detect.py:25-42 | a null renders as `nan`, so the marker check flags it too, while it is not blank |
| `MissingValues.NullMarkerExamples` | scripts/missing_values_detect.py:42 | `NaN`, `N/A` and `None` are markers; ` nan` and `na` are not |
| `MissingValues.ValidateDataQuality` | scripts/missing_values_detect.py:5-68 | the counters are the number of `.csv` files and of those with issues, the second no larger; the result holds exactly when no `.csv` file has issues |
| `MissingValues.FlaggedEmpty` | scripts/missing_values_detect.py:63-68 | no file is flagged exactly when no analysed file has issues |

## Left out

- Database and Mongo connections, query execution, cursors, the context manager, `export_data`, argparse and logging in `scripts/hybride/sql+nosql.py`: store reads are given sequences, and the SQL text is modelled only as a list of conditions and parameters.
- File reading and writing (`os.listdir`, `json.load`, `read_csv`, `to_csv`, the report file) and every `print`: file contents are given values; listing order is the order of the given sequence.
- FastAPI routing, dependencies, authentication, rate limiting and logging are not part of this model.
- Clock values: `datetime.now()` timestamps, the scraped `import_date`, and the “last 24 hours” window of the pollution query in `get_recommandations`. That query's result (at most 10 rows) is a parameter.
- Floating point:
  - means in the statistics;
  - file sizes and reduction percentages in `clean_json_file`;
  - the exact effect of `round(x, 6)`, which is a parameter `round`;
  - threshold products such as `seuil_info * 0.7`, computed as exact reals, so boundary cases may differ from IEEE floats;
  - NaN: `RouterValidation.InRange` takes reals, which have no NaN, while the script's `v < -90 or v > 90` lets a NaN latitude or longitude through because both comparisons are false.
- `CleanScraping.Convert`: a value with a '.' converts only when it is a plain decimal (`IsDecimal`: optional sign, ASCII digits, one '.'), and the number keeps its text. Forms Python's `float()` also accepts — an exponent (`1.5e3`), underscores (`1_0.5`), non-ASCII digits, `inf`/`nan` spellings — stay text in the model where the script turns them into floats. The model's `ParseInt`, which stands for `int()`, accepts only ASCII digits with an optional sign; Python's `int()` also accepts underscores between digits (`1_0`) and non-ASCII digits, which stay text in the model. Conversely, Python 3.11 and later refuse a digit string longer than 4300 characters (`sys.int_info.default_max_str_digits`), raising `ValueError` so the value stays text, while `ParseInt` converts it.
- `HybridCross.NearTo`: dates are whole days, so the ±1-day window between an episode and a PostgreSQL row is a window of days. The script compares timestamps, where a time of day narrows it: two dates on consecutive days more than 24 hours apart match in the model but not in the script.
- `HybridQuery.GetPgData`: `ORDER BY date_mesure DESC LIMIT 10000` leaves the order of rows with equal dates, and which of them survive the limit, to PostgreSQL. The model fixes one choice (a stable sort of the selection). So the samples of `CrossReferenceData` and the first 100 rows it examines are one admissible outcome, not the only one.
- Regular expressions: `\d` is modelled as ASCII digits only, where Python also accepts other Unicode digits. Mongo's `$regex: ^zone` is modelled as a literal prefix, so regex metacharacters in a zone are not interpreted.
- `Text.Upper` and `Text.Lower` change ASCII letters only. This is exact for the null-marker comparison, which only looks for ASCII texts; pollutant names with non-ASCII letters would differ.
- Python's equality of `1`, `1.0` and `True` in the `remove_duplicates` key: JSON values compare by their modelled constructor.
- `CleanScraping.CleanFile`: an item is a one-key object whose value is a text (`Item(key, line)`). Three input shapes on which the script raises an uncaught exception and stops, with no output file, are not represented: an empty object as an item (`list(item.keys())[0]` raises IndexError at lines 95 and 104), a non-text value such as null or a number (`csv_line.split` raises AttributeError at line 17), and a top-level object instead of a list (`data[0]` fails at line 95).
- `CleanApi.Optimize`: the `TypeError`/`ValueError` handler at lines 52-54 is not modelled: for the numbers the guard admits, `float()` raises neither (its only failure, `OverflowError` on a huge integer, is modelled and escapes the handler), and `round(x, 6)` is a parameter.
- `CleanApi.Coordinates`: a `coordinates` value is a list, null or missing; a non-list value (a string or an object, where `len` or indexing behaves differently or raises) is not represented.
- `CleanApi.FeatureKey`: a property value is a JSON scalar or list; an object value (a dict, also unhashable) is not represented, nor is a feature that is not an object.
- Pandas: dtypes are given (a column's text flag), values are given as the text `str()` renders, and `read_csv` type inference is not modelled. `dropna`/`fillna` on repeated labels follow the positional model; `read_csv` never produces repeated labels.
- Pydantic: type coercion of query fields and the aggregation of several validation errors into one response; the model reports acceptance only.
- `RouterValidation.ValidateSqlParams`: when several values are too long, which key the error names depends on dictionary order; the model names some such key.
- `Profils.BestReco`: `ORDER BY niveau_urgence DESC LIMIT 1` leaves ties to the database; the model picks the earliest matching row.
- `Profils.GetRecommandations`: a null `valeur` in a measurement row, the `cursor` unbound in `finally` when the connection fails, and database errors are not modelled.
- `scripts/api/routers/hybride.py` and the other scripts of the repository (scraping, API extraction, Mongo integration, SQL schema scripts, redundant pandas passes, constant tables, smoke tests) are not part of this model.

## Findings

| source | as written | input that shows it | evidently intended | confidence | as-written member | corrected member |
|---|---|---|---|---|---|---|
| scripts/api/routers/profils.py:208-286 | the `HTTPException(404)` raised inside the `try` is caught by `except Exception` and re-raised as status 500 | an unknown `profil_id`, or a profile with no pollution measured in the last 24 hours | status 404, as the docstring at lines 177-179 and the raise sites say | high, not executed | `Profils.ErrorStatusAsWritten`, `Profils.UnknownProfileGivesServerError` | `Profils.GetRecommandations` |

=== FILE: clean_api.dfy ===
/** The cleaning of the downloaded episode files (scripts/clean_api.py):
    first-occurrence deduplication of GeoJSON features, the in-place
    rewriting of point coordinates, the per-file result record and the
    totals of the cleaning report. File reading, writing and sizes are left
    to the caller; rounding is a parameter. */
module CleanApi {
  import opened Wrappers
  import opened JsonData
  import opened Text
  import Seqs

  /** A GeoJSON feature: its `properties` object and its `geometry`, each
      possibly missing or null. */
  datatype Feature = Feature(properties: Field<map<string, Json>>, geometry: Field<Geometry>)

  /** The deduplication key: aasqa, date_ech, lib_zone, etat, code_zone. */
  type Key = (Json, Json, Json, Json, Json)

  /** `props.get(name, '')` with `props = feature.get('properties', {})`:
      None where `props` is None and `props.get` raises AttributeError. */
  function Prop(f: Feature, name: string): (v: Option<Json>)
    ensures v.None? <==> f.properties.Null?
    ensures f.properties.Absent? ==> v == Some(JStr(""))
    ensures f.properties.Present? && name !in f.properties.value ==> v == Some(JStr(""))
    ensures f.properties.Present? && name in f.properties.value ==> v == Some(f.properties.value[name])
  {
    match f.properties
    case Absent => Some(JStr(""))
    case Null => None
    case Present(props) => Some(if name in props then props[name] else JStr(""))
  }

  /** A JSON value Python can hash: every one but a list. */
  predicate Hashable(j: Json) {
    !j.JArray?
  }

  /** The key of a feature, or None where building it raises
      (null properties) or looking it up in `seen` raises TypeError (a list
      among its fields). */
  function FeatureKey(f: Feature): (k: Option<Key>)
    ensures k.Some? <==> && !f.properties.Null? && Hashable(Prop(f, "aasqa").value)
                         && Hashable(Prop(f, "date_ech").value) && Hashable(Prop(f, "lib_zone").value)
                         && Hashable(Prop(f, "etat").value) && Hashable(Prop(f, "code_zone").value)
    ensures k.Some? ==> k.value == (Prop(f, "aasqa").value, Prop(f, "date_ech").value, Prop(f, "lib_zone").value,
                                    Prop(f, "etat").value, Prop(f, "code_zone").value)
  {
    if f.properties.Null? then None
    else
      var key := (Prop(f, "aasqa").value, Prop(f, "date_ech").value, Prop(f, "lib_zone").value,
                  Prop(f, "etat").value, Prop(f, "code_zone").value);
      if Hashable(key.0) && Hashable(key.1) && Hashable(key.2) && Hashable(key.3) && Hashable(key.4)
      then Some(key)
      else None
  }

  /** A feature has no key exactly when its properties are null or one of
      the five key fields holds a list. */
  lemma FeatureKeyFails(f: Feature)
    ensures FeatureKey(f).None? <==> f.properties.Null? || exists name :: IsKeyField(name) && !Hashable(Prop(f, name).value)
  {
    if !f.properties.Null? && exists name :: IsKeyField(name) && !Hashable(Prop(f, name).value) {
      var name :| IsKeyField(name) && !Hashable(Prop(f, name).value);
      assert name == "aasqa" || name == "date_ech" || name == "lib_zone" || name == "etat" || name == "code_zone";
    }
  }

  /** The five property names of the key. */
  predicate IsKeyField(name: string) {
    match name
    case "aasqa" => true
    case "date_ech" => true
    case "lib_zone" => true
    case "etat" => true
    case "code_zone" => true
    case _ => false
  }

  /** Every feature up to `n` has a key. */
  predicate KeyedUpTo(features: seq<Feature>, n: nat) {
    forall j :: 0 <= j < n && j < |features| ==> FeatureKey(features[j]).Some?
  }

  /** What remove_duplicates returns. */
  datatype Dedup = Dedup(unique: seq<Feature>, duplicates: nat)

  /** remove_duplicates: the features whose key has not been seen before, in
      order, and the number of features dropped; the position of the first
      feature whose key raises, if any. */
  method RemoveDuplicates(features: seq<Feature>) returns (r: Result<Dedup, nat>)
    ensures r.Failure? <==> !KeyedUpTo(features, |features|)
    ensures r.Failure? ==> r.error < |features| && FeatureKey(features[r.error]).None?
                           && KeyedUpTo(features, r.error)
    ensures r.Success? ==> && r.value.unique == Seqs.KeepFirst(features, FeatureKey)
                           && |r.value.unique| + r.value.duplicates == |features|
                           && Seqs.DistinctKeys(r.value.unique, FeatureKey)
                           && Seqs.IsSubseq(r.value.unique, features)
  {
    var seen: set<Key> := {};
    var unique: seq<Feature> := [];
    var duplicates := 0;
    var i := 0;
    while i < |features|
      invariant 0 <= i <= |features|
      invariant KeyedUpTo(features, i)
      invariant unique == Seqs.KeepFirst(features[..i], FeatureKey)
      invariant forall k :: k in seen <==> Some(k) in Seqs.KeysOf(unique, FeatureKey)
      invariant |unique| + duplicates == i
    {
      var f := features[i];
      var key := FeatureKey(f);
      if key.None? {
        return Failure(i);
      }
      DedupStep(features, i, unique, seen, key.value);
      if key.value !in seen {
        seen := seen + {key.value};
        unique := unique + [f];
      } else {
        duplicates := duplicates + 1;
      }
      i := i + 1;
    }
    assert features[..i] == features;
    Seqs.KeepFirstDistinct(features, FeatureKey);
    Seqs.KeepFirstSubseq(features, FeatureKey);
    return Success(Dedup(unique, duplicates));
  }

  /** Helper of RemoveDuplicates: one step of its loop. */
  lemma DedupStep(features: seq<Feature>, i: nat, unique: seq<Feature>, seen: set<Key>, k: Key)
    requires i < |features| && FeatureKey(features[i]) == Some(k)
    requires unique == Seqs.KeepFirst(features[..i], FeatureKey)
    requires forall x :: x in seen <==> Some(x) in Seqs.KeysOf(unique, FeatureKey)
    ensures k in seen ==> Seqs.KeepFirst(features[..i + 1], FeatureKey) == unique
    ensures k !in seen ==> Seqs.KeepFirst(features[..i + 1], FeatureKey) == unique + [features[i]]
    ensures k !in seen ==> forall x :: x in seen + {k} <==> Some(x) in Seqs.KeysOf(unique + [features[i]], FeatureKey)
  {
    assert features[..i + 1][..i] == features[..i];
    Seqs.KeysOfSnoc(unique, features[i], FeatureKey);
  }

  /** A second deduplication of the kept features drops nothing. */
  lemma RemoveDuplicatesTwice(features: seq<Feature>)
    ensures var unique := Seqs.KeepFirst(features, FeatureKey);
            Seqs.KeepFirst(unique, FeatureKey) == unique
  {
    Seqs.KeepFirstIdempotent(features, FeatureKey);
  }

  /** The first feature with a given key is always kept. */
  lemma RemoveDuplicatesKeepsFirst(features: seq<Feature>, i: nat)
    requires i < |features|
    requires forall j :: 0 <= j < i ==> FeatureKey(features[j]) != FeatureKey(features[i])
    ensures features[i] in Seqs.KeepFirst(features, FeatureKey)
  {
    Seqs.KeepFirstKeepsFirsts(features, FeatureKey, i);
  }

  // ---------------------------------------------------------------------
  // Coordinates

  /** `feature.get('geometry', {}).get('coordinates', [])`: None where the
      geometry is null and `.get` raises AttributeError. */
  function Coordinates(f: Feature): (c: Option<Field<seq<Json>>>)
    ensures c.None? <==> f.geometry.Null?
    ensures f.geometry.Absent? ==> c == Some(Absent)
    ensures f.geometry.Present? ==> c == Some(f.geometry.value.coordinates)
  {
    match f.geometry
    case Absent => Some(Absent)
    case Null => None
    case Present(g) => Some(g.coordinates)
  }

  /** The guard of optimize_coordinates: a list of exactly two numbers. */
  predicate Rewritable(f: Feature) {
    && !f.geometry.Null?
    && var c := Coordinates(f).value;
       c.Present? && |c.value| == 2 && IsNumber(c.value[0]) && IsNumber(c.value[1])
  }

  /** The least integer magnitude `float()` rejects, 2^1024 - 2^970: the
      point halfway between the largest double, 2^1024 - 2^971, and 2^1024,
      from which conversion rounds up and overflows. */
  const FloatOverflow: int := 179769313486231580793728971405303415079934132710037826936173778980444968292764750946649017977587207096330286416692887910946555547851940402630657488671505820681908902000708383676273854845817711531764475730270069855571366959622842914819860834936475292719074168444365510704342711559699508093042880177904174497792

  /** 2^1024, the first power of two beyond every double. */
  const TwoTo1024: nat := 179769313486231590772930519078902473361797697894230657273430081157732675805500963132708477322407536021120113879871393357658789768814416622492847430639474124377767893424865485276302219601246094119453082952085005768838150682342462881473913110540827237163350510684586298239947245938479716304835356329624224137216

  /** `float(x)` of a number does not raise OverflowError: only an integer
      of magnitude at least FloatOverflow does. */
  predicate FloatConvertible(x: Json)
    requires IsNumber(x)
  {
    x.JInt? ==> -FloatOverflow < x.i < FloatOverflow
  }

  /** Where the rewrite raises: a null geometry, read at line 42, or a
      coordinate `float()` cannot convert, which the `except (TypeError,
      ValueError)` does not catch. */
  predicate Fails(f: Feature) {
    || f.geometry.Null?
    || (Rewritable(f) && var c := Coordinates(f).value.value;
        !(FloatConvertible(c[0]) && FloatConvertible(c[1])))
  }

  /** The feature after optimize_coordinates, `round` standing for
      `round(x, 6)`, or None where the rewrite raises: only a rewritable
      feature changes, and then only its two coordinates. */
  function Optimize(f: Feature, round: real -> real): (g: Option<Feature>)
    ensures g.None? <==> Fails(f)
    ensures g.Some? ==> g.value.properties == f.properties
    ensures g.Some? && !Rewritable(f) ==> g.value == f
    ensures g.Some? && Rewritable(f) ==>
              && g.value.geometry.Present? && g.value.geometry.value.kind == f.geometry.value.kind
              && g.value.geometry.value.coordinates
                 == Present([JFloat(round(AsReal(Coordinates(f).value.value[0]))),
                             JFloat(round(AsReal(Coordinates(f).value.value[1])))])
  {
    if Fails(f) then None
    else if Rewritable(f) then
      var c := Coordinates(f).value.value;
      Some(f.(geometry := Present(f.geometry.value.(coordinates :=
            Present([JFloat(round(AsReal(c[0]))), JFloat(round(AsReal(c[1])))])))))
    else Some(f)
  }

  /** A coordinate of 2^1024 (TwoTo1024) passes the number guard, yet `float()` raises
      on it, so the feature fails instead of being rewritten. */
  lemma HugeCoordinateFails(f: Feature, round: real -> real)
    requires f.geometry == Present(Geometry(None, Present([JInt(TwoTo1024), JInt(0)])))
    ensures Rewritable(f) && Optimize(f, round).None?
  {
  }

  /** optimize_coordinates over the feature list, updating each feature in
      place; it stops at the first feature whose rewrite raises, whose
      position it returns, the features before it already rewritten. */
  method OptimizeCoordinates(features: array<Feature>, round: real -> real) returns (failedAt: Option<nat>)
    modifies features
    ensures failedAt.None? <==> forall i :: 0 <= i < features.Length ==> !Fails(old(features[i]))
    ensures failedAt.None? ==> forall i :: 0 <= i < features.Length ==> Optimize(old(features[i]), round) == Some(features[i])
    ensures failedAt.Some? ==>
              && failedAt.value < features.Length && Fails(old(features[failedAt.value]))
              && (forall j :: 0 <= j < failedAt.value ==> Optimize(old(features[j]), round) == Some(features[j]))
              && (forall j :: failedAt.value <= j < features.Length ==> features[j] == old(features[j]))
  {
    var i := 0;
    while i < features.Length
      invariant 0 <= i <= features.Length
      invariant forall j :: 0 <= j < i ==> Optimize(old(features[j]), round) == Some(features[j])
      invariant forall j :: i <= j < features.Length ==> features[j] == old(features[j])
    {
      var f := features[i];
      if f.geometry.Null? {
        return Some(i);
      }
      var c := Coordinates(f).value;
      if c.Present? && |c.value| == 2 && IsNumber(c.value[0]) && IsNumber(c.value[1]) {
        if !(FloatConvertible(c.value[0]) && FloatConvertible(c.value[1])) {
          return Some(i);
        }
        features[i] := f.(geometry := Present(f.geometry.value.(coordinates :=
          Present([JFloat(round(AsReal(c.value[0]))), JFloat(round(AsReal(c.value[1])))]))));
      }
      i := i + 1;
    }
    return None;
  }

  /** Rounding is applied at most once per clean: with an idempotent
      rounding, optimizing twice is optimizing once. */
  lemma OptimizeIdempotent(f: Feature, round: real -> real)
    requires forall x :: round(round(x)) == round(x)
    ensures Optimize(f, round).Some? ==> Optimize(Optimize(f, round).value, round) == Optimize(f, round)
  {
    if Rewritable(f) && !Fails(f) {
      var g := Optimize(f, round).value;
      assert Rewritable(g) && !Fails(g);
      var c := Coordinates(f).value.value;
      assert round(round(AsReal(c[0]))) == round(AsReal(c[0]));
      assert round(round(AsReal(c[1]))) == round(AsReal(c[1]));
    }
  }

  // ---------------------------------------------------------------------
  // Pollutant name

  /** `filename.replace('data_', '').replace('.json', '').upper()`. */
  function PollutantName(filename: string): (name: string)
    ensures |name| <= |filename|
    ensures forall i :: 0 <= i < |name| ==> !('a' <= name[i] <= 'z')
  {
    Upper(RemoveAll(RemoveAll(filename, "data_"), ".json"))
  }

  /** For the file names the script is run on, `data_<stem>.json` with a
      stem free of '_' and '.', the pollutant is the upper-cased stem. */
  lemma PollutantOfDataFile(stem: string)
    requires '_' !in stem && '.' !in stem
    ensures PollutantName("data_" + stem + ".json") == Upper(stem)
  {
    var s := "data_" + stem + ".json";
    assert s[..5] == "data_";
    assert s[5..] == stem + ".json";
    assert '_' !in stem + ".json";
    RemoveAllAbsent(stem + ".json", "data_", '_');
    assert RemoveAll(s, "data_") == stem + ".json";
    RemoveAllSuffix(stem, ".json");
  }

  /** The name of the nitrogen dioxide file. */
  lemma PollutantOfNo2File()
    ensures PollutantName("data_no2.json") == "NO2"
  {
    assert "data_no2.json" == "data_" + "no2" + ".json";
    PollutantOfDataFile("no2");
  }

  // ---------------------------------------------------------------------
  // Per-file result and report totals

  /** The record clean_json_file returns (sizes and percentages left out). */
  datatype CleaningResult = CleaningResult(
    pollutant: string,
    originalEntries: nat,
    cleanedEntries: nat,
    duplicatesRemoved: nat,
    success: bool)

  /** What every record satisfies: on success the kept and the removed
      entries add up to the original ones; on failure every count is 0. */
  predicate Consistent(r: CleaningResult) {
    if r.success then r.cleanedEntries + r.duplicatesRemoved == r.originalEntries
    else r.originalEntries == 0 && r.cleanedEntries == 0 && r.duplicatesRemoved == 0
  }

  /** A feature list clean_json_file gets through: every feature has a key
      and no kept feature fails its rewrite (a null geometry, or a
      coordinate too large for `float()`). */
  predicate Cleanable(features: seq<Feature>) {
    && KeyedUpTo(features, |features|)
    && forall g :: g in Seqs.KeepFirst(features, FeatureKey) ==> !Fails(g)
  }

  /** clean_json_file: `input` is the `features` list of the file, None when
      the file cannot be read, parsed or written; `cleaned` is the feature
      list written out. An exception raised while cleaning is caught and
      reported as a failure. */
  method CleanJsonFile(filename: string, input: Option<seq<Feature>>, round: real -> real)
    returns (result: CleaningResult, cleaned: seq<Feature>)
    ensures result.pollutant == PollutantName(filename)
    ensures Consistent(result)
    ensures result.success <==> input.Some? && Cleanable(input.value)
    ensures result.success ==>
              && result.originalEntries == |input.value|
              && result.cleanedEntries == |cleaned|
              && |cleaned| == |Seqs.KeepFirst(input.value, FeatureKey)|
              && forall i :: 0 <= i < |cleaned| ==>
                   Optimize(Seqs.KeepFirst(input.value, FeatureKey)[i], round) == Some(cleaned[i])
    ensures !result.success ==> cleaned == []
  {
    var pollutant := PollutantName(filename);
    var failed := CleaningResult(pollutant, 0, 0, 0, false);
    if input.None? {
      return failed, [];
    }
    var dedup := RemoveDuplicates(input.value);
    if dedup.Failure? {
      return failed, [];
    }
    var unique := dedup.value.unique;
    var features := new Feature[|unique|](i requires 0 <= i < |unique| => unique[i]);
    assert features[..] == unique;
    var failedAt := OptimizeCoordinates(features, round);
    if failedAt.Some? {
      KeptFailureFails(input.value, failedAt.value);
      return failed, [];
    }
    cleaned := features[..];
    OptimizedIsCleanable(input.value, cleaned, round);
    result := CleaningResult(pollutant, |input.value|, |cleaned|, dedup.value.duplicates, true);
  }

  /** Helper of CleanJsonFile: a kept feature whose rewrite raises fails the
      file. */
  lemma KeptFailureFails(features: seq<Feature>, k: nat)
    requires k < |Seqs.KeepFirst(features, FeatureKey)|
    requires Fails(Seqs.KeepFirst(features, FeatureKey)[k])
    ensures !Cleanable(features)
  {
    assert Seqs.KeepFirst(features, FeatureKey)[k] in Seqs.KeepFirst(features, FeatureKey);
  }

  /** Helper of CleanJsonFile: when every kept feature was optimised, the
      file is cleanable. */
  lemma OptimizedIsCleanable(features: seq<Feature>, out: seq<Feature>, round: real -> real)
    requires KeyedUpTo(features, |features|)
    requires |out| == |Seqs.KeepFirst(features, FeatureKey)|
    requires forall i :: 0 <= i < |out| ==> Optimize(Seqs.KeepFirst(features, FeatureKey)[i], round) == Some(out[i])
    ensures Cleanable(features)
  {
    var kept := Seqs.KeepFirst(features, FeatureKey);
    forall g | g in kept ensures !Fails(g) {
      var k :| 0 <= k < |kept| && kept[k] == g;
      assert Optimize(kept[k], round).Some?;
    }
  }

  /** The totals of generate_cleaning_report (sizes left out). */
  datatype Totals = Totals(successful: nat, originalEntries: nat, cleanedEntries: nat, duplicates: nat)

  /** The successful records. */
  function Successful(results: seq<CleaningResult>): (s: seq<CleaningResult>)
    ensures |s| <= |results|
    ensures forall i :: 0 <= i < |s| ==> s[i].success && s[i] in results
    ensures forall i :: 0 <= i < |results| && results[i].success ==> results[i] in s
    decreases |results|
  {
    if results == [] then []
    else
      var rest := Successful(results[..|results| - 1]);
      assert results == results[..|results| - 1] + [results[|results| - 1]];
      if results[|results| - 1].success then rest + [results[|results| - 1]] else rest
  }

  /** Component-wise sum of the counts of some records. */
  function Sum(rs: seq<CleaningResult>): Totals
    decreases |rs|
  {
    if rs == [] then Totals(0, 0, 0, 0)
    else
      var t := Sum(rs[..|rs| - 1]);
      var r := rs[|rs| - 1];
      Totals(t.successful + 1, t.originalEntries + r.originalEntries,
             t.cleanedEntries + r.cleanedEntries, t.duplicates + r.duplicatesRemoved)
  }

  /** The totals loop of generate_cleaning_report: the number of successful
      records and the sums of their counts; failed records are skipped. */
  method ReportTotals(results: seq<CleaningResult>) returns (t: Totals)
    ensures t == Sum(Successful(results))
    ensures t.successful == |Successful(results)|
  {
    t := Totals(0, 0, 0, 0);
    var i := 0;
    while i < |results|
      invariant 0 <= i <= |results|
      invariant t == Sum(Successful(results[..i]))
    {
      var r := results[i];
      assert results[..i + 1][..i] == results[..i];
      if r.success {
        assert Successful(results[..i + 1]) == Successful(results[..i]) + [r];
        t := Totals(t.successful + 1, t.originalEntries + r.originalEntries,
                    t.cleanedEntries + r.cleanedEntries, t.duplicates + r.duplicatesRemoved);
      }
      i := i + 1;
    }
    assert results[..i] == results;
    SumCountsRecords(Successful(results));
  }

  lemma {:induction false} SumCountsRecords(rs: seq<CleaningResult>)
    ensures Sum(rs).successful == |rs|
    decreases |rs|
  {
    if rs != [] {
      SumCountsRecords(rs[..|rs| - 1]);
    }
  }

  /** Over consistent records, the report's entry totals balance: cleaned
      plus removed entries equal the original entries. */
  lemma {:induction false} ReportBalances(results: seq<CleaningResult>)
    requires forall i :: 0 <= i < |results| ==> Consistent(results[i])
    ensures Sum(Successful(results)).cleanedEntries + Sum(Successful(results)).duplicates
            == Sum(Successful(results)).originalEntries
    decreases |results|
  {
    if results != [] {
      ReportBalances(results[..|results| - 1]);
    }
  }

  /** A failed record changes no total. */
  lemma ReportIgnoresFailures(results: seq<CleaningResult>, failed: CleaningResult)
    requires !failed.success
    ensures Sum(Successful(results + [failed])) == Sum(Successful(results))
  {
    assert (results + [failed])[..|results|] == results;
  }
}

=== FILE: clean_scraping.dfy ===
/** The cleaning of the scraped daily-average files
    (scripts/clean_scraping_data.py). Each file is a JSON list of one-member
    objects whose member name is the CSV header line and whose value is one
    CSV line; cleaning normalises the header names, parses each line against
    them, and keeps the first record of each site/date/pollutant. */
module CleanScraping {
  import opened Wrappers
  import opened Text
  import Seqs

  const Bom: char := '\U{FEFF}'

  /** The header names whose values parse_csv_line converts to numbers. */
  const NumericHeaders: seq<string> := [
    "valeur", "valeur brute", "taux de saisie", "couverture temporelle",
    "couverture de données", "Latitude", "Longitude"]

  /** `header in numeric_columns`, written as a match. */
  predicate IsNumericHeader(h: string) {
    match h
    case "valeur" => true
    case "valeur brute" => true
    case "taux de saisie" => true
    case "couverture temporelle" => true
    case "couverture de données" => true
    case "Latitude" => true
    case "Longitude" => true
    case _ => false
  }

  lemma NumericHeaderIsListed(h: string)
    ensures IsNumericHeader(h) <==> h in NumericHeaders
  {
  }

  /** The header name whose value parse_csv_line converts to an int. */
  const IntegerHeader: string := "validité"

  /** `header_mapping.get(header, header)`: the header names clean_headers
      renames, with their new names; any other name is kept. */
  function Rename(h: string): string {
    match h
    case "Date de début" => "date_debut"
    case "Date de fin" => "date_fin"
    case "Organisme" => "organisme"
    case "code zas" => "code_zas"
    case "Zas" => "zas"
    case "code site" => "code_site"
    case "nom site" => "nom_site"
    case "type d'implantation" => "type_implantation"
    case "Polluant" => "polluant"
    case "type d'influence" => "type_influence"
    case "Réglementaire" => "reglementaire"
    case "type d'évaluation" => "type_evaluation"
    case "type de valeur" => "type_valeur"
    case "valeur" => "valeur"
    case "valeur brute" => "valeur_brute"
    case "unité de mesure" => "unite_mesure"
    case "taux de saisie" => "taux_saisie"
    case "couverture temporelle" => "couverture_temporelle"
    case "couverture de données" => "couverture_donnees"
    case "code qualité" => "code_qualite"
    case "validité" => "validite"
    case "Latitude" => "latitude"
    case "Longitude" => "longitude"
    case _ => h
  }

  /** clean_headers: every U+FEFF removed, the line stripped and split on
      ';', each piece stripped and renamed. One name per piece. */
  function CleanHeaders(line: string): (hs: seq<string>)
    ensures |hs| == Count(line, ';') + 1
  {
    var noBom := RemoveAll(line, [Bom]);
    var pieces := Split(Strip(noBom), ';');
    RemoveCharCounts(line, Bom, ';');
    StripKeepsCount(noBom, ';');
    SplitCount(Strip(noBom), ';');
    seq(|pieces|, i requires 0 <= i < |pieces| => Rename(Strip(pieces[i])))
  }

  /** Every piece of a split is made of characters of the input. */
  lemma {:induction false} SplitChars(s: string, sep: char, i: nat, c: char)
    requires i < |Split(s, sep)| && c in Split(s, sep)[i]
    ensures c in s
    decreases |s|
  {
    var rest := Split(s[1..], sep);
    if s[0] == sep {
      SplitChars(s[1..], sep, i - 1, c);
    } else if i == 0 {
      if c != s[0] {
        assert c in rest[0];
        SplitChars(s[1..], sep, 0, c);
      }
    } else {
      assert Split(s, sep)[i] == rest[i];
      SplitChars(s[1..], sep, i, c);
    }
  }

  /** No cleaned header contains the byte-order mark. */
  lemma CleanHeadersNoBom(line: string, i: nat)
    requires i < |CleanHeaders(line)|
    ensures Bom !in CleanHeaders(line)[i]
  {
    var noBom := RemoveAll(line, [Bom]);
    RemoveCharCounts(line, Bom, Bom);
    var stripped := Strip(noBom);
    StripKeepsCount(noBom, Bom);
    var pieces := Split(stripped, ';');
    if Bom in pieces[i] {
      SplitChars(stripped, ';', i, Bom);
    }
    StripKeepsCount(pieces[i], Bom);
    RenameNoBom(Strip(pieces[i]));
  }

  /** Helper of CleanHeadersNoBom: no new name holds the byte-order mark. */
  lemma RenameNoBom(h: string)
    requires Bom !in h
    ensures Bom !in Rename(h)
  {
  }

  /** With cleaned headers, the conversion lists of parse_csv_line see only
      one of their names: every listed numeric name except 'valeur' is
      renamed away first, and so is 'validité'. */
  lemma CleanHeadersConversions(line: string)
    ensures forall i :: 0 <= i < |CleanHeaders(line)| ==>
              && (IsNumericHeader(CleanHeaders(line)[i]) ==> CleanHeaders(line)[i] == "valeur")
              && CleanHeaders(line)[i] != IntegerHeader
  {
    var hs := CleanHeaders(line);
    var pieces := Split(Strip(RemoveAll(line, [Bom])), ';');
    forall i | 0 <= i < |hs|
      ensures IsNumericHeader(hs[i]) ==> hs[i] == "valeur"
      ensures hs[i] != IntegerHeader
    {
      assert hs[i] == Rename(Strip(pieces[i]));
      RenameConversions(Strip(pieces[i]));
    }
  }

  /** Helper of CleanHeadersConversions, for one name. */
  lemma RenameConversions(h: string)
    ensures IsNumericHeader(Rename(h)) ==> Rename(h) == "valeur"
    ensures Rename(h) != IntegerHeader
  {
  }

  // ---------------------------------------------------------------------
  // Parsing one line

  /** A parsed value: the stripped text, an int, or a float given by its
      decimal text. */
  datatype Cell = Str(s: string) | Int(i: int) | Float(text: string)

  /** The texts Python's float() accepts and this model reads as decimals:
      an optional sign, digits, one '.', digits, with at least one digit. */
  predicate IsDecimal(s: string) {
    var t := if s != [] && (s[0] == '+' || s[0] == '-') then s[1..] else s;
    exists k :: 0 <= k < |t| && t[k] == '.' && AllDigits(t[..k]) && AllDigits(t[k + 1..]) && |t| >= 2
  }

  /** The conversion of parse_csv_line for one stripped value: `float` when
      the value holds a '.', else `int`, for the numeric names; `int` for
      'validité'; a failed conversion keeps the text. */
  function Convert(header: string, value: string): (c: Cell)
    ensures c.Str? ==> c.s == value
    ensures c.Int? ==> ParseInt(value) == Some(c.i)
    ensures c.Float? ==> c.text == value && IsDecimal(value) && IsNumericHeader(header)
    ensures !IsNumericHeader(header) && header != IntegerHeader ==> c == Str(value)
  {
    if IsNumericHeader(header) then
      if '.' in value then (if IsDecimal(value) then Float(value) else Str(value))
      else (match ParseInt(value) case Some(i) => Int(i) case None => Str(value))
    else if header == IntegerHeader then
      match ParseInt(value) case Some(i) => Int(i) case None => Str(value)
    else Str(value)
  }

  /** A parsed record: header name to value. */
  type Record = map<string, Cell>

  /** The values of a line, each stripped and converted under the name of
      its column. */
  function Cells(headers: seq<string>, values: seq<string>): (cs: seq<Cell>)
    requires |headers| == |values|
    ensures |cs| == |headers|
  {
    if headers == [] then []
    else [Convert(headers[0], Strip(values[0]))] + Cells(headers[1..], values[1..])
  }

  /** Column i holds the conversion of the stripped value i under header i. */
  lemma {:induction false} CellsConvert(headers: seq<string>, values: seq<string>)
    requires |headers| == |values|
    ensures forall i :: 0 <= i < |headers| ==> Cells(headers, values)[i] == Convert(headers[i], Strip(values[i]))
    decreases |headers|
  {
    if headers != [] {
      CellsConvert(headers[1..], values[1..]);
    }
  }

  /** The dictionary filled column by column: name i gets value i, and a
      repeated name keeps its last value. */
  function Fill<V>(names: seq<string>, vs: seq<V>): map<string, V>
    requires |names| == |vs|
    decreases |names|
  {
    if names == [] then map[]
    else
      var n := |names| - 1;
      Fill(names[..n], vs[..n])[names[n] := vs[n]]
  }

  /** The record of a line, or None when its field count is not the header
      count. */
  function ParseRow(line: string, headers: seq<string>): Option<Record> {
    var values := Split(line, ';');
    if |values| != |headers| then None else Some(Fill(headers, Cells(headers, values)))
  }

  /** parse_csv_line: the stripped, converted values are stored under their
      header names one column at a time. */
  method ParseCsvLine(line: string, headers: seq<string>) returns (r: Option<Record>)
    ensures r == ParseRow(line, headers)
    ensures r.None? <==> Count(line, ';') + 1 != |headers|
  {
    var values := Split(line, ';');
    SplitCount(line, ';');
    if |values| != |headers| {
      return None;
    }
    var cells := Cells(headers, values);
    var result: Record := map[];
    for i := 0 to |headers|
      invariant result == FillUpTo(headers, cells, i)
    {
      assert FillUpTo(headers, cells, i + 1) == FillUpTo(headers, cells, i)[headers[i] := cells[i]];
      result := result[headers[i] := cells[i]];
    }
    ParseRowFilled(line, headers);
    r := Some(result);
  }

  /** Helper of ParseCsvLine: a line with one field per header parses to
      the dictionary filled column by column. */
  lemma ParseRowFilled(line: string, headers: seq<string>)
    requires |Split(line, ';')| == |headers|
    ensures ParseRow(line, headers) == Some(FillUpTo(headers, Cells(headers, Split(line, ';')), |headers|))
  {
    var cells := Cells(headers, Split(line, ';'));
    FillUpToPrefix(headers, cells, |headers|);
    assert headers[..|headers|] == headers && cells[..|cells|] == cells;
  }

  /** The dictionary of ParseCsvLine after its first `n` columns. */
  function FillUpTo<V>(names: seq<string>, vs: seq<V>, n: nat): map<string, V>
    requires |names| == |vs| && n <= |names|
  {
    if n == 0 then map[] else FillUpTo(names, vs, n - 1)[names[n - 1] := vs[n - 1]]
  }

  /** Helper of ParseCsvLine: the first `n` columns fill the dictionary of
      the first `n` names and values. */
  lemma {:induction false} FillUpToPrefix<V>(names: seq<string>, vs: seq<V>, n: nat)
    requires |names| == |vs| && n <= |names|
    ensures FillUpTo(names, vs, n) == Fill(names[..n], vs[..n])
  {
    if n > 0 {
      FillUpToPrefix(names, vs, n - 1);
      assert names[..n][..n - 1] == names[..n - 1];
      assert vs[..n][..n - 1] == vs[..n - 1];
    }
  }

  /** The record has exactly the header names as keys. */
  lemma {:induction false} FillKeys<V>(names: seq<string>, vs: seq<V>)
    requires |names| == |vs|
    ensures Fill(names, vs).Keys == set h | h in names
    decreases |names|
  {
    if names != [] {
      var n := |names| - 1;
      FillKeys(names[..n], vs[..n]);
      assert names == names[..n] + [names[n]];
    }
  }

  /** Each name holds the value of its last column. */
  lemma {:induction false} FillLastWins<V>(names: seq<string>, vs: seq<V>, j: nat)
    requires |names| == |vs| && j < |names|
    requires forall k :: j < k < |names| ==> names[k] != names[j]
    ensures names[j] in Fill(names, vs) && Fill(names, vs)[names[j]] == vs[j]
    decreases |names|
  {
    var n := |names| - 1;
    if j < n {
      var hs, xs := names[..n], vs[..n];
      assert hs[j] == names[j] && xs[j] == vs[j];
      assert forall k :: j < k < |hs| ==> hs[k] != hs[j] by {
        forall k | j < k < |hs| ensures hs[k] != hs[j] {
          assert hs[k] == names[k];
        }
      }
      FillLastWins(hs, xs, j);
    }
  }

  /** Every value of the record is the value of some column of that name. */
  lemma {:induction false} FillFromColumn<V>(names: seq<string>, vs: seq<V>, h: string)
    requires |names| == |vs| && h in Fill(names, vs)
    ensures exists j :: 0 <= j < |names| && names[j] == h && Fill(names, vs)[h] == vs[j]
    decreases |names|
  {
    var n := |names| - 1;
    if names[n] != h {
      FillFromColumn(names[..n], vs[..n], h);
      var j :| 0 <= j < n && names[..n][j] == h && Fill(names[..n], vs[..n])[h] == vs[..n][j];
      assert names[j] == h && vs[j] == vs[..n][j];
    }
  }

  /** A parsed line maps each header to the stripped, converted value of
      its last column, and values under names outside the conversion lists
      stay text. */
  lemma ParseRowValues(line: string, headers: seq<string>, h: string)
    requires ParseRow(line, headers).Some? && h in ParseRow(line, headers).value
    ensures exists j :: 0 <= j < |headers| && headers[j] == h
              && ParseRow(line, headers).value[h] == Convert(h, Strip(Split(line, ';')[j]))
              && (!IsNumericHeader(h) && h != IntegerHeader ==>
                    ParseRow(line, headers).value[h] == Str(Strip(Split(line, ';')[j])))
  {
    var values := Split(line, ';');
    var cells := Cells(headers, values);
    FillFromColumn(headers, cells, h);
    CellsConvert(headers, values);
  }

  // ---------------------------------------------------------------------
  // Cleaning one file

  /** One element of the file: its first member name and that member's
      value, a CSV line. */
  datatype Item = Item(key: string, line: string)

  const Source: string := "scraping-moy_journaliere"

  /** The record carries the metadata of a file with stem `stem`. */
  predicate HasMetadata(r: Record, stem: string) {
    "source" in r && r["source"] == Str(Source) && "polluant_type" in r && r["polluant_type"] == Str(stem)
  }

  /** The record with its metadata (the import date is left out). */
  function WithMetadata(r: Record, stem: string): (m: Record)
    ensures m.Keys == r.Keys + {"source", "polluant_type"}
    ensures HasMetadata(m, stem)
  {
    r["source" := Str(Source)]["polluant_type" := Str(stem)]
  }

  /** `str(parsed_data.get(name, ''))`; a float is shown as its text. */
  function FieldText(r: Record, name: string): string {
    if name !in r then ""
    else match r[name]
      case Str(s) => s
      case Int(i) => IntToString(i)
      case Float(t) => t
  }

  /** The duplicate key `code_site_date_debut_polluant`. */
  function RecordKey(r: Record): string {
    FieldText(r, "code_site") + "_" + FieldText(r, "date_debut") + "_" + FieldText(r, "polluant")
  }

  /** The records of the lines that parse, with metadata, in file order. */
  function Parsed(items: seq<Item>, headers: seq<string>, stem: string): (rs: seq<Record>)
    ensures |rs| <= |items|
    ensures forall i :: 0 <= i < |rs| ==> HasMetadata(rs[i], stem)
    decreases |items|
  {
    if items == [] then []
    else
      var n := |items| - 1;
      var rest := Parsed(items[..n], headers, stem);
      var row := ParseRow(items[n].line, headers);
      if row.None? then rest else Snoc(rest, WithMetadata(row.value, stem), stem)
  }

  /** Helper of Parsed: one more record carrying the metadata. */
  function Snoc(rs: seq<Record>, r: Record, stem: string): (s: seq<Record>)
    requires forall i :: 0 <= i < |rs| ==> HasMetadata(rs[i], stem)
    requires HasMetadata(r, stem)
    ensures s == rs + [r]
    ensures forall i :: 0 <= i < |s| ==> HasMetadata(s[i], stem)
  {
    rs + [r]
  }

  /** The three counters of clean_file and its kept records. */
  datatype CleanOutcome = CleanOutcome(kept: seq<Record>, duplicates: nat, errors: nat)

  /** clean_file: the headers come from the first item; each item is an
      error, a duplicate or kept. The count returned is the number of kept
      records; an empty file gives 0 and no outcome. */
  method CleanFile(items: seq<Item>, stem: string) returns (count: nat, outcome: Option<CleanOutcome>)
    ensures items == [] ==> count == 0 && outcome.None?
    ensures items != [] ==>
              && outcome.Some?
              && var o := outcome.value;
              && var parsed := Parsed(items, CleanHeaders(items[0].key), stem);
              && o.kept == Seqs.KeepFirst(parsed, RecordKey)
              && o.errors + |parsed| == |items|
              && |o.kept| + o.duplicates + o.errors == |items|
              && count == |o.kept|
    ensures outcome.Some? ==>
              forall i :: 0 <= i < |outcome.value.kept| ==> HasMetadata(outcome.value.kept[i], stem)
  {
    if items == [] {
      return 0, None;
    }
    var headers := CleanHeaders(items[0].key);
    ghost var parsed: seq<Record> := [];
    var kept: seq<Record> := [];
    var duplicates := 0;
    var errors := 0;
    var seen: set<string> := {};
    var i := 0;
    while i < |items|
      invariant 0 <= i <= |items|
      invariant parsed == Parsed(items[..i], headers, stem)
      invariant kept == Seqs.KeepFirst(parsed, RecordKey)
      invariant seen == Seqs.KeysOf(kept, RecordKey)
      invariant errors + |parsed| == i
      invariant |kept| + duplicates == |parsed|
    {
      var item := items[i];
      assert items[..i + 1][..i] == items[..i];
      var row := ParseCsvLine(item.line, headers);
      if row.None? {
        errors := errors + 1;
      } else {
        var record := WithMetadata(row.value, stem);
        parsed := parsed + [record];
        var key := RecordKey(record);
        assert parsed[..|parsed| - 1] + [record] == parsed;
        if key in seen {
          duplicates := duplicates + 1;
        } else {
          seen := seen + {key};
          Seqs.KeysOfSnoc(kept, record, RecordKey);
          kept := kept + [record];
        }
      }
      i := i + 1;
    }
    assert items[..i] == items;
    Seqs.KeepFirstCount(parsed, RecordKey);
    KeptRecordsFromParsed(parsed, stem);
    return |kept|, Some(CleanOutcome(kept, duplicates, errors));
  }

  /** Helper of CleanFile: kept records are parsed records. */
  lemma KeptRecordsFromParsed(parsed: seq<Record>, stem: string)
    requires forall i :: 0 <= i < |parsed| ==> HasMetadata(parsed[i], stem)
    ensures forall i :: 0 <= i < |Seqs.KeepFirst(parsed, RecordKey)| ==>
              HasMetadata(Seqs.KeepFirst(parsed, RecordKey)[i], stem)
  {
    var kept := Seqs.KeepFirst(parsed, RecordKey);
    Seqs.KeepFirstSubseq(parsed, RecordKey);
    forall i | 0 <= i < |kept| ensures HasMetadata(kept[i], stem) {
      Seqs.SubseqMember(kept, parsed, i);
    }
  }

  /** The key joins three texts with '_', so records that differ in those
      fields can share a key when a field itself contains '_'. */
  lemma KeyJoinsWithUnderscore()
    ensures RecordKey(map["code_site" := Str("FR_1"), "date_debut" := Str("2024"), "polluant" := Str("NO2")])
            == RecordKey(map["code_site" := Str("FR"), "date_debut" := Str("1_2024"), "polluant" := Str("NO2")])
  {
  }
}

=== FILE: cleaned_csv.dfy ===
/** The per-file pipeline of scripts/cleaned_csv.py, on a table held as its
    column labels and its rows, a row holding one cell per column and a
    cell being None where pandas has a missing value. The pipeline drops
    the listed columns, then the column at index 6, renames the columns
    when exactly eleven are left, drops the rows missing a critical value
    and fills the remaining gaps of three text columns with "Inconnu". */
module CleanedCsv {
  import opened Wrappers
  import opened Text
  import opened Seqs

  type Cell = Option<string>
  type Row = seq<Cell>

  datatype Table = Table(columns: seq<string>, rows: seq<Row>)

  /** Every row has one cell per column. */
  predicate Rectangular(t: Table) {
    forall k :: 0 <= k < |t.rows| ==> |t.rows[k]| == |t.columns|
  }

  /** No label occurs twice, as for a frame read by read_csv, which renames
      repeated header names. */
  predicate Distinct(labels: seq<string>) {
    forall i, j :: 0 <= i < j < |labels| ==> labels[i] != labels[j]
  }

  const ColumnsToDrop: seq<string> :=
    ["date_maj", "code_zone", "coul_qual", "date_ech", "epsg_reg", "x_reg", "x_wgs84", "y_reg", "y_wgs84", "gml_id2"]

  const NewNames: seq<string> :=
    ["aasqa", "NO2", "O3", "PM10", "PM25", "SO2", "date_prise_mesure", "qualite_air", "zone", "source", "type_zone"]

  /** The column dropped by position. */
  const SeventhColumn: nat := 6

  /** A row missing a value in one of these columns is dropped. */
  const CriticalColumns: seq<string> := ["aasqa", "date_prise_mesure", "zone"]

  /** A missing value in one of these columns is replaced by Unknown. */
  const DefaultedColumns: seq<string> := ["qualite_air", "source", "type_zone"]

  const Unknown: string := "Inconnu"

  // ---------------------------------------------------------------------
  // Dropping columns by label

  /** The positions whose label is not dropped, in increasing order. */
  function KeptIndices(labels: seq<string>, drop: set<string>): (idx: seq<nat>)
    ensures forall j :: 0 <= j < |idx| ==> idx[j] < |labels|
    decreases |labels|
  {
    if labels == [] then []
    else
      var n := |labels| - 1;
      KeptIndices(labels[..n], drop) + (if labels[n] in drop then [] else [n])
  }

  /** The kept positions are increasing, and a position is kept exactly
      when its label is not dropped. */
  lemma {:induction false} KeptIndicesFacts(labels: seq<string>, drop: set<string>)
    ensures var idx := KeptIndices(labels, drop);
            && (forall j, j' :: 0 <= j < j' < |idx| ==> idx[j] < idx[j'])
            && (forall i :: 0 <= i < |labels| ==> (i in idx <==> labels[i] !in drop))
    decreases |labels|
  {
    if labels != [] {
      KeptIndicesFacts(labels[..|labels| - 1], drop);
    }
  }

  /** The items of `xs` at the positions `idx`. */
  function Pick<T>(xs: seq<T>, idx: seq<nat>): seq<T>
    requires forall j :: 0 <= j < |idx| ==> idx[j] < |xs|
  {
    seq(|idx|, j requires 0 <= j < |idx| => xs[idx[j]])
  }

  /** `df.drop(columns=...)`: every column whose label is in `drop` goes,
      together with its cell in every row. */
  function DropColumns(t: Table, drop: set<string>): (r: Table)
    requires Rectangular(t)
    ensures Rectangular(r) && |r.rows| == |t.rows|
  {
    var idx := KeptIndices(t.columns, drop);
    Table(Pick(t.columns, idx), seq(|t.rows|, k requires 0 <= k < |t.rows| => Pick(t.rows[k], idx)))
  }

  /** Picking the kept positions of the labels is filtering out the
      dropped labels. */
  lemma {:induction false} KeptLabels(labels: seq<string>, drop: set<string>)
    ensures Pick(labels, KeptIndices(labels, drop)) == Filter(labels, c => c !in drop)
    decreases |labels|
  {
    if labels != [] {
      var n := |labels| - 1;
      var init := labels[..n];
      KeptLabels(init, drop);
      var idx := KeptIndices(init, drop);
      var all := KeptIndices(labels, drop);
      assert all[..|idx|] == idx;
      assert Pick(labels, all)[..|idx|] == Pick(init, idx);
    }
  }

  /** Dropping columns keeps exactly the columns whose label is not
      dropped, in their order. */
  lemma DropColumnsLabels(t: Table, drop: set<string>)
    requires Rectangular(t)
    ensures DropColumns(t, drop).columns == Filter(t.columns, c => c !in drop)
  {
    KeptLabels(t.columns, drop);
  }

  /** Each kept column takes its own cells along: the j-th column of the
      result is a column of the input with the same label and, row by row,
      the same cells. */
  lemma DropColumnsCells(t: Table, drop: set<string>, j: nat)
    requires Rectangular(t) && j < |DropColumns(t, drop).columns|
    ensures var r := DropColumns(t, drop);
            exists i :: 0 <= i < |t.columns| && t.columns[i] == r.columns[j] && t.columns[i] !in drop
                        && forall k :: 0 <= k < |t.rows| ==> r.rows[k][j] == t.rows[k][i]
  {
    var idx := KeptIndices(t.columns, drop);
    KeptIndicesFacts(t.columns, drop);
    var i := idx[j];
    assert i in idx;
  }

  /** Dropping columns keeps labels distinct. */
  lemma DropColumnsDistinct(t: Table, drop: set<string>)
    requires Rectangular(t) && Distinct(t.columns)
    ensures Distinct(DropColumns(t, drop).columns)
  {
    KeptIndicesFacts(t.columns, drop);
  }

  /** With one label dropped at position m, every other position is kept. */
  lemma {:induction false} KeptAllBut(labels: seq<string>, drop: set<string>, m: nat)
    requires m < |labels|
    requires forall i :: 0 <= i < |labels| ==> (labels[i] in drop <==> i == m)
    ensures KeptIndices(labels, drop) == seq(|labels| - 1, j requires 0 <= j => if j < m then j else j + 1)
    decreases |labels|
  {
    var n := |labels| - 1;
    if n == m {
      KeptNone(labels[..n], drop);
    } else {
      KeptAllBut(labels[..n], drop, m);
    }
  }

  /** With no label dropped, every position is kept. */
  lemma {:induction false} KeptNone(labels: seq<string>, drop: set<string>)
    requires forall i :: 0 <= i < |labels| ==> labels[i] !in drop
    ensures KeptIndices(labels, drop) == seq(|labels|, j requires 0 <= j => j)
    decreases |labels|
  {
    if labels != [] {
      KeptNone(labels[..|labels| - 1], drop);
    }
  }

  // ---------------------------------------------------------------------
  // The stages

  /** The listed columns the frame actually has; only these are dropped,
      since pandas refuses to drop an absent label. */
  function PresentToDrop(columns: seq<string>): set<string> {
    set c | c in ColumnsToDrop && c in columns
  }

  function DropListed(t: Table): (r: Table)
    requires Rectangular(t)
    ensures Rectangular(r)
  {
    DropColumns(t, PresentToDrop(t.columns))
  }

  /** The column at index 6, when there are more than six, is dropped by
      its label. */
  function DropSeventh(t: Table): (r: Table)
    requires Rectangular(t)
    ensures Rectangular(r)
  {
    if |t.columns| > SeventhColumn then DropColumns(t, {t.columns[SeventhColumn]}) else t
  }

  /** The labels are replaced by NewNames only when the counts agree. */
  function Rename(t: Table): Table {
    if |t.columns| == |NewNames| then t.(columns := NewNames) else t
  }

  /** The row has a value in every column labelled `c`. */
  predicate HasValue(r: Row, columns: seq<string>, c: string) {
    forall i :: 0 <= i < |columns| && i < |r| && columns[i] == c ==> r[i].Some?
  }

  /** The row has a value in every column labelled by one of `cs`. */
  predicate Complete(r: Row, columns: seq<string>, cs: seq<string>) {
    forall j :: 0 <= j < |cs| ==> HasValue(r, columns, cs[j])
  }

  /** The rows with a value in every column labelled by one of `cs`. */
  function KeepComplete(rows: seq<Row>, columns: seq<string>, cs: seq<string>): seq<Row> {
    Filter(rows, (r: Row) => Complete(r, columns, cs))
  }

  /** `dropna(subset=[c])`: the rows with a value in every column labelled `c`. */
  function KeepWithValue(rows: seq<Row>, columns: seq<string>, c: string): seq<Row> {
    Filter(rows, (r: Row) => HasValue(r, columns, c))
  }

  /** `fillna(Unknown)` on every column labelled by one of `cs`. */
  function Filled(r: Row, columns: seq<string>, cs: seq<string>): Row {
    seq(|r|, i requires 0 <= i < |r| =>
      if i < |columns| && columns[i] in cs && r[i].None? then Some(Unknown) else r[i])
  }

  /** The frame after the three column stages. */
  function Shaped(t: Table): (r: Table)
    requires Rectangular(t)
    ensures Rectangular(r)
  {
    Rename(DropSeventh(DropListed(t)))
  }

  /** The rows with a value in every critical column, in their order. */
  function WithoutIncomplete(t: Table): Table {
    t.(rows := KeepComplete(t.rows, t.columns, CriticalColumns))
  }

  /** Every row with its defaulted columns filled. */
  function WithDefaults(t: Table): Table {
    t.(rows := seq(|t.rows|, k requires 0 <= k < |t.rows| => Filled(t.rows[k], t.columns, DefaultedColumns)))
  }

  /** The frame the script writes for the frame `t` it reads. */
  function Cleaned(t: Table): Table
    requires Rectangular(t)
  {
    WithDefaults(WithoutIncomplete(Shaped(t)))
  }

  /** The cleaning of one file, stage by stage. */
  method CleanTable(t: Table) returns (df: Table)
    requires Rectangular(t)
    ensures df == Cleaned(t)
  {
    df := DropColumns(t, PresentToDrop(t.columns));
    if |df.columns| > SeventhColumn {
      df := DropColumns(df, {df.columns[SeventhColumn]});
    }
    if |df.columns| == |NewNames| {
      df := df.(columns := NewNames);
    }
    df := DropIncomplete(df, CriticalColumns);
    df := FillDefaults(df);
  }

  /** The dropna loop over the columns of `critical` the frame has. */
  method DropIncomplete(t: Table, critical: seq<string>) returns (df: Table)
    ensures df == t.(rows := KeepComplete(t.rows, t.columns, critical))
  {
    df := t;
    FilterAll(t.rows, (r: Row) => Complete(r, t.columns, critical[..0]));
    var i := 0;
    while i < |critical|
      invariant 0 <= i <= |critical|
      invariant df.columns == t.columns
      invariant df.rows == KeepComplete(t.rows, t.columns, critical[..i])
    {
      var col := critical[i];
      if col in df.columns {
        CompleteSnoc(t.rows, t.columns, critical, i);
        df := df.(rows := KeepWithValue(df.rows, df.columns, col));
      } else {
        CompleteAbsent(t.rows, t.columns, critical, i);
      }
      i := i + 1;
    }
    assert critical[..i] == critical;
  }

  /** The fillna loop over the defaulted columns the frame has. */
  method FillDefaults(t: Table) returns (df: Table)
    ensures df == WithDefaults(t)
  {
    df := t;
    var i := 0;
    while i < |DefaultedColumns|
      invariant 0 <= i <= |DefaultedColumns|
      invariant df.columns == t.columns
      invariant |df.rows| == |t.rows|
      invariant forall k :: 0 <= k < |t.rows| ==> df.rows[k] == Filled(t.rows[k], t.columns, DefaultedColumns[..i])
    {
      var col := DefaultedColumns[i];
      assert DefaultedColumns[..i + 1] == DefaultedColumns[..i] + [col];
      if col in df.columns {
        var columns := df.columns;
        var rows := df.rows;
        df := df.(rows := seq(|rows|, k requires 0 <= k < |rows| => Filled(rows[k], columns, [col])));
        forall k | 0 <= k < |t.rows|
          ensures df.rows[k] == Filled(t.rows[k], t.columns, DefaultedColumns[..i + 1])
        {
          FilledTwice(t.rows[k], t.columns, DefaultedColumns[..i], col);
        }
      } else {
        forall k | 0 <= k < |t.rows|
          ensures df.rows[k] == Filled(t.rows[k], t.columns, DefaultedColumns[..i + 1])
        {
          FilledAbsent(t.rows[k], t.columns, DefaultedColumns[..i], col);
        }
      }
      i := i + 1;
    }
    assert DefaultedColumns[..i] == DefaultedColumns;
  }

  /** Dropping the rows missing `cs[n]` after those missing one of
      `cs[..n]` is dropping the rows missing one of `cs[..n + 1]`. */
  lemma CompleteSnoc(rows: seq<Row>, columns: seq<string>, cs: seq<string>, n: nat)
    requires n < |cs|
    ensures KeepWithValue(KeepComplete(rows, columns, cs[..n]), columns, cs[n])
            == KeepComplete(rows, columns, cs[..n + 1])
  {
    forall r | r in rows
      ensures Complete(r, columns, cs[..n + 1]) == (Complete(r, columns, cs[..n]) && HasValue(r, columns, cs[n]))
    {
      assert cs[..n + 1][n] == cs[n];
      forall j | 0 <= j < n ensures cs[..n + 1][j] == cs[..n][j] {
      }
    }
    FilterFilter(rows, (r: Row) => Complete(r, columns, cs[..n]), (r: Row) => HasValue(r, columns, cs[n]),
                 (r: Row) => Complete(r, columns, cs[..n + 1]));
  }

  /** A row always has a value in every column of a label the frame lacks. */
  lemma CompleteAbsent(rows: seq<Row>, columns: seq<string>, cs: seq<string>, n: nat)
    requires n < |cs| && cs[n] !in columns
    ensures KeepComplete(rows, columns, cs[..n]) == KeepComplete(rows, columns, cs[..n + 1])
  {
    forall r | r in rows ensures Complete(r, columns, cs[..n]) == Complete(r, columns, cs[..n + 1]) {
      assert HasValue(r, columns, cs[n]);
      assert cs[..n + 1][n] == cs[n];
      forall j | 0 <= j < n ensures cs[..n + 1][j] == cs[..n][j] {
      }
    }
    FilterCongruent(rows, (r: Row) => Complete(r, columns, cs[..n]), (r: Row) => Complete(r, columns, cs[..n + 1]));
  }

  /** Filling one more column after some columns is filling them all. */
  lemma FilledTwice(r: Row, columns: seq<string>, cs: seq<string>, c: string)
    ensures Filled(Filled(r, columns, cs), columns, [c]) == Filled(r, columns, cs + [c])
  {
    var a := Filled(Filled(r, columns, cs), columns, [c]);
    var b := Filled(r, columns, cs + [c]);
    forall i | 0 <= i < |r| ensures a[i] == b[i] {
    }
  }

  /** Filling a column the frame does not have changes nothing. */
  lemma FilledAbsent(r: Row, columns: seq<string>, cs: seq<string>, c: string)
    requires c !in columns
    ensures Filled(r, columns, cs) == Filled(r, columns, cs + [c])
  {
    var a := Filled(r, columns, cs);
    var b := Filled(r, columns, cs + [c]);
    forall i | 0 <= i < |r| ensures a[i] == b[i] {
      if i < |columns| {
        assert columns[i] != c;
      }
    }
  }

  // ---------------------------------------------------------------------
  // Properties of the pipeline

  /** The first stage removes exactly the listed columns, keeping every
      other column in order. */
  lemma DropListedColumns(t: Table)
    requires Rectangular(t)
    ensures DropListed(t).columns == Filter(t.columns, c => c !in ColumnsToDrop)
  {
    DropColumnsLabels(t, PresentToDrop(t.columns));
    FilterCongruent(t.columns, c => c !in PresentToDrop(t.columns), c => c !in ColumnsToDrop);
  }

  /** With distinct labels, the second stage removes the column at index 6
      and nothing else. */
  lemma DropSeventhExact(t: Table)
    requires Rectangular(t) && Distinct(t.columns) && |t.columns| > SeventhColumn
    ensures DropSeventh(t).columns == t.columns[..SeventhColumn] + t.columns[SeventhColumn + 1..]
    ensures forall k :: 0 <= k < |t.rows| ==>
              DropSeventh(t).rows[k] == t.rows[k][..SeventhColumn] + t.rows[k][SeventhColumn + 1..]
  {
    var m := SeventhColumn;
    KeptAllBut(t.columns, {t.columns[m]}, m);
    var r := DropSeventh(t);
    assert r.columns == t.columns[..m] + t.columns[m + 1..];
    forall k | 0 <= k < |t.rows|
      ensures r.rows[k] == t.rows[k][..m] + t.rows[k][m + 1..]
    {
      assert |r.rows[k]| == |t.rows[k][..m] + t.rows[k][m + 1..]|;
    }
  }

  /** The cleaned frame carries the new names exactly when the input has
      twelve unlisted columns; with any other count it keeps labels taken
      from the input and has a different number of columns. */
  lemma CleanedColumns(t: Table)
    requires Rectangular(t) && Distinct(t.columns)
    ensures var unlisted := Filter(t.columns, c => c !in ColumnsToDrop);
            && (Cleaned(t).columns == NewNames <==> |unlisted| == |NewNames| + 1)
            && (|unlisted| != |NewNames| + 1 ==> forall c :: c in Cleaned(t).columns ==> c in unlisted)
  {
    var d := DropListed(t);
    DropListedColumns(t);
    DropColumnsDistinct(t, PresentToDrop(t.columns));
    var s := DropSeventh(d);
    if |d.columns| > SeventhColumn {
      DropSeventhExact(d);
      assert |s.columns| == |d.columns| - 1;
      forall c | c in s.columns ensures c in d.columns {
      }
    }
  }

  /** The rows of the cleaned frame are the rows with every critical value,
      in their order, none dropped otherwise; no row is added. */
  lemma CleanedRows(t: Table)
    requires Rectangular(t)
    ensures var s := Shaped(t);
            var kept := KeepComplete(s.rows, s.columns, CriticalColumns);
            && |Cleaned(t).rows| == |kept| <= |t.rows|
            && IsSubseq(kept, s.rows)
            && (forall r :: r in s.rows ==> (r in kept <==> Complete(r, s.columns, CriticalColumns)))
  {
    var s := Shaped(t);
    FilterSubseq(s.rows, r => Complete(r, s.columns, CriticalColumns));
  }

  /** In the cleaned frame, critical and defaulted columns hold a value in
      every row; every value present before filling is kept, and a filled
      cell holds Unknown. */
  lemma CleanedCells(t: Table)
    requires Rectangular(t)
    ensures var s := Shaped(t);
            var kept := KeepComplete(s.rows, s.columns, CriticalColumns);
            var c := Cleaned(t);
            forall k, i :: 0 <= k < |c.rows| && 0 <= i < |c.columns| ==>
              && i < |c.rows[k]| && i < |kept[k]|
              && (c.columns[i] in CriticalColumns + DefaultedColumns ==> c.rows[k][i].Some?)
              && (kept[k][i].Some? ==> c.rows[k][i] == kept[k][i])
              && (kept[k][i].None? ==> c.rows[k][i] == if c.columns[i] in DefaultedColumns then Some(Unknown) else None)
  {
    var s := Shaped(t);
    var kept := KeepComplete(s.rows, s.columns, CriticalColumns);
    var c := Cleaned(t);
    forall k, i | 0 <= k < |c.rows| && 0 <= i < |c.columns|
      ensures i < |kept[k]|
      ensures c.columns[i] in CriticalColumns ==> c.rows[k][i].Some?
    {
      assert kept[k] in s.rows;
      if c.columns[i] in CriticalColumns {
        var j :| 0 <= j < |CriticalColumns| && CriticalColumns[j] == c.columns[i];
        assert HasValue(kept[k], s.columns, CriticalColumns[j]);
      }
    }
  }

  // ---------------------------------------------------------------------
  // The folder loop

  /** Only the files whose name ends in ".csv" are cleaned. */
  predicate IsCsv(name: string) {
    EndsWith(name, ".csv")
  }

  /** Each CSV file of the folder with its cleaned frame, in listing order. */
  function CleanedFolder(files: seq<(string, Table)>): (out: seq<(string, Table)>)
    requires forall f :: f in files ==> Rectangular(f.1)
    decreases |files|
  {
    if files == [] then []
    else
      var n := |files| - 1;
      var rest := CleanedFolder(files[..n]);
      if IsCsv(files[n].0) then rest + [(files[n].0, Cleaned(files[n].1))] else rest
  }

  /** A listed file the script cleans. */
  predicate IsCsvFile(f: (string, Table)) {
    IsCsv(f.0)
  }

  /** The output folder holds one cleaned frame per CSV input, under the
      same name, and nothing else. */
  lemma {:induction false} CleanedFolderNames(files: seq<(string, Table)>)
    requires forall f :: f in files ==> Rectangular(f.1)
    ensures var out := CleanedFolder(files);
            var csv := Filter(files, IsCsvFile);
            && |out| == |csv|
            && forall j :: 0 <= j < |out| ==> out[j] == (csv[j].0, Cleaned(csv[j].1))
    decreases |files|
  {
    if files != [] {
      var n := |files| - 1;
      var init := files[..n];
      assert files == init + [files[n]];
      CleanedFolderNames(init);
      FilterSnoc(init, files[n], IsCsvFile);
    }
  }

  /** The script's loop over the listed files. */
  method CleanFolder(files: seq<(string, Table)>) returns (out: seq<(string, Table)>)
    requires forall f :: f in files ==> Rectangular(f.1)
    ensures out == CleanedFolder(files)
  {
    out := [];
    for i := 0 to |files|
      invariant out == CleanedFolder(files[..i])
    {
      assert files[..i + 1][..i] == files[..i];
      if IsCsv(files[i].0) {
        var cleaned := CleanTable(files[i].1);
        out := out + [(files[i].0, cleaned)];
      }
    }
    assert files[..|files|] == files;
  }
}

=== FILE: hybrid_cross.dfy ===
/** cross_reference_data and get_one_sql_one_mongo of
    scripts/hybride/sql+nosql.py: per-source statistics, the search for
    episodes starting within one day of a relational measurement, and the
    assembled result with its truncated lists. */
module HybridCross {
  import opened Wrappers
  import opened HybridRecords
  import opened HybridQuery
  import opened HybridFlatten
  import opened Seqs

  const ExaminedRows: nat := 100
  const MaxCorrespondences: nat := 50
  const SampleSize: nat := 10

  // ---------------------------------------------------------------------
  // Statistics

  /** The earliest non-null date (pandas `min` skips nulls); None stands for
      the NaT/NaN pandas returns when every date is null. */
  function MinDay(xs: seq<Option<Day>>): (r: Option<Day>)
    ensures r.None? <==> forall i :: 0 <= i < |xs| ==> xs[i].None?
    ensures r.Some? ==> r in xs && forall i :: 0 <= i < |xs| && xs[i].Some? ==> r.value <= xs[i].value
  {
    if xs == [] then None
    else
      var rest := MinDay(xs[1..]);
      assert forall i :: 1 <= i < |xs| ==> xs[i] == xs[1..][i - 1];
      if xs[0].None? then rest
      else if rest.None? || xs[0].value <= rest.value then xs[0]
      else rest
  }

  /** The latest non-null date; None stands for the NaT/NaN pandas returns
      when every date is null. */
  function MaxDay(xs: seq<Option<Day>>): (r: Option<Day>)
    ensures r.None? <==> forall i :: 0 <= i < |xs| ==> xs[i].None?
    ensures r.Some? ==> r in xs && forall i :: 0 <= i < |xs| && xs[i].Some? ==> xs[i].value <= r.value
  {
    if xs == [] then None
    else
      var rest := MaxDay(xs[1..]);
      assert forall i :: 1 <= i < |xs| ==> xs[i] == xs[1..][i - 1];
      if xs[0].None? then rest
      else if rest.None? || xs[0].value >= rest.value then xs[0]
      else rest
  }

  /** The non-null values of a column. */
  function Present(xs: seq<Option<string>>): (s: set<string>)
    ensures forall v :: v in s <==> Some(v) in xs
  {
    set i | 0 <= i < |xs| && xs[i].Some? :: xs[i].value
  }

  /** pandas `nunique()`: the number of distinct non-null values, never more
      than the number of rows. */
  function NUnique(xs: seq<Option<string>>): (n: nat)
    ensures n <= |xs|
    ensures n == 0 <==> forall i :: 0 <= i < |xs| ==> xs[i].None?
  {
    PresentBound(xs);
    assert (forall i :: 0 <= i < |xs| ==> xs[i].None?) ==> Present(xs) == {};
    |Present(xs)|
  }

  lemma {:induction false} PresentBound(xs: seq<Option<string>>)
    ensures |Present(xs)| <= |xs|
    decreases |xs|
  {
    if xs != [] {
      var init := xs[..|xs| - 1];
      var last := xs[|xs| - 1];
      assert xs == init + [last];
      PresentBound(init);
      var extra: set<string> := if last.Some? then {last.value} else {};
      assert forall v :: Some(v) in xs <==> Some(v) in init || Some(v) == last;
      assert Present(xs) == Present(init) + extra;
    }
  }

  /** pandas `value_counts().to_dict()`: each non-null value mapped to its
      number of occurrences; nulls are not counted. */
  function ValueCounts(xs: seq<Option<string>>): (m: map<string, nat>)
    ensures m.Keys == Present(xs)
    ensures forall v :: v in m ==> m[v] == multiset(xs)[Some(v)] && m[v] >= 1
    decreases |xs|
  {
    if xs == [] then map[]
    else
      var init := xs[..|xs| - 1];
      var last := xs[|xs| - 1];
      var m := ValueCounts(init);
      assert xs == init + [last];
      assert multiset(xs) == multiset(init) + multiset{last};
      assert forall v :: Some(v) in xs <==> Some(v) in init || Some(v) == last;
      match last
      case None => m
      case Some(v) => m[v := (if v in m then m[v] else 0) + 1]
  }

  datatype PgStats = PgStats(count: nat, dateMin: Option<Day>, dateMax: Option<Day>, zonesUniques: nat)

  datatype EpisodeStats = EpisodeStats(
    count: nat, etats: map<string, nat>, polluants: map<string, nat>, niveaux: map<string, nat>)

  datatype MoyenneStats = MoyenneStats(count: nat, organismes: map<string, nat>, polluants: map<string, nat>)

  function Dates(rows: seq<PgRow>): (ds: seq<Option<Day>>)
    ensures |ds| == |rows| && forall i :: 0 <= i < |rows| ==> ds[i] == rows[i].datePriseMesure
  {
    seq(|rows|, i requires 0 <= i < |rows| => rows[i].datePriseMesure)
  }

  function CodeZones(rows: seq<PgRow>): (zs: seq<Option<string>>)
    ensures |zs| == |rows| && forall i :: 0 <= i < |rows| ==> zs[i] == rows[i].codeZone
  {
    seq(|rows|, i requires 0 <= i < |rows| => rows[i].codeZone)
  }

  /** The relational statistics; an empty source has no date range and no
      zone. */
  function StatsPg(rows: seq<PgRow>): (s: PgStats)
    ensures s.count == |rows|
    ensures rows == [] ==> s.dateMin.None? && s.dateMax.None? && s.zonesUniques == 0
    ensures s.dateMin.Some? <==> s.dateMax.Some?
    ensures s.dateMin.Some? ==> s.dateMin.value <= s.dateMax.value
    ensures s.zonesUniques <= |rows|
    ensures forall i :: 0 <= i < |rows| && rows[i].datePriseMesure.Some? ==>
              s.dateMin.Some? && s.dateMin.value <= rows[i].datePriseMesure.value <= s.dateMax.value
  {
    var ds := Dates(rows);
    var mn := MinDay(ds);
    var mx := MaxDay(ds);
    assert mn.Some? ==> mx.Some? && mn.value <= mx.value by {
      if mn.Some? {
        var i :| 0 <= i < |ds| && ds[i] == mn;
      }
    }
    PgStats(|rows|, mn, mx, NUnique(CodeZones(rows)))
  }

  function Polluants(rows: seq<FlatEpisode>): (col: seq<Option<string>>)
    ensures |col| == |rows| && forall i :: 0 <= i < |rows| ==> col[i] == rows[i].polluant
  {
    if rows == [] then [] else Polluants(rows[..|rows| - 1]) + [rows[|rows| - 1].polluant]
  }

  /** The `etat` column of the episode rows. */
  function Etats(rows: seq<FlatEpisode>): (col: seq<Option<string>>)
    ensures |col| == |rows| && forall i :: 0 <= i < |rows| ==> col[i] == rows[i].etat
  {
    seq(|rows|, i requires 0 <= i < |rows| => rows[i].etat)
  }

  /** The `niveau` column of the episode rows. */
  function Niveaux(rows: seq<FlatEpisode>): (col: seq<Option<string>>)
    ensures |col| == |rows| && forall i :: 0 <= i < |rows| ==> col[i] == rows[i].niveau
  {
    seq(|rows|, i requires 0 <= i < |rows| => rows[i].niveau)
  }

  /** The episode statistics; an empty source has empty frequency tables. */
  function EpisodeStatsOf(rows: seq<FlatEpisode>): (s: EpisodeStats)
    ensures s.count == |rows|
    ensures rows == [] ==> s.etats == map[] && s.polluants == map[] && s.niveaux == map[]
    ensures forall k :: k in s.polluants <==> exists i :: 0 <= i < |rows| && rows[i].polluant == Some(k)
    ensures s.etats.Keys == Present(Etats(rows)) && s.niveaux.Keys == Present(Niveaux(rows))
  {
    EpisodeStats(|rows|, ValueCounts(Etats(rows)), ValueCounts(Polluants(rows)), ValueCounts(Niveaux(rows)))
  }

  /** The episodes of pollutant `k`. */
  function OfPolluant(k: string): FlatEpisode -> bool {
    (e: FlatEpisode) => e.polluant == Some(k)
  }

  /** Helper of EpisodePolluantCounts: occurrences in the column are rows. */
  lemma {:induction false} PolluantColumnCounts(rows: seq<FlatEpisode>, k: string)
    ensures multiset(Polluants(rows))[Some(k)] == |Filter(rows, OfPolluant(k))|
    decreases |rows|
  {
    if rows != [] {
      var init := rows[..|rows| - 1];
      var last := rows[|rows| - 1];
      assert rows == init + [last];
      FilterSnoc(init, last, OfPolluant(k));
      PolluantColumnCounts(init, k);
      var col := Polluants(init);
      assert Polluants(rows) == col + [last.polluant];
      assert multiset(col + [last.polluant]) == multiset(col) + multiset{last.polluant};
    }
  }

  /** The pollutant table counts, for each pollutant, the episode rows that
      carry it. */
  lemma EpisodePolluantCounts(rows: seq<FlatEpisode>, k: string)
    ensures k in EpisodeStatsOf(rows).polluants ==>
              EpisodeStatsOf(rows).polluants[k] == |Filter(rows, OfPolluant(k))|
  {
    PolluantColumnCounts(rows, k);
  }

  /** The `organisme` column of the daily-average rows. */
  function Organismes(rows: seq<FlatMoyenne>): (col: seq<Option<string>>)
    ensures |col| == |rows| && forall i :: 0 <= i < |rows| ==> col[i] == rows[i].organisme
  {
    seq(|rows|, i requires 0 <= i < |rows| => rows[i].organisme)
  }

  /** The `polluant` column of the daily-average rows. */
  function MoyennePolluants(rows: seq<FlatMoyenne>): (col: seq<Option<string>>)
    ensures |col| == |rows| && forall i :: 0 <= i < |rows| ==> col[i] == rows[i].polluant
  {
    seq(|rows|, i requires 0 <= i < |rows| => rows[i].polluant)
  }

  /** The daily-average statistics; an empty source has empty tables, and
      each table's keys are the values present in its column. */
  function MoyenneStatsOf(rows: seq<FlatMoyenne>): (s: MoyenneStats)
    ensures s.count == |rows|
    ensures rows == [] ==> s.organismes == map[] && s.polluants == map[]
    ensures s.organismes.Keys == Present(Organismes(rows))
    ensures forall k :: k in s.polluants <==> exists i :: 0 <= i < |rows| && rows[i].polluant == Some(k)
  {
    var polluants := MoyennePolluants(rows);
    assert forall k :: Some(k) in polluants <==> exists i :: 0 <= i < |rows| && rows[i].polluant == Some(k) by {
      forall k ensures Some(k) in polluants <==> exists i :: 0 <= i < |rows| && rows[i].polluant == Some(k) {
        if Some(k) in polluants {
          var i :| 0 <= i < |polluants| && polluants[i] == Some(k);
          assert rows[i].polluant == Some(k);
        }
      }
    }
    MoyenneStats(|rows|, ValueCounts(Organismes(rows)), ValueCounts(polluants))
  }

  // ---------------------------------------------------------------------
  // Temporal correspondences

  /** The part of an episode kept in a correspondence. */
  datatype EpisodeDetail = EpisodeDetail(polluant: Option<string>, etat: Option<string>, niveau: Option<string>)

  datatype Correspondence = Correspondence(
    pgId: int,
    pgZone: Option<string>,
    pgDate: Day,
    pgQualite: Option<string>,
    episodesAssocies: nat,
    episodesDetails: seq<EpisodeDetail>)

  /** The matcher's failure: `None - timedelta(days=1)` for a relational row
      without a date, given by its position. */
  datatype MatchError = NullMeasurementDate(row: nat)

  /** An episode starting no earlier than the day before `d` and no later
      than the day after; an episode without a start date never matches. */
  predicate Near(d: Day, e: FlatEpisode) {
    e.dateDebut.Some? && d - 1 <= e.dateDebut.value <= d + 1
  }

  /** The episodes near day `d`. */
  function NearTo(d: Day): FlatEpisode -> bool {
    e => Near(d, e)
  }

  function Detail(e: FlatEpisode): EpisodeDetail {
    EpisodeDetail(e.polluant, e.etat, e.niveau)
  }

  /** `episodes_proches[['polluant', 'etat', 'niveau']].to_dict('records')`. */
  function Details(es: seq<FlatEpisode>): (ds: seq<EpisodeDetail>)
    ensures |ds| == |es| && forall i :: 0 <= i < |es| ==> ds[i] == Detail(es[i])
  {
    seq(|es|, i requires 0 <= i < |es| => Detail(es[i]))
  }

  /** The entry for one relational row, if any episode is near its date. */
  function CorrespondenceFor(row: PgRow, eps: seq<FlatEpisode>): Option<Correspondence>
    requires row.datePriseMesure.Some?
  {
    var d := row.datePriseMesure.value;
    var near := Filter(eps, NearTo(d));
    if near == [] then None
    else Some(Correspondence(row.id, row.codeZone, d, row.qualiteAir, |near|, Details(near)))
  }

  predicate AllDated(rows: seq<PgRow>) {
    forall i :: 0 <= i < |rows| ==> rows[i].datePriseMesure.Some?
  }

  /** The entries for the rows, in row order. */
  function Correspondences(rows: seq<PgRow>, eps: seq<FlatEpisode>): seq<Correspondence>
    requires AllDated(rows)
    decreases |rows|
  {
    if rows == [] then []
    else
      var c := CorrespondenceFor(rows[|rows| - 1], eps);
      Correspondences(rows[..|rows| - 1], eps) + (if c.Some? then [c.value] else [])
  }

  /** The entry carries the id, zone, date and quality of the row. */
  predicate FromRow(c: Correspondence, row: PgRow) {
    row.id == c.pgId && row.codeZone == c.pgZone && row.datePriseMesure == Some(c.pgDate) && row.qualiteAir == c.pgQualite
  }

  /** An entry counts its details, has at least one, holds the details of
      exactly the episodes near its date, and comes from one of the rows. */
  predicate EntrySound(c: Correspondence, rows: seq<PgRow>, eps: seq<FlatEpisode>) {
    && c.episodesAssocies == |c.episodesDetails| >= 1
    && c.episodesDetails == Details(Filter(eps, NearTo(c.pgDate)))
    && exists i :: 0 <= i < |rows| && FromRow(c, rows[i])
  }

  predicate AllSound(cs: seq<Correspondence>, rows: seq<PgRow>, eps: seq<FlatEpisode>) {
    forall k :: 0 <= k < |cs| ==> EntrySound(cs[k], rows, eps)
  }

  /** Each entry comes from one of the rows, carries that row's fields and
      exactly the details of the episodes near its date, and counts them. */
  lemma CorrespondencesSound(rows: seq<PgRow>, eps: seq<FlatEpisode>)
    requires AllDated(rows)
    ensures |Correspondences(rows, eps)| <= |rows|
    ensures AllSound(Correspondences(rows, eps), rows, eps)
  {
    CorrespondencesInOrder(rows, eps);
    var entries := Correspondences(rows, eps);
    var matched := Filter(rows, Matched(eps));
    forall k | 0 <= k < |entries| ensures EntrySound(entries[k], rows, eps) {
      assert matched[k] in rows && Matched(eps)(matched[k]);
      var i :| 0 <= i < |rows| && rows[i] == matched[k];
      LastEntry(matched[k], eps);
      assert EntryFor(entries[k], rows[i], eps);
    }
  }

  /** Some episode starts within a day of the row's date. */
  predicate HasNearEpisode(row: PgRow, eps: seq<FlatEpisode>) {
    row.datePriseMesure.Some? && exists j :: 0 <= j < |eps| && Near(row.datePriseMesure.value, eps[j])
  }

  /** The rows with some episode near their date. */
  function Matched(eps: seq<FlatEpisode>): PgRow -> bool {
    row => HasNearEpisode(row, eps)
  }

  /** `c` is the entry of `row`: the row's fields, the details of exactly
      the episodes near its date, and their number. */
  predicate EntryFor(c: Correspondence, row: PgRow, eps: seq<FlatEpisode>) {
    && FromRow(c, row)
    && c.episodesDetails == Details(Filter(eps, NearTo(c.pgDate)))
    && c.episodesAssocies == |c.episodesDetails|
  }

  /** `cs` are the entries of `rs`, position by position. */
  predicate EntriesFor(cs: seq<Correspondence>, rs: seq<PgRow>, eps: seq<FlatEpisode>) {
    |cs| == |rs| && forall k :: 0 <= k < |cs| ==> EntryFor(cs[k], rs[k], eps)
  }

  /** The entries are those of the rows with some episode within a day of
      their date, one per such row and in row order: entry k is the entry
      of the k-th such row. */
  lemma {:induction false} CorrespondencesInOrder(rows: seq<PgRow>, eps: seq<FlatEpisode>)
    requires AllDated(rows)
    ensures EntriesFor(Correspondences(rows, eps), Filter(rows, Matched(eps)), eps)
    decreases |rows|
  {
    if rows != [] {
      var init := rows[..|rows| - 1];
      var last := rows[|rows| - 1];
      assert rows == init + [last];
      assert AllDated(init) by {
        forall i | 0 <= i < |init| ensures init[i].datePriseMesure.Some? {
          assert init[i] == rows[i];
        }
      }
      CorrespondencesInOrder(init, eps);
      FilterSnoc(init, last, Matched(eps));
      LastEntry(last, eps);
      var c := CorrespondenceFor(last, eps);
      var extra := if c.Some? then [c.value] else [];
      assert Correspondences(rows, eps) == Correspondences(init, eps) + extra;
      assert EntriesFor(extra, if Matched(eps)(last) then [last] else [], eps);
      EntriesForAppend(Correspondences(init, eps), Filter(init, Matched(eps)),
                       extra, if Matched(eps)(last) then [last] else [], eps);
    }
  }

  /** Helper of CorrespondencesInOrder: entries of two row lists, joined. */
  lemma EntriesForAppend(cs1: seq<Correspondence>, rs1: seq<PgRow>, cs2: seq<Correspondence>, rs2: seq<PgRow>,
                         eps: seq<FlatEpisode>)
    requires EntriesFor(cs1, rs1, eps) && EntriesFor(cs2, rs2, eps)
    ensures EntriesFor(cs1 + cs2, rs1 + rs2, eps)
  {
    forall k | 0 <= k < |cs1 + cs2| ensures EntryFor((cs1 + cs2)[k], (rs1 + rs2)[k], eps) {
      if k >= |cs1| {
        assert EntryFor(cs2[k - |cs1|], rs2[k - |cs1|], eps);
      }
    }
  }

  /** Helper of CorrespondencesInOrder: a dated row has an entry exactly
      when it is matched, and the entry is its own. */
  lemma LastEntry(row: PgRow, eps: seq<FlatEpisode>)
    requires row.datePriseMesure.Some?
    ensures CorrespondenceFor(row, eps).Some? <==> Matched(eps)(row)
    ensures CorrespondenceFor(row, eps).Some? ==> EntryFor(CorrespondenceFor(row, eps).value, row, eps)
  {
    var d := row.datePriseMesure.value;
    var near := Filter(eps, NearTo(d));
    if exists j :: 0 <= j < |eps| && Near(d, eps[j]) {
      var j :| 0 <= j < |eps| && Near(d, eps[j]);
      assert eps[j] in near;
    }
    if near != [] {
      assert near[0] in eps;
      var j :| 0 <= j < |eps| && eps[j] == near[0];
      assert Near(d, eps[j]);
    }
  }

  /** Helper of MatchCorrespondences: examining row `i` adds at most that
      row's entry at the end. */
  lemma CorrespondencesStep(head: seq<PgRow>, i: nat, eps: seq<FlatEpisode>)
    requires i < |head| && AllDated(head[..i]) && head[i].datePriseMesure.Some?
    ensures AllDated(head[..i + 1])
    ensures Correspondences(head[..i + 1], eps)
            == Correspondences(head[..i], eps)
               + (if CorrespondenceFor(head[i], eps).Some? then [CorrespondenceFor(head[i], eps).value] else [])
  {
    assert head[..i + 1][..i] == head[..i];
  }

  /** The correspondence loop of cross_reference_data: no entry unless both
      sources have rows; otherwise the first 100 relational rows are
      examined in order, and a row without a date raises. */
  method MatchCorrespondences(pg: seq<PgRow>, eps: seq<FlatEpisode>)
    returns (r: Result<seq<Correspondence>, MatchError>)
    ensures (pg == [] || eps == []) ==> r == Success([])
    ensures r.Failure? <==> pg != [] && eps != [] && !AllDated(Take(pg, ExaminedRows))
    ensures r.Failure? ==> r.error.row < |Take(pg, ExaminedRows)| && pg[r.error.row].datePriseMesure.None?
                           && AllDated(pg[..r.error.row])
    ensures r.Success? && pg != [] && eps != [] ==> r.value == Correspondences(Take(pg, ExaminedRows), eps)
  {
    if pg == [] || eps == [] {
      return Success([]);
    }
    var head := Take(pg, ExaminedRows);
    var out: seq<Correspondence> := [];
    var i := 0;
    while i < |head|
      invariant 0 <= i <= |head|
      invariant AllDated(head[..i])
      invariant out == Correspondences(head[..i], eps)
    {
      var row := head[i];
      if row.datePriseMesure.None? {
        assert pg[..i] == head[..i];
        return Failure(NullMeasurementDate(i));
      }
      CorrespondencesStep(head, i, eps);
      var c := CorrespondenceFor(row, eps);
      if c.Some? {
        out := out + [c.value];
      }
      i := i + 1;
    }
    assert head[..i] == head;
    return Success(out);
  }

  // ---------------------------------------------------------------------
  // The assembled result

  datatype CrossResult = CrossResult(
    config: Config,
    pgStats: PgStats,
    episodeStats: EpisodeStats,
    moyenneStats: MoyenneStats,
    correspondances: seq<Correspondence>,
    pgSample: seq<PgRow>,
    episodesSample: seq<FlatEpisode>,
    moyennesSample: seq<FlatMoyenne>)

  /** cross_reference_data: the statistics of each source, at most 50
      correspondences in relational order, and the first 10 items of each
      source as samples. */
  method CrossReferenceData(c: Config, pg: seq<PgRow>, eps: seq<FlatEpisode>, moys: seq<FlatMoyenne>)
    returns (r: Result<CrossResult, MatchError>)
    ensures r.Failure? <==> pg != [] && eps != [] && !AllDated(Take(pg, ExaminedRows))
    ensures r.Success? ==>
              var res := r.value;
              && res.config == c
              && res.pgStats == StatsPg(pg)
              && res.episodeStats == EpisodeStatsOf(eps)
              && res.moyenneStats == MoyenneStatsOf(moys)
              && |res.correspondances| <= MaxCorrespondences
              && (pg == [] || eps == [] ==> res.correspondances == [])
              && (pg != [] && eps != [] ==>
                    res.correspondances == Take(Correspondences(Take(pg, ExaminedRows), eps), MaxCorrespondences))
              && res.pgSample == Take(pg, SampleSize)
              && res.episodesSample == Take(eps, SampleSize)
              && res.moyennesSample == Take(moys, SampleSize)
  {
    var matched := MatchCorrespondences(pg, eps);
    if matched.Failure? {
      return Failure(matched.error);
    }
    r := Success(CrossResult(c, StatsPg(pg), EpisodeStatsOf(eps), MoyenneStatsOf(moys),
                             Take(matched.value, MaxCorrespondences),
                             Take(pg, SampleSize), Take(eps, SampleSize), Take(moys, SampleSize)));
  }

  /** get_one_sql_one_mongo: the first relational row and the first episode
      row, None for an empty source. */
  method GetOneSqlOneMongo(c: Config, table: seq<PgRow>, docs: seq<EpisodeDoc>)
    returns (r: Result<(Option<PgRow>, Option<FlatEpisode>), FlattenError>)
    ensures r.Failure? <==> exists d :: d in FindEpisodes(c, docs) && FlattenEpisode(d).None?
    ensures r.Success? ==>
              && (r.value.0.None? <==> Filter(table, SelectedBy(c)) == [])
              && (r.value.0.Some? ==>
                    && PgSelected(c, r.value.0.value) && r.value.0.value in table
                    && forall i :: 0 <= i < |table| && PgSelected(c, table[i]) ==>
                         NotOlder(r.value.0.value.datePriseMesure, table[i].datePriseMesure))
              && (r.value.1.None? <==> FindEpisodes(c, docs) == [])
              && (r.value.1.Some? ==> Some(r.value.1.value) == FlattenEpisode(FindEpisodes(c, docs)[0]))
  {
    var pgData := GetPgData(c, table);
    var selected := Filter(table, SelectedBy(c));
    var oneSql: Option<PgRow> := None;
    if pgData != [] {
      oneSql := Some(pgData[0]);
      forall i | 0 <= i < |table| && PgSelected(c, table[i])
        ensures NotOlder(pgData[0].datePriseMesure, table[i].datePriseMesure)
      {
        FirstIsNewest(selected, table[i]);
      }
    } else {
      assert SortDesc(selected) == [];
      assert |multiset(selected)| == 0;
    }
    var episodes := GetMongoEpisodes(c, docs);
    if episodes.Failure? {
      return Failure(episodes.error);
    }
    var found := FindEpisodes(c, docs);
    var oneMongo: Option<FlatEpisode> := None;
    if episodes.value != [] {
      oneMongo := Some(episodes.value[0]);
    }
    return Success((oneSql, oneMongo));
  }

  /** Helper of GetOneSqlOneMongo: the first row of the ordering is not
      older than any row it sorts. */
  lemma FirstIsNewest(rows: seq<PgRow>, x: PgRow)
    requires x in rows
    ensures SortDesc(rows) != []
    ensures NotOlder(SortDesc(rows)[0].datePriseMesure, x.datePriseMesure)
  {
    var s := SortDesc(rows);
    assert x in multiset(s);
    var j :| 0 <= j < |s| && s[j] == x;
    if j > 0 {
      assert NotOlder(s[0].datePriseMesure, s[j].datePriseMesure);
    } else {
      assert s[0] == x;
    }
  }
}

=== FILE: hybrid_flatten.dfy ===
/** The flattening loops of get_mongo_episodes and get_mongo_moyennes
    (scripts/hybride/sql+nosql.py): each document becomes one flat row with
    its coordinates split into longitude and latitude. Reading `coords[0]`
    and `coords[1]` raises on some coordinate values, which aborts the whole
    query; the error is modelled as a value naming the first such document. */
module HybridFlatten {
  import opened Wrappers
  import opened JsonData
  import opened HybridRecords
  import opened HybridQuery

  /** Why flattening stopped, and at which document (0-based). */
  datatype FlattenError =
    | CoordinatesNull(doc: nat)      // `None[0]`: a TypeError
    | CoordinatesTooShort(doc: nat)  // fewer than two items: an IndexError

  /** `episode.get('geometry', {}).get('coordinates', ...)` before the
      default is applied. */
  function EpisodeCoordinates(d: EpisodeDoc): Field<seq<Json>> {
    if d.geometry.None? then Absent else d.geometry.value.coordinates
  }

  /** The flat row of one episode document, or None where indexing the
      coordinates raises: a missing geometry or coordinates field gives two
      nulls, a null field or a list of fewer than two items raises, and
      otherwise the first two items are longitude and latitude. */
  function FlattenEpisode(d: EpisodeDoc): (r: Option<FlatEpisode>)
    ensures r.None? <==> EpisodeCoordinates(d).Null?
                         || (EpisodeCoordinates(d).Present? && |EpisodeCoordinates(d).value| < 2)
    ensures r.Some? ==>
              var p := d.properties.GetOr(NoProps);
              && r.value.episodeId == d.id
              && r.value.codeInsee == p.codeInsee && r.value.polluant == p.polluant
              && r.value.dateDebut == p.dateDebut && r.value.dateFin == p.dateFin
              && r.value.etat == p.etat && r.value.niveau == p.niveau
              && r.value.valeurDeclenchement == p.valeurDeclenchement
              && (EpisodeCoordinates(d).Absent? ==> r.value.longitude == JNull && r.value.latitude == JNull)
              && (EpisodeCoordinates(d).Present? ==>
                    [r.value.longitude, r.value.latitude] == EpisodeCoordinates(d).value[..2])
  {
    var p := d.properties.GetOr(NoProps);
    var coords := match EpisodeCoordinates(d)
      case Absent => Some([JNull, JNull])
      case Null => None
      case Present(v) => if |v| < 2 then None else Some(v);
    if coords.None? then None
    else
      Some(FlatEpisode(d.id, p.codeInsee, p.polluant, p.dateDebut, p.dateFin, p.etat, p.niveau,
                       p.valeurDeclenchement, coords.value[0], coords.value[1]))
  }

  /** The error raised at episode document `i`, when one is. */
  function EpisodeError(d: EpisodeDoc, i: nat): FlattenError {
    if EpisodeCoordinates(d).Null? then CoordinatesNull(i) else CoordinatesTooShort(i)
  }

  /** The flattening loop of get_mongo_episodes: one row per document, in
      order, unless some document's coordinates cannot be indexed, in which
      case the first such document is reported. */
  method FlattenEpisodes(docs: seq<EpisodeDoc>) returns (r: Result<seq<FlatEpisode>, FlattenError>)
    ensures r.Success? <==> forall i :: 0 <= i < |docs| ==> FlattenEpisode(docs[i]).Some?
    ensures r.Success? ==> |r.value| == |docs|
                           && forall i :: 0 <= i < |docs| ==> Some(r.value[i]) == FlattenEpisode(docs[i])
    ensures r.Failure? ==> r.error.doc < |docs|
                           && FlattenEpisode(docs[r.error.doc]).None?
                           && r.error == EpisodeError(docs[r.error.doc], r.error.doc)
                           && forall i :: 0 <= i < r.error.doc ==> FlattenEpisode(docs[i]).Some?
  {
    var rows: seq<FlatEpisode> := [];
    var i := 0;
    while i < |docs|
      invariant 0 <= i <= |docs| && |rows| == i
      invariant forall j :: 0 <= j < i ==> Some(rows[j]) == FlattenEpisode(docs[j])
    {
      var row := FlattenEpisode(docs[i]);
      if row.None? {
        return Failure(EpisodeError(docs[i], i));
      }
      rows := rows + [row.value];
      i := i + 1;
    }
    return Success(rows);
  }

  /** get_mongo_episodes on the stored documents: the rows of the matching
      documents, at most 5000, each satisfying the filter on its own fields. */
  method GetMongoEpisodes(c: Config, docs: seq<EpisodeDoc>) returns (r: Result<seq<FlatEpisode>, FlattenError>)
    ensures r.Success? <==> forall d :: d in FindEpisodes(c, docs) ==> FlattenEpisode(d).Some?
    ensures r.Success? ==>
              && |r.value| == |FindEpisodes(c, docs)| <= MongoLimit
              && forall i :: 0 <= i < |r.value| ==>
                   var row := r.value[i];
                   && Some(row) == FlattenEpisode(FindEpisodes(c, docs)[i])
                   && (ZoneActive(c) ==> row.codeInsee.Some? && c.zoneFilter.value <= row.codeInsee.value)
                   && (c.dateDebut.Some? ==> row.dateDebut.Some? && row.dateDebut.value >= c.dateDebut.value)
                   && (PolluantsActive(c) ==> row.polluant.Some? && row.polluant.value in c.polluants.value)
  {
    var found := FindEpisodes(c, docs);
    r := FlattenEpisodes(found);
    assert r.Success? <==> forall d :: d in found ==> FlattenEpisode(d).Some? by {
      if forall i :: 0 <= i < |found| ==> FlattenEpisode(found[i]).Some? {
        forall d | d in found ensures FlattenEpisode(d).Some? {
          var i :| 0 <= i < |found| && found[i] == d;
        }
      }
    }
  }

  /** The longitude and latitude of a daily-average document:
      `coords[0] if coords else None`, where a missing field defaults to
      `[None, None]` and a null field or an empty list is falsy. */
  function MoyenneCoordinates(f: Field<seq<Json>>): (r: Option<(Json, Json)>)
    ensures r.None? <==> f.Present? && |f.value| == 1
    ensures r.Some? && f.Present? && |f.value| >= 2 ==> r.value == (f.value[0], f.value[1])
    ensures r.Some? && !(f.Present? && |f.value| >= 2) ==> r.value == (JNull, JNull)
  {
    match f
    case Absent => Some((JNull, JNull))
    case Null => Some((JNull, JNull))
    case Present(v) =>
      if v == [] then Some((JNull, JNull))
      else if |v| == 1 then None
      else Some((v[0], v[1]))
  }

  /** The flat row of one daily-average document, or None where reading
      `coords[1]` raises. */
  function FlattenMoyenne(d: MoyenneDoc): (r: Option<FlatMoyenne>)
    ensures r.None? <==> MoyenneCoordinates(d.coordinates).None?
    ensures r.Some? ==>
              && r.value.moyenneId == d.id && r.value.dateDebut == d.dateDebut
              && r.value.organisme == d.organisme && r.value.nomSite == d.nomSite
              && r.value.codeSite == d.codeSite && r.value.polluant == d.polluant
              && r.value.valeur == d.valeur && r.value.uniteMesure == d.uniteMesure
              && (r.value.longitude, r.value.latitude) == MoyenneCoordinates(d.coordinates).value
  {
    match MoyenneCoordinates(d.coordinates)
    case None => None
    case Some(ll) =>
      Some(FlatMoyenne(d.id, d.dateDebut, d.organisme, d.nomSite, d.codeSite, d.polluant,
                       d.valeur, d.uniteMesure, ll.0, ll.1))
  }

  /** The flattening loop of get_mongo_moyennes: one row per document, in
      order, unless some document holds a one-item coordinates list. */
  method FlattenMoyennes(docs: seq<MoyenneDoc>) returns (r: Result<seq<FlatMoyenne>, FlattenError>)
    ensures r.Success? <==> forall i :: 0 <= i < |docs| ==> FlattenMoyenne(docs[i]).Some?
    ensures r.Success? ==> |r.value| == |docs|
                           && forall i :: 0 <= i < |docs| ==> Some(r.value[i]) == FlattenMoyenne(docs[i])
    ensures r.Failure? ==> r.error == CoordinatesTooShort(r.error.doc) && r.error.doc < |docs|
                           && FlattenMoyenne(docs[r.error.doc]).None?
                           && forall i :: 0 <= i < r.error.doc ==> FlattenMoyenne(docs[i]).Some?
  {
    var rows: seq<FlatMoyenne> := [];
    var i := 0;
    while i < |docs|
      invariant 0 <= i <= |docs| && |rows| == i
      invariant forall j :: 0 <= j < i ==> Some(rows[j]) == FlattenMoyenne(docs[j])
    {
      var row := FlattenMoyenne(docs[i]);
      if row.None? {
        return Failure(CoordinatesTooShort(i));
      }
      rows := rows + [row.value];
      i := i + 1;
    }
    return Success(rows);
  }

  /** get_mongo_moyennes on the stored documents. */
  method GetMongoMoyennes(c: Config, docs: seq<MoyenneDoc>) returns (r: Result<seq<FlatMoyenne>, FlattenError>)
    ensures r.Success? <==> forall d :: d in FindMoyennes(c, docs) ==> FlattenMoyenne(d).Some?
    ensures r.Success? ==>
              && |r.value| == |FindMoyennes(c, docs)| <= MongoLimit
              && forall i :: 0 <= i < |r.value| ==>
                   var row := r.value[i];
                   && Some(row) == FlattenMoyenne(FindMoyennes(c, docs)[i])
                   && (c.dateDebut.Some? ==> row.dateDebut.Some? && row.dateDebut.value >= c.dateDebut.value)
                   && (PolluantsActive(c) ==> row.polluant.Some? && row.polluant.value in c.polluants.value)
  {
    var found := FindMoyennes(c, docs);
    r := FlattenMoyennes(found);
    assert r.Success? <==> forall d :: d in found ==> FlattenMoyenne(d).Some? by {
      if forall i :: 0 <= i < |found| ==> FlattenMoyenne(found[i]).Some? {
        forall d | d in found ensures FlattenMoyenne(d).Some? {
          var i :| 0 <= i < |found| && found[i] == d;
        }
      }
    }
  }
}

=== FILE: hybrid_query.dfy ===
/** The three store reads of scripts/hybride/sql+nosql.py, with the
    connections removed: the stored rows and documents are given sequences,
    and a query is "filter, then order, then take the first N".

    - get_pg_data builds a WHERE clause and its parameter list step by step,
      orders by measurement date (most recent first) and keeps 10000 rows;
    - get_mongo_episodes and get_mongo_moyennes build a document filter and
      keep the first 5000 matching documents in collection order. */
module HybridQuery {
  import opened Wrappers
  import opened HybridRecords
  import opened Seqs

  const PgLimit: nat := 10000
  const MongoLimit: nat := 5000


  // ---------------------------------------------------------------------
  // PostgreSQL LIKE

  /** `s LIKE p` in PostgreSQL: '%' matches any run of characters, '_' any
      single character, and '\' makes the next pattern character literal. */
  predicate Like(s: string, p: string)
    decreases |s| + |p|
  {
    if p == [] then s == []
    else if p[0] == '%' then Like(s, p[1..]) || (s != [] && Like(s[1..], p))
    else if p[0] == '_' then s != [] && Like(s[1..], p[1..])
    else if p[0] == '\\' && |p| >= 2 then s != [] && s[0] == p[1] && Like(s[1..], p[2..])
    else s != [] && s[0] == p[0] && Like(s[1..], p[1..])
  }

  /** A zone text that LIKE reads literally. */
  predicate NoLikeWildcard(z: string) {
    forall i :: 0 <= i < |z| ==> z[i] != '%' && z[i] != '_' && z[i] != '\\'
  }

  lemma {:induction false} LikeAnything(s: string)
    ensures Like(s, "%")
    decreases |s|
  {
    if s != [] {
      LikeAnything(s[1..]);
    }
  }

  /** For a zone without wildcard characters, `code_zone LIKE zone%` is
      exactly "the zone code starts with zone". */
  lemma {:induction false} LikePrefix(s: string, z: string)
    requires NoLikeWildcard(z)
    ensures Like(s, z + "%") <==> z <= s
    decreases |z|
  {
    if z == [] {
      LikeAnything(s);
      assert z + "%" == "%";
    } else {
      assert (z + "%")[1..] == z[1..] + "%";
      if s != [] {
        LikePrefix(s[1..], z[1..]);
      }
    }
  }

  /** For a text without wildcard characters, `s LIKE '%z%'` is exactly
      "z occurs in s". */
  lemma {:induction false} LikeContains(s: string, z: string)
    requires NoLikeWildcard(z)
    ensures Like(s, "%" + z + "%") <==> exists k :: 0 <= k <= |s| && z <= s[k..]
    decreases |s|
  {
    var p := "%" + z + "%";
    assert p[1..] == z + "%";
    LikePrefix(s, z);
    assert s[0..] == s;
    if s != [] {
      LikeContains(s[1..], z);
      assert Like(s, p) <==> Like(s, z + "%") || Like(s[1..], p);
      if Like(s[1..], p) {
        var k :| 0 <= k <= |s| - 1 && z <= s[1..][k..];
        assert s[1..][k..] == s[k + 1..];
      }
      if exists k :: 0 <= k <= |s| && z <= s[k..] {
        var k :| 0 <= k <= |s| && z <= s[k..];
        if k > 0 {
          assert s[1..][k - 1..] == s[k..];
        }
      }
    }
  }

  /** A zone filter is bound into LIKE unescaped, so a '_' in it matches any
      character: the filter "7_" selects the zone code "75056", which does not
      start with "7_". */
  lemma UnderscoreZoneSelectsOtherCodes()
    ensures Like("75056", "7_" + "%") && !("7_" <= "75056")
  {
    var p := "7_" + "%";
    assert p[1..] == "_%" && p[2..] == "%";
    LikeAnything("056");
    assert "75056"[1..][1..] == "056";
    assert "7_"[1] != "75056"[1];
  }

  // ---------------------------------------------------------------------
  // The relational query

  /** The `AND` conditions get_pg_data may append, each with one `%s`. */
  datatype Condition = CodeZoneLike | CodeZoneEquals | DateFrom | DateTo

  /** A value bound to a `%s` placeholder. */
  datatype SqlParam = Text(s: string) | Date(d: Day)

  /** The query as built: its conditions in order and the parameter list. */
  datatype PgQuery = PgQuery(conditions: seq<Condition>, params: seq<SqlParam>)

  predicate ParamFits(c: Condition, p: SqlParam) {
    match c
    case CodeZoneLike => p.Text?
    case CodeZoneEquals => p.Text?
    case DateFrom => p.Date?
    case DateTo => p.Date?
  }

  /** One parameter per placeholder, in placeholder order, each of the kind
      its condition compares with. */
  predicate WellFormed(q: PgQuery) {
    |q.conditions| == |q.params|
    && forall i :: 0 <= i < |q.conditions| ==> ParamFits(q.conditions[i], q.params[i])
  }

  /** What one condition with its bound parameter says of a row; a NULL
      column makes the comparison unknown, which excludes the row. */
  predicate Holds(c: Condition, p: SqlParam, row: PgRow) {
    match c
    case CodeZoneLike => p.Text? && row.codeZone.Some? && Like(row.codeZone.value, p.s)
    case CodeZoneEquals => p.Text? && row.codeZone == Some(p.s)
    case DateFrom => p.Date? && row.datePriseMesure.Some? && row.datePriseMesure.value >= p.d
    case DateTo => p.Date? && row.datePriseMesure.Some? && row.datePriseMesure.value <= p.d
  }

  /** The WHERE clause `1=1 AND ...` evaluated on a row. */
  predicate Where(q: PgQuery, row: PgRow)
    requires WellFormed(q)
  {
    forall i :: 0 <= i < |q.conditions| ==> Holds(q.conditions[i], q.params[i], row)
  }

  /** The rows a configuration asks for: a zone of at most three characters
      is a LIKE prefix pattern, a longer one must equal the zone code, and
      each given date bound is inclusive. */
  predicate PgSelected(c: Config, row: PgRow) {
    && (ZoneActive(c) ==>
          row.codeZone.Some?
          && if |c.zoneFilter.value| <= 3 then Like(row.codeZone.value, c.zoneFilter.value + "%")
             else row.codeZone.value == c.zoneFilter.value)
    && (c.dateDebut.Some? ==>
          row.datePriseMesure.Some? && row.datePriseMesure.value >= c.dateDebut.value)
    && (c.dateFin.Some? ==>
          row.datePriseMesure.Some? && row.datePriseMesure.value <= c.dateFin.value)
  }

  /** Number of filters of the configuration that are switched on. */
  function ActiveFilters(c: Config): nat {
    (if ZoneActive(c) then 1 else 0) + (if c.dateDebut.Some? then 1 else 0)
    + (if c.dateFin.Some? then 1 else 0)
  }

  /** The query and parameter list of get_pg_data: one condition and one
      parameter per active filter, and the WHERE clause selects exactly the
      rows the configuration asks for. */
  method BuildPgQuery(c: Config) returns (q: PgQuery)
    ensures WellFormed(q)
    ensures |q.params| == ActiveFilters(c)
    ensures forall row :: Where(q, row) <==> PgSelected(c, row)
  {
    var conditions: seq<Condition> := [];
    var params: seq<SqlParam> := [];
    if ZoneActive(c) {
      var zone := c.zoneFilter.value;
      if |zone| <= 3 {
        conditions := conditions + [CodeZoneLike];
        params := params + [Text(zone + "%")];
      } else {
        conditions := conditions + [CodeZoneEquals];
        params := params + [Text(zone)];
      }
    }
    assert conditions == ZoneConditions(c) && params == ZoneParams(c);
    if c.dateDebut.Some? {
      conditions := conditions + [DateFrom];
      params := params + [Date(c.dateDebut.value)];
    }
    assert conditions == ZoneConditions(c) + FromConditions(c) && params == ZoneParams(c) + FromParams(c);
    if c.dateFin.Some? {
      conditions := conditions + [DateTo];
      params := params + [Date(c.dateFin.value)];
    }
    q := PgQuery(conditions, params);
    assert q == Expected(c);
    ExpectedWellFormed(c);
    forall row ensures Where(q, row) <==> PgSelected(c, row) {
      WhereMeaning(c, row);
    }
  }

  /** The zone condition get_pg_data appends, if any. */
  function ZoneConditions(c: Config): seq<Condition> {
    if ZoneActive(c) then [if |c.zoneFilter.value| <= 3 then CodeZoneLike else CodeZoneEquals] else []
  }

  function ZoneParams(c: Config): seq<SqlParam> {
    if ZoneActive(c) then
      [if |c.zoneFilter.value| <= 3 then Text(c.zoneFilter.value + "%") else Text(c.zoneFilter.value)]
    else []
  }

  function FromConditions(c: Config): seq<Condition> {
    if c.dateDebut.Some? then [DateFrom] else []
  }

  function FromParams(c: Config): seq<SqlParam> {
    if c.dateDebut.Some? then [Date(c.dateDebut.value)] else []
  }

  function ToConditions(c: Config): seq<Condition> {
    if c.dateFin.Some? then [DateTo] else []
  }

  function ToParams(c: Config): seq<SqlParam> {
    if c.dateFin.Some? then [Date(c.dateFin.value)] else []
  }

  /** The query get_pg_data builds for a configuration, conditions in the
      order it appends them. */
  function Expected(c: Config): PgQuery {
    PgQuery(ZoneConditions(c) + FromConditions(c) + ToConditions(c),
            ZoneParams(c) + FromParams(c) + ToParams(c))
  }

  /** Helper of BuildPgQuery: one parameter of the right kind per condition,
      one per active filter. */
  lemma ExpectedWellFormed(c: Config)
    ensures WellFormed(Expected(c)) && |Expected(c).params| == ActiveFilters(c)
  {
    var zone := PgQuery(ZoneConditions(c), ZoneParams(c));
    var from := PgQuery(FromConditions(c), FromParams(c));
    var to := PgQuery(ToConditions(c), ToParams(c));
    assert WellFormed(zone) && WellFormed(from) && WellFormed(to);
    WellFormedAppend(zone, from);
    WellFormedAppend(PgQuery(zone.conditions + from.conditions, zone.params + from.params), to);
  }

  /** Two well-formed queries joined, conditions with conditions and
      parameters with parameters, make a well-formed query. */
  lemma WellFormedAppend(a: PgQuery, b: PgQuery)
    requires WellFormed(a) && WellFormed(b)
    ensures WellFormed(PgQuery(a.conditions + b.conditions, a.params + b.params))
  {
    var q := PgQuery(a.conditions + b.conditions, a.params + b.params);
    forall i | 0 <= i < |q.conditions| ensures ParamFits(q.conditions[i], q.params[i]) {
      if i >= |a.conditions| {
        assert ParamFits(b.conditions[i - |a.conditions|], b.params[i - |a.params|]);
      }
    }
  }

  /** Helper of BuildPgQuery: the WHERE clause of the built query is the
      configuration's selection. */
  lemma WhereMeaning(c: Config, row: PgRow)
    ensures WellFormed(Expected(c)) && (Where(Expected(c), row) <==> PgSelected(c, row))
  {
    ExpectedWellFormed(c);
    var q := Expected(c);
    var z := |ZoneConditions(c)|;
    var d := z + |FromConditions(c)|;
    if ZoneActive(c) {
      assert Holds(q.conditions[0], q.params[0], row) <==> (row.codeZone.Some?
          && if |c.zoneFilter.value| <= 3 then Like(row.codeZone.value, c.zoneFilter.value + "%")
             else row.codeZone.value == c.zoneFilter.value);
    }
    if c.dateDebut.Some? {
      assert q.conditions[z] == DateFrom && q.params[z] == Date(c.dateDebut.value);
    }
    if c.dateFin.Some? {
      assert q.conditions[d] == DateTo && q.params[d] == Date(c.dateFin.value);
    }
  }

  /** `ORDER BY date_prise_mesure DESC` may put a row with date `a` before
      one with date `b`; PostgreSQL puts NULLs first in descending order. */
  predicate NotOlder(a: Option<Day>, b: Option<Day>) {
    a.None? || (b.Some? && a.value >= b.value)
  }

  ghost predicate SortedDesc(rows: seq<PgRow>) {
    forall i, j :: 0 <= i < j < |rows| ==> NotOlder(rows[i].datePriseMesure, rows[j].datePriseMesure)
  }

  /** Places `x` before the first row it is not older than. */
  function Insert(x: PgRow, rows: seq<PgRow>): (r: seq<PgRow>)
    ensures multiset(r) == multiset(rows) + multiset{x}
  {
    if rows == [] then [x]
    else if NotOlder(x.datePriseMesure, rows[0].datePriseMesure) then [x] + rows
    else
      assert rows == [rows[0]] + rows[1..];
      [rows[0]] + Insert(x, rows[1..])
  }

  lemma {:induction false} InsertSorted(x: PgRow, rows: seq<PgRow>)
    requires SortedDesc(rows)
    ensures SortedDesc(Insert(x, rows))
  {
    if rows != [] && !NotOlder(x.datePriseMesure, rows[0].datePriseMesure) {
      var rest := Insert(x, rows[1..]);
      InsertSorted(x, rows[1..]);
      forall j | 0 <= j < |rest|
        ensures NotOlder(rows[0].datePriseMesure, rest[j].datePriseMesure)
      {
        assert rest[j] in multiset(rows[1..]) + multiset{x};
        if rest[j] != x {
          assert rest[j] in rows[1..];
        }
      }
    }
  }

  /** The relational store's ordering: most recent measurement first, rows
      without a date before all others. */
  function SortDesc(rows: seq<PgRow>): (r: seq<PgRow>)
    ensures multiset(r) == multiset(rows)
    ensures SortedDesc(r)
  {
    if rows == [] then []
    else
      assert rows == [rows[0]] + rows[1..];
      var rest := SortDesc(rows[1..]);
      InsertSorted(rows[0], rest);
      Insert(rows[0], rest)
  }

  /** get_pg_data over the stored rows `table`: the selected rows, most recent
      first, at most 10000 of them; when at most 10000 rows qualify, none is
      lost. */
  method GetPgData(c: Config, table: seq<PgRow>) returns (rows: seq<PgRow>)
    ensures |rows| <= PgLimit
    ensures forall i :: 0 <= i < |rows| ==> rows[i] in table && PgSelected(c, rows[i])
    ensures SortedDesc(rows)
    ensures rows == Take(SortDesc(Filter(table, SelectedBy(c))), PgLimit)
    ensures |Filter(table, SelectedBy(c))| <= PgLimit ==>
              multiset(rows) == multiset(Filter(table, SelectedBy(c)))
  {
    var q := BuildPgQuery(c);
    FilterCongruent(table, WhereOf(q), SelectedBy(c));
    var selected := Filter(table, WhereOf(q));
    var sorted := SortDesc(selected);
    rows := Take(sorted, PgLimit);
    forall i | 0 <= i < |rows| ensures rows[i] in table && PgSelected(c, rows[i]) {
      assert rows[i] == sorted[i];
      assert sorted[i] in multiset(selected);
    }
    assert selected == Filter(table, SelectedBy(c));
    TakeSorted(sorted, PgLimit);
    if |selected| <= PgLimit {
      assert rows == sorted;
    }
  }

  /** A prefix of a sorted sequence is sorted. */
  lemma TakeSorted(rows: seq<PgRow>, n: nat)
    requires SortedDesc(rows)
    ensures SortedDesc(Take(rows, n))
  {
    var r := Take(rows, n);
    forall i, j | 0 <= i < j < |r|
      ensures NotOlder(r[i].datePriseMesure, r[j].datePriseMesure)
    {
      assert r[i] == rows[i] && r[j] == rows[j];
    }
  }

  /** The rows the configuration selects. */
  function SelectedBy(c: Config): PgRow -> bool {
    row => PgSelected(c, row)
  }

  /** The rows the WHERE clause of `q` keeps. */
  function WhereOf(q: PgQuery): PgRow -> bool
    requires WellFormed(q)
  {
    row => Where(q, row)
  }

  // ---------------------------------------------------------------------
  // The document-store queries

  /** The filter get_mongo_episodes builds: a `^zone` regular expression on
      properties.code_insee, `$gte` on properties.date_debut, `$in` on
      properties.polluant. */
  datatype EpisodeFilter = EpisodeFilter(
    codeInseePrefix: Option<string>,
    dateDebutFrom: Option<Day>,
    polluantIn: Option<seq<string>>)

  function EpisodeFilterOf(c: Config): EpisodeFilter {
    EpisodeFilter(
      if ZoneActive(c) then c.zoneFilter else None,
      c.dateDebut,
      if PolluantsActive(c) then c.polluants else None)
  }

  /** Document-store matching: a condition on a missing field fails. */
  predicate EpisodeMatches(f: EpisodeFilter, d: EpisodeDoc) {
    var p := d.properties.GetOr(NoProps);
    && (f.codeInseePrefix.Some? ==> p.codeInsee.Some? && f.codeInseePrefix.value <= p.codeInsee.value)
    && (f.dateDebutFrom.Some? ==> p.dateDebut.Some? && p.dateDebut.value >= f.dateDebutFrom.value)
    && (f.polluantIn.Some? ==> p.polluant.Some? && p.polluant.value in f.polluantIn.value)
  }

  /** The documents find(filter).limit(5000) returns. The zone is a prefix
      of code_insee whatever its length, only the lower date bound is
      applied, and the pollutant must be one of the listed codes. */
  function FindEpisodes(c: Config, docs: seq<EpisodeDoc>): (r: seq<EpisodeDoc>)
    ensures |r| <= MongoLimit
    ensures forall i :: 0 <= i < |r| ==>
              var p := r[i].properties.GetOr(NoProps);
              && r[i] in docs
              && (ZoneActive(c) ==> p.codeInsee.Some? && c.zoneFilter.value <= p.codeInsee.value)
              && (c.dateDebut.Some? ==> p.dateDebut.Some? && p.dateDebut.value >= c.dateDebut.value)
              && (PolluantsActive(c) ==> p.polluant.Some? && p.polluant.value in c.polluants.value)
    ensures |Filter(docs, d => EpisodeMatches(EpisodeFilterOf(c), d))| <= MongoLimit ==>
              forall i :: 0 <= i < |docs| && EpisodeMatches(EpisodeFilterOf(c), docs[i]) ==> docs[i] in r
  {
    var selected := Filter(docs, d => EpisodeMatches(EpisodeFilterOf(c), d));
    assert forall i :: 0 <= i < |Take(selected, MongoLimit)| ==> Take(selected, MongoLimit)[i] in selected;
    Take(selected, MongoLimit)
  }

  /** The end of the date range plays no part in the episode query. */
  lemma EpisodeQueryIgnoresDateFin(c: Config, docs: seq<EpisodeDoc>, fin: Option<Day>)
    ensures FindEpisodes(c, docs) == FindEpisodes(c.(dateFin := fin), docs)
  {
  }

  /** The filter get_mongo_moyennes builds: `$gte` on date_debut and `$in`
      on polluant; no zone condition. */
  datatype MoyenneFilter = MoyenneFilter(dateDebutFrom: Option<Day>, polluantIn: Option<seq<string>>)

  function MoyenneFilterOf(c: Config): MoyenneFilter {
    MoyenneFilter(c.dateDebut, if PolluantsActive(c) then c.polluants else None)
  }

  predicate MoyenneMatches(f: MoyenneFilter, d: MoyenneDoc) {
    && (f.dateDebutFrom.Some? ==> d.dateDebut.Some? && d.dateDebut.value >= f.dateDebutFrom.value)
    && (f.polluantIn.Some? ==> d.polluant.Some? && d.polluant.value in f.polluantIn.value)
  }

  /** The documents of the daily-average query, at most 5000. */
  function FindMoyennes(c: Config, docs: seq<MoyenneDoc>): (r: seq<MoyenneDoc>)
    ensures |r| <= MongoLimit
    ensures forall i :: 0 <= i < |r| ==>
              && r[i] in docs
              && (c.dateDebut.Some? ==> r[i].dateDebut.Some? && r[i].dateDebut.value >= c.dateDebut.value)
              && (PolluantsActive(c) ==> r[i].polluant.Some? && r[i].polluant.value in c.polluants.value)
    ensures |Filter(docs, d => MoyenneMatches(MoyenneFilterOf(c), d))| <= MongoLimit ==>
              forall i :: 0 <= i < |docs| && MoyenneMatches(MoyenneFilterOf(c), docs[i]) ==> docs[i] in r
  {
    var selected := Filter(docs, d => MoyenneMatches(MoyenneFilterOf(c), d));
    assert forall i :: 0 <= i < |Take(selected, MongoLimit)| ==> Take(selected, MongoLimit)[i] in selected;
    Take(selected, MongoLimit)
  }

  /** Neither the zone nor the end date plays a part in the daily-average
      query. */
  lemma MoyenneQueryIgnoresZoneAndDateFin(c: Config, docs: seq<MoyenneDoc>, zone: Option<string>, fin: Option<Day>)
    ensures FindMoyennes(c, docs) == FindMoyennes(c.(zoneFilter := zone, dateFin := fin), docs)
  {
  }
}

=== FILE: hybrid_records.dfy ===
/** The records handled by the hybrid retrieval script
    (scripts/hybride/sql+nosql.py): rows of the relational table
    indices_qualite_air_consolides, documents of the EPIS_POLLUTION and
    MOY_JOURNALIERE collections, their flattened forms, and the run's
    filter configuration. Dates are days on a single integer timeline. */
module HybridRecords {
  import opened Wrappers
  import opened JsonData

  /** A calendar day, counted on one integer timeline. */
  type Day = int

  /** One row of indices_qualite_air_consolides, as selected by get_pg_data.
      Every column may be NULL. */
  datatype PgRow = PgRow(
    id: int,
    aasqa: Option<string>,
    no2: Option<real>,
    o3: Option<real>,
    pm10: Option<real>,
    pm25: Option<real>,
    datePriseMesure: Option<Day>,
    qualiteAir: Option<string>,
    zone: Option<string>,
    codeZone: Option<string>,
    fichierSource: Option<string>,
    createdAt: Option<Day>)

  /** The `properties` object of an episode document (projected fields). */
  datatype EpisodeProps = EpisodeProps(
    codeInsee: Option<string>,
    polluant: Option<string>,
    dateDebut: Option<Day>,
    dateFin: Option<Day>,
    etat: Option<string>,
    niveau: Option<string>,
    valeurDeclenchement: Option<real>)

  /** `{}`: what `episode.get('properties', {})` yields for a document
      without properties. */
  const NoProps := EpisodeProps(None, None, None, None, None, None, None)

  /** A document of the EPIS_POLLUTION collection. */
  datatype EpisodeDoc = EpisodeDoc(
    id: string,
    properties: Option<EpisodeProps>,
    geometry: Option<Geometry>)

  /** A document of the MOY_JOURNALIERE collection (projected fields). */
  datatype MoyenneDoc = MoyenneDoc(
    id: string,
    dateDebut: Option<Day>,
    organisme: Option<string>,
    nomSite: Option<string>,
    codeSite: Option<string>,
    polluant: Option<string>,
    valeur: Option<real>,
    uniteMesure: Option<string>,
    coordinates: Field<seq<Json>>)

  /** The flat row built by get_mongo_episodes for one episode document. */
  datatype FlatEpisode = FlatEpisode(
    episodeId: string,
    codeInsee: Option<string>,
    polluant: Option<string>,
    dateDebut: Option<Day>,
    dateFin: Option<Day>,
    etat: Option<string>,
    niveau: Option<string>,
    valeurDeclenchement: Option<real>,
    longitude: Json,
    latitude: Json)

  /** The flat row built by get_mongo_moyennes for one daily-average document. */
  datatype FlatMoyenne = FlatMoyenne(
    moyenneId: string,
    dateDebut: Option<Day>,
    organisme: Option<string>,
    nomSite: Option<string>,
    codeSite: Option<string>,
    polluant: Option<string>,
    valeur: Option<real>,
    uniteMesure: Option<string>,
    longitude: Json,
    latitude: Json)

  /** The filter part of DataRetrievalConfig. */
  datatype Config = Config(
    zoneFilter: Option<string>,
    dateDebut: Option<Day>,
    dateFin: Option<Day>,
    polluants: Option<seq<string>>)

  /** Python truthiness of the zone filter: None and "" add no condition. */
  predicate ZoneActive(c: Config) {
    c.zoneFilter.Some? && c.zoneFilter.value != []
  }

  /** Python truthiness of the pollutant list: None and [] add no condition. */
  predicate PolluantsActive(c: Config) {
    c.polluants.Some? && c.polluants.value != []
  }

  /** `xs[:n]`. */
  function Take<T>(xs: seq<T>, n: nat): (r: seq<T>)
    ensures |r| == if |xs| <= n then |xs| else n
    ensures r == xs[..|r|]
  {
    if |xs| <= n then xs else xs[..n]
  }
}

=== FILE: json_data.dfy ===
/** JSON values as the scripts read them from documents and files. */
module JsonData {
  import opened Wrappers

  /** A JSON value below the document level: a scalar or an array. */
  datatype Json =
    | JNull
    | JBool(b: bool)
    | JInt(i: int)
    | JFloat(r: real)
    | JStr(s: string)
    | JArray(items: seq<Json>)

  /** A document field that may be missing, present with a null value, or
      present with a value: `get(name, default)` treats the first two
      differently. */
  datatype Field<+T> = Absent | Null | Present(value: T)

  /** A GeoJSON `geometry` object; only `coordinates` is read or written,
      `kind` stands for the other members, which are never changed. */
  datatype Geometry = Geometry(kind: Option<string>, coordinates: Field<seq<Json>>)

  /** Python's isinstance(x, (int, float)); a bool is an int in Python. */
  predicate IsNumber(x: Json) {
    x.JInt? || x.JFloat? || x.JBool?
  }

  /** Python's float(x) for a number. */
  function AsReal(x: Json): real
    requires IsNumber(x)
  {
    match x
    case JInt(i) => i as real
    case JFloat(r) => r
    case JBool(b) => if b then 1.0 else 0.0
  }
}

=== FILE: missing_values.dfy ===
/** validate_data_quality of scripts/missing_values_detect.py: each CSV file
    of the cleaned folder is read back and flagged when it has a missing
    value, a blank text value, or a value that spells a null marker; the
    function reports whether no file was flagged. */
module MissingValues {
  import opened Wrappers
  import opened Text
  import opened Seqs
  import CleanedCsv

  /** A column as read back: its label, whether pandas gives it the object
      (text) dtype, and its values as str() renders them, None where the
      value is missing. */
  datatype Column = Column(name: string, text: bool, cells: seq<Option<string>>)

  type Frame = seq<Column>

  /** The texts `str.lower()` is compared against. */
  const NullMarkers: seq<string> := ["nan", "null", "none", "n/a", "#n/a"]

  /** `astype(str)`: a missing value renders as "nan". */
  function Rendered(v: Option<string>): string {
    if v.None? then "nan" else v.value
  }

  predicate IsMissing(v: Option<string>) {
    v.None?
  }

  /** `str(v).strip() == ''`. */
  predicate IsBlank(v: Option<string>) {
    Strip(Rendered(v)) == []
  }

  /** `t in NullMarkers`, written as a match. */
  predicate IsMarkerText(t: string) {
    match t
    case "nan" => true
    case "null" => true
    case "none" => true
    case "n/a" => true
    case "#n/a" => true
    case _ => false
  }

  lemma MarkerTextIsListed(t: string)
    ensures IsMarkerText(t) <==> t in NullMarkers
  {
  }

  /** `str(v).lower()` is one of the null markers. */
  predicate IsNullMarker(v: Option<string>) {
    IsMarkerText(Lower(Rendered(v)))
  }

  /** The sum of a boolean series: how many cells satisfy `p`. */
  function CountWhere(cells: seq<Option<string>>, p: Option<string> -> bool): (n: nat)
    ensures n > 0 <==> exists k :: 0 <= k < |cells| && p(cells[k])
  {
    var r := Filter(cells, p);
    assert r != [] ==> r[0] in cells;
    |r|
  }

  predicate HasMissing(c: Column) {
    exists k :: 0 <= k < |c.cells| && IsMissing(c.cells[k])
  }

  predicate HasBlank(c: Column) {
    exists k :: 0 <= k < |c.cells| && IsBlank(c.cells[k])
  }

  predicate HasNullMarker(c: Column) {
    exists k :: 0 <= k < |c.cells| && IsNullMarker(c.cells[k])
  }

  /** The three checks on one column; the blank check only applies to
      text columns. */
  predicate ColumnHasIssues(c: Column) {
    HasMissing(c) || (c.text && HasBlank(c)) || HasNullMarker(c)
  }

  /** A file has issues when one of its columns has. */
  predicate HasIssues(f: Frame) {
    exists j :: 0 <= j < |f| && ColumnHasIssues(f[j])
  }

  /** `df[col].isnull().sum()`. */
  function MissingCount(c: Column): (n: nat)
    ensures n > 0 <==> HasMissing(c)
  {
    CountWhere(c.cells, IsMissing)
  }

  /** `(df[col] == '').sum()`: an empty text is also blank. */
  function EmptyCount(c: Column): (n: nat)
    ensures n > 0 ==> HasBlank(c)
  {
    var n := CountWhere(c.cells, v => v == Some(""));
    if n > 0 then
      var k :| 0 <= k < |c.cells| && c.cells[k] == Some("");
      assert IsBlank(c.cells[k]);
      n
    else n
  }

  /** `df[col].astype(str).str.strip().eq('').sum()`. */
  function BlankCount(c: Column): (n: nat)
    ensures n > 0 <==> HasBlank(c)
  {
    CountWhere(c.cells, IsBlank)
  }

  /** `df[col].astype(str).str.lower().isin(NullMarkers).sum()`. */
  function NullMarkerCount(c: Column): (n: nat)
    ensures n > 0 <==> HasNullMarker(c)
  {
    CountWhere(c.cells, IsNullMarker)
  }

  /** One of the first `n` columns has a missing value. */
  predicate AnyMissing(f: Frame, n: nat) {
    exists i :: 0 <= i < n && i < |f| && HasMissing(f[i])
  }

  /** One of the first `n` columns is a text column with a blank value. */
  predicate AnyBlank(f: Frame, n: nat) {
    exists i :: 0 <= i < n && i < |f| && f[i].text && HasBlank(f[i])
  }

  /** One of the first `n` columns has a null marker. */
  predicate AnyNullMarker(f: Frame, n: nat) {
    exists i :: 0 <= i < n && i < |f| && HasNullMarker(f[i])
  }

  /** The analysis of one file: the null check, the blank-text check on the
      text columns and the null-marker check on every column. */
  method FileHasIssues(f: Frame) returns (hasIssues: bool)
    ensures hasIssues == HasIssues(f)
  {
    var nulls: nat := 0;
    for j := 0 to |f|
      invariant nulls > 0 <==> AnyMissing(f, j)
    {
      assert AnyMissing(f, j + 1) <==> AnyMissing(f, j) || HasMissing(f[j]);
      nulls := nulls + MissingCount(f[j]);
    }
    hasIssues := nulls > 0;
    for j := 0 to |f|
      invariant hasIssues <==> AnyMissing(f, |f|) || AnyBlank(f, j)
    {
      assert AnyBlank(f, j + 1) <==> AnyBlank(f, j) || (f[j].text && HasBlank(f[j]));
      if f[j].text {
        var empty := EmptyCount(f[j]);
        var blank := BlankCount(f[j]);
        if empty > 0 || blank > 0 {
          hasIssues := true;
        }
      }
    }
    for j := 0 to |f|
      invariant hasIssues <==> AnyMissing(f, |f|) || AnyBlank(f, |f|) || AnyNullMarker(f, j)
    {
      assert AnyNullMarker(f, j + 1) <==> AnyNullMarker(f, j) || HasNullMarker(f[j]);
      if NullMarkerCount(f[j]) > 0 {
        hasIssues := true;
      }
    }
    IssuesByCheck(f);
  }

  /** A file has issues exactly when one of the three checks finds one. */
  lemma IssuesByCheck(f: Frame)
    ensures HasIssues(f) <==> AnyMissing(f, |f|) || AnyBlank(f, |f|) || AnyNullMarker(f, |f|)
  {
  }

  /** An empty text is blank, so the check for '' adds nothing to the
      whitespace check. */
  lemma EmptyIsBlank()
    ensures IsBlank(Some(""))
  {
  }

  /** A missing value renders as "nan", so the null-marker check flags it
      as well: the null check alone never decides the outcome. */
  lemma MissingIsNullMarker(v: Option<string>)
    requires IsMissing(v)
    ensures IsNullMarker(v) && !IsBlank(v)
  {
    assert Lower("nan") == "nan";
  }

  /** The marker check ignores case but not surrounding spaces. */
  lemma NullMarkerExamples()
    ensures IsNullMarker(Some("NaN")) && IsNullMarker(Some("N/A")) && IsNullMarker(Some("None"))
    ensures !IsNullMarker(Some(" nan")) && !IsNullMarker(Some("na"))
  {
    assert Lower("NaN") == "nan";
    assert Lower("N/A") == "n/a";
    assert Lower("None") == "none";
    assert Lower(" nan")[0] == ' ';
  }

  // ---------------------------------------------------------------------
  // The folder loop

  /** A file the loop counts: its name ends in ".csv". */
  predicate IsAnalysed(f: (string, Frame)) {
    CleanedCsv.IsCsv(f.0)
  }

  /** A counted file with issues. */
  predicate IsFlagged(f: (string, Frame)) {
    CleanedCsv.IsCsv(f.0) && HasIssues(f.1)
  }

  /** The files counted by the loop. */
  function Analysed(files: seq<(string, Frame)>): seq<(string, Frame)> {
    Filter(files, IsAnalysed)
  }

  /** The counted files that have issues. */
  function Flagged(files: seq<(string, Frame)>): seq<(string, Frame)> {
    Filter(files, IsFlagged)
  }

  /** validate_data_quality: the two counters it reports and its verdict,
      which holds exactly when no analysed file has issues. */
  method ValidateDataQuality(files: seq<(string, Frame)>) returns (clean: bool, total: nat, withIssues: nat)
    ensures total == |Analysed(files)| && withIssues == |Flagged(files)|
    ensures withIssues <= total
    ensures clean <==> forall f :: f in files && CleanedCsv.IsCsv(f.0) ==> !HasIssues(f.1)
  {
    total := 0;
    withIssues := 0;
    for i := 0 to |files|
      invariant total == |Analysed(files[..i])| && withIssues == |Flagged(files[..i])|
      invariant withIssues <= total
    {
      var file := files[i];
      CountStep(files, i);
      if CleanedCsv.IsCsv(file.0) {
        total := total + 1;
        var hasIssues := FileHasIssues(file.1);
        if hasIssues {
          withIssues := withIssues + 1;
        }
      }
    }
    assert files[..|files|] == files;
    clean := withIssues == 0;
    FlaggedEmpty(files);
  }

  /** Helper of ValidateDataQuality: one more file adds one to each count
      it qualifies for. */
  lemma CountStep(files: seq<(string, Frame)>, i: nat)
    requires i < |files|
    ensures |Analysed(files[..i + 1])| == |Analysed(files[..i])| + (if IsAnalysed(files[i]) then 1 else 0)
    ensures |Flagged(files[..i + 1])| == |Flagged(files[..i])| + (if IsFlagged(files[i]) then 1 else 0)
  {
    assert files[..i + 1] == files[..i] + [files[i]];
    FilterSnoc(files[..i], files[i], IsAnalysed);
    FilterSnoc(files[..i], files[i], IsFlagged);
  }

  /** No file is flagged exactly when no analysed file has issues. */
  lemma FlaggedEmpty(files: seq<(string, Frame)>)
    ensures Flagged(files) == [] <==> forall f :: f in files && CleanedCsv.IsCsv(f.0) ==> !HasIssues(f.1)
  {
    var r := Flagged(files);
    if r != [] {
      assert r[0] in files;
    }
  }
}

=== FILE: patterns.dfy ===
/** The regular expressions and query parameters shared by the two input
    validation modules (scripts/api/security/input_validation.py and
    scripts/api/routers/security/input_validation.py), written out as
    predicates over `seq<char>`. */
module Patterns {
  import opened Text

  /** `re.match('^P$', v)`: Python's `$` matches at the end of the text and
      also just before a final newline, so `v` may carry one trailing "\n". */
  predicate Anchored(v: string, p: string -> bool) {
    p(v) || (|v| > 0 && v[|v| - 1] == '\n' && p(v[..|v| - 1]))
  }

  /** A text the pattern accepts is accepted with one trailing newline too. */
  lemma AnchoredTrailingNewline(v: string, p: string -> bool)
    requires p(v)
    ensures Anchored(v + "\n", p)
  {
    assert (v + "\n")[..|v|] == v;
  }

  /** `\d{5}` on ASCII digits. */
  predicate FiveDigits(v: string) {
    |v| == 5 && AllDigits(v)
  }

  /** `[A-Z0-9]`. */
  predicate IsUpperAlnum(c: char) {
    'A' <= c <= 'Z' || '0' <= c <= '9'
  }

  /** `[A-Z0-9]{lo,hi}`. */
  predicate UpperAlnum(v: string, lo: nat, hi: nat) {
    lo <= |v| <= hi && forall i :: 0 <= i < |v| ==> IsUpperAlnum(v[i])
  }

  /** `\d{4}-\d{2}-\d{2}`: the shape of an ISO date, with no calendar check. */
  predicate DateShape(v: string) {
    && |v| == 10
    && AllDigits(v[..4]) && v[4] == '-' && AllDigits(v[5..7]) && v[7] == '-' && AllDigits(v[8..])
  }

  /** `[A-Z0-9_-]`. */
  predicate IsStationCodeChar(c: char) {
    IsUpperAlnum(c) || c == '_' || c == '-'
  }

  /** `[A-Z0-9_-]{3,20}`. */
  predicate StationCodeShape(v: string) {
    3 <= |v| <= 20 && forall i :: 0 <= i < |v| ==> IsStationCodeChar(v[i])
  }

  /** `re.search('[<>"\';]', v)` finds something. */
  predicate HasForbidden(v: string) {
    '<' in v || '>' in v || '"' in v || '\'' in v || ';' in v
  }

  /** A value of a query-parameter dictionary. */
  datatype Param = Null | Str(s: string) | Int(i: int) | Bool(b: bool)

  /** Python's str() of a non-null value. */
  function Show(p: Param): string
    requires p != Null
  {
    match p
    case Str(s) => s
    case Int(i) => IntToString(i)
    case Bool(b) => BoolToString(b)
  }
}

=== FILE: profils.dfy ===
/** The personalised pollution level and the recommendation of
    scripts/api/routers/profils.py. A profile type (sportif, sensible, ...)
    has its own thresholds per pollutant; the recent measurements of the
    profile's commune are classified against them, the most restrictive
    level wins, and a recommendation and per-pollutant details are built
    from it. The database reads become given tables. */
module Profils {
  import opened Wrappers
  import opened Text
  import HybridQuery

  // ---------------------------------------------------------------------
  // Levels and thresholds

  /** The five personalised levels, from least to most restrictive. */
  datatype Level = Bon | Moyen | Degrade | Mauvais | TresMauvais

  /** `level_priority`. */
  function Priority(l: Level): (p: nat)
    ensures p <= 4
  {
    match l
    case Bon => 0
    case Moyen => 1
    case Degrade => 2
    case Mauvais => 3
    case TresMauvais => 4
  }

  /** The level's name as stored and returned. */
  function LevelName(l: Level): string {
    match l
    case Bon => "bon"
    case Moyen => "moyen"
    case Degrade => "degrade"
    case Mauvais => "mauvais"
    case TresMauvais => "tres_mauvais"
  }

  /** Two levels of the same priority are the same level. */
  lemma PriorityInjective(a: Level, b: Level)
    requires Priority(a) == Priority(b)
    ensures a == b
  {
  }

  /** A row of seuils_personnalises: the information and alert thresholds
      of one profile type for one pollutant, and its advice. */
  datatype Seuil = Seuil(info: real, alerte: real, conseil: string)

  /** The thresholds table, keyed by (profile type, pollutant code). */
  type Seuils = map<(string, string), Seuil>

  /** A recent measurement of the commune: pollutant code and value. */
  datatype Measurement = Measurement(polluant: string, valeur: real)

  /** The level of one value: the alert threshold, then 1.5, 1 and 0.7
      times the information threshold, tested from the top. */
  function Classify(v: real, s: Seuil): Level {
    if v >= s.alerte then TresMauvais
    else if v >= s.info * 1.5 then Mauvais
    else if v >= s.info then Degrade
    else if v >= s.info * 0.7 then Moyen
    else Bon
  }

  /** Thresholds in their intended order: 0 <= 0.7 info <= info <= 1.5 info
      <= alerte. The PM2.5 rows of the sensible, parent and senior profiles
      (12/17, 15/21, 16/23) are not ordered: their alert threshold lies
      below 1.5 info, and `MauvaisUnreachable` applies to them. */
  predicate Ordered(s: Seuil) {
    0.0 <= s.info && s.info * 1.5 <= s.alerte
  }

  /** When the alert threshold is at most 1.5 times the information
      threshold, no value is rated `mauvais`: every value reaching 1.5 info
      is already `tres_mauvais`. */
  lemma MauvaisUnreachable(v: real, s: Seuil)
    requires s.alerte <= s.info * 1.5
    ensures Classify(v, s) != Mauvais
    ensures v >= s.info * 1.5 ==> Classify(v, s) == TresMauvais
  {
  }

  /** The sensible profile's PM2.5 thresholds, 12 and 17, never give
      `mauvais`. */
  lemma SensiblePm25NeverMauvais(v: real)
    ensures Classify(v, Seuil(12.0, 17.0, "")) != Mauvais
  {
    MauvaisUnreachable(v, Seuil(12.0, 17.0, ""));
  }

  /** How many of the four thresholds the value reaches. */
  function Reached(v: real, s: Seuil): nat {
    (if v >= s.info * 0.7 then 1 else 0) + (if v >= s.info then 1 else 0)
    + (if v >= s.info * 1.5 then 1 else 0) + (if v >= s.alerte then 1 else 0)
  }

  /** With ordered thresholds, the level's priority is the number of
      thresholds the value reaches. */
  lemma ClassifyCountsThresholds(v: real, s: Seuil)
    requires Ordered(s)
    ensures Priority(Classify(v, s)) == Reached(v, s)
  {
  }

  /** A larger value never gets a lower level, whatever the thresholds. */
  lemma ClassifyMonotone(v: real, w: real, s: Seuil)
    requires v <= w
    ensures Priority(Classify(v, s)) <= Priority(Classify(w, s))
  {
  }

  /** Higher thresholds never give a higher level. */
  lemma ClassifyStricterThresholds(v: real, s: Seuil, t: Seuil)
    requires s.info <= t.info && s.alerte <= t.alerte
    ensures Priority(Classify(v, t)) <= Priority(Classify(v, s))
  {
  }

  // ---------------------------------------------------------------------
  // calculate_personal_pollution_level

  /** The level of one measurement for a profile type, or None when the
      profile has no threshold for the pollutant. */
  function RowLevel(profil: string, m: Measurement, seuils: Seuils): Option<Level> {
    if (profil, m.polluant) in seuils then Some(Classify(m.valeur, seuils[(profil, m.polluant)]))
    else None
  }

  /** The more restrictive of two levels, keeping the first on a tie. */
  function Higher(a: Level, b: Level): Level {
    if Priority(b) > Priority(a) then b else a
  }

  /** The running maximum over the measurements, from 'bon'. */
  function PersonalLevel(profil: string, rows: seq<Measurement>, seuils: Seuils): Level
    decreases |rows|
  {
    if rows == [] then Bon
    else
      var n := |rows| - 1;
      var prev := PersonalLevel(profil, rows[..n], seuils);
      match RowLevel(profil, rows[n], seuils)
      case None => prev
      case Some(l) => Higher(prev, l)
  }

  /** calculate_personal_pollution_level: the most restrictive level among
      the measurements, measurements without a threshold being ignored. */
  method CalculatePersonalPollutionLevel(profil: string, rows: seq<Measurement>, seuils: Seuils)
    returns (level: Level)
    ensures level == PersonalLevel(profil, rows, seuils)
    ensures forall i :: 0 <= i < |rows| && RowLevel(profil, rows[i], seuils).Some? ==>
              Priority(RowLevel(profil, rows[i], seuils).value) <= Priority(level)
    ensures level == Bon || exists i :: 0 <= i < |rows| && RowLevel(profil, rows[i], seuils) == Some(level)
  {
    level := Bon;
    var i := 0;
    while i < |rows|
      invariant 0 <= i <= |rows|
      invariant level == PersonalLevel(profil, rows[..i], seuils)
    {
      var m := rows[i];
      assert rows[..i + 1][..i] == rows[..i];
      if (profil, m.polluant) in seuils {
        var niveau := Classify(m.valeur, seuils[(profil, m.polluant)]);
        if Priority(niveau) > Priority(level) {
          level := niveau;
        }
      }
      i := i + 1;
    }
    assert rows[..i] == rows;
    PersonalLevelIsMaximum(profil, rows, seuils);
  }

  /** The result bounds every measurement's level and is either 'bon' or
      the level of some measurement: it is the maximum, and 'bon' when no
      measurement has a threshold. */
  lemma {:induction false} PersonalLevelIsMaximum(profil: string, rows: seq<Measurement>, seuils: Seuils)
    ensures forall i :: 0 <= i < |rows| && RowLevel(profil, rows[i], seuils).Some? ==>
              Priority(RowLevel(profil, rows[i], seuils).value) <= Priority(PersonalLevel(profil, rows, seuils))
    ensures var l := PersonalLevel(profil, rows, seuils);
            l == Bon || exists i :: 0 <= i < |rows| && RowLevel(profil, rows[i], seuils) == Some(l)
    decreases |rows|
  {
    if rows != [] {
      var n := |rows| - 1;
      PersonalLevelIsMaximum(profil, rows[..n], seuils);
      var prev := PersonalLevel(profil, rows[..n], seuils);
      forall i | 0 <= i < n ensures rows[..n][i] == rows[i] { }
      if prev != Bon {
        var i :| 0 <= i < n && RowLevel(profil, rows[..n][i], seuils) == Some(prev);
        assert rows[i] == rows[..n][i];
      }
    }
  }

  /** A measurement whose pollutant has no threshold for the profile. */
  predicate Unrated(profil: string, m: Measurement, seuils: Seuils) {
    (profil, m.polluant) !in seuils
  }

  /** With no threshold for any measured pollutant, the level is 'bon'. */
  lemma PersonalLevelWithoutThresholds(profil: string, rows: seq<Measurement>, seuils: Seuils)
    requires forall i :: 0 <= i < |rows| ==> Unrated(profil, rows[i], seuils)
    ensures PersonalLevel(profil, rows, seuils) == Bon
  {
    PersonalLevelIsMaximum(profil, rows, seuils);
  }

  /** More measurements never lower the level. */
  lemma PersonalLevelGrows(profil: string, rows: seq<Measurement>, more: seq<Measurement>, seuils: Seuils)
    requires multiset(rows) <= multiset(more)
    ensures Priority(PersonalLevel(profil, rows, seuils)) <= Priority(PersonalLevel(profil, more, seuils))
  {
    PersonalLevelIsMaximum(profil, rows, seuils);
    PersonalLevelIsMaximum(profil, more, seuils);
    var l := PersonalLevel(profil, rows, seuils);
    if l != Bon {
      var i :| 0 <= i < |rows| && RowLevel(profil, rows[i], seuils) == Some(l);
      assert rows[i] in multiset(more);
      var j :| 0 <= j < |more| && more[j] == rows[i];
    }
  }

  /** The level does not depend on the order of the measurements. */
  lemma PersonalLevelOrderIndependent(profil: string, rows: seq<Measurement>, other: seq<Measurement>, seuils: Seuils)
    requires multiset(rows) == multiset(other)
    ensures PersonalLevel(profil, rows, seuils) == PersonalLevel(profil, other, seuils)
  {
    PersonalLevelGrows(profil, rows, other, seuils);
    PersonalLevelGrows(profil, other, rows, seuils);
    PriorityInjective(PersonalLevel(profil, rows, seuils), PersonalLevel(profil, other, seuils));
  }

  // ---------------------------------------------------------------------
  // The per-pollutant details of get_recommandations

  /** The detail status: below the information threshold, below the alert
      threshold, or above both. */
  datatype Status = Good | Alert | Danger

  function StatusName(s: Status): string {
    match s
    case Good => "bon"
    case Alert => "alerte"
    case Danger => "danger"
  }

  function StatusOf(v: real, s: Seuil): Status {
    if v < s.info then Good else if v < s.alerte then Alert else Danger
  }

  /** With thresholds 0 <= info <= alerte, the three statuses group the
      five levels: 'bon' is bon or moyen, 'danger' is tres_mauvais, and
      'alerte' is degrade or mauvais. */
  lemma StatusAgreesWithLevel(v: real, s: Seuil)
    requires 0.0 <= s.info <= s.alerte
    ensures StatusOf(v, s) == Good <==> Classify(v, s) in {Bon, Moyen}
    ensures StatusOf(v, s) == Danger <==> Classify(v, s) == TresMauvais
    ensures StatusOf(v, s) == Alert <==> Classify(v, s) in {Degrade, Mauvais}
  {
  }

  const NoPrecaution: string := "Aucune précaution particulière"

  /** One entry of polluants_details. */
  datatype Detail = Detail(valeur: real, seuilInfo: real, seuilAlerte: real, status: Status, conseil: string)

  /** The entry for one value: the threshold's advice, except that a 'bon'
      status gets the fixed no-precaution text. */
  function DetailOf(v: real, s: Seuil): (d: Detail)
    ensures d.valeur == v && d.seuilInfo == s.info && d.seuilAlerte == s.alerte
    ensures d.status == Good <==> v < s.info
    ensures d.status == Danger <==> !(v < s.info) && !(v < s.alerte)
    ensures d.conseil == if d.status == Good then NoPrecaution else s.conseil
  {
    var status := StatusOf(v, s);
    Detail(v, s.info, s.alerte, status, if status != Good then s.conseil else NoPrecaution)
  }

  /** The details filled in measurement order; a later measurement of the
      same pollutant overwrites an earlier one. */
  function DetailsOf(profil: string, rows: seq<Measurement>, seuils: Seuils): map<string, Detail>
    decreases |rows|
  {
    if rows == [] then map[]
    else
      var n := |rows| - 1;
      var prev := DetailsOf(profil, rows[..n], seuils);
      var m := rows[n];
      if (profil, m.polluant) in seuils then prev[m.polluant := DetailOf(m.valeur, seuils[(profil, m.polluant)])]
      else prev
  }

  /** The details loop of get_recommandations. */
  method PollutantDetails(profil: string, rows: seq<Measurement>, seuils: Seuils)
    returns (details: map<string, Detail>)
    ensures details == DetailsOf(profil, rows, seuils)
    ensures details.Keys == set m | m in rows && !Unrated(profil, m, seuils) :: m.polluant
  {
    details := map[];
    var i := 0;
    while i < |rows|
      invariant 0 <= i <= |rows|
      invariant details == DetailsOf(profil, rows[..i], seuils)
    {
      var m := rows[i];
      assert rows[..i + 1][..i] == rows[..i];
      if (profil, m.polluant) in seuils {
        var s := seuils[(profil, m.polluant)];
        details := details[m.polluant := DetailOf(m.valeur, s)];
      }
      i := i + 1;
    }
    assert rows[..i] == rows;
    DetailsKeys(profil, rows, seuils);
  }

  /** Exactly the measured pollutants that have a threshold appear. */
  lemma {:induction false} DetailsKeys(profil: string, rows: seq<Measurement>, seuils: Seuils)
    ensures DetailsOf(profil, rows, seuils).Keys == set m | m in rows && !Unrated(profil, m, seuils) :: m.polluant
    decreases |rows|
  {
    if rows != [] {
      var n := |rows| - 1;
      DetailsKeys(profil, rows[..n], seuils);
      assert rows == rows[..n] + [rows[n]];
    }
  }

  /** A pollutant's entry is the detail of its last measurement. */
  lemma {:induction false} DetailsLastWins(profil: string, rows: seq<Measurement>, seuils: Seuils, j: nat)
    requires j < |rows| && !Unrated(profil, rows[j], seuils)
    requires forall k :: j < k < |rows| ==> rows[k].polluant != rows[j].polluant
    ensures rows[j].polluant in DetailsOf(profil, rows, seuils)
    ensures DetailsOf(profil, rows, seuils)[rows[j].polluant]
            == DetailOf(rows[j].valeur, seuils[(profil, rows[j].polluant)])
    decreases |rows|
  {
    var n := |rows| - 1;
    if j < n {
      var init := rows[..n];
      assert init[j] == rows[j];
      assert forall k :: j < k < |init| ==> init[k].polluant != init[j].polluant by {
        forall k | j < k < |init| ensures init[k].polluant != init[j].polluant {
          assert init[k] == rows[k];
        }
      }
      DetailsLastWins(profil, init, seuils, j);
    }
  }

  // ---------------------------------------------------------------------
  // The recommendation

  const DefaultActivity: string := "sortie_generale"

  /** `type_activite or 'sortie_generale'`. */
  function ActivityFilter(typeActivite: Option<string>): string {
    if typeActivite.None? || typeActivite.value == [] then DefaultActivity else typeActivite.value
  }

  /** The LIKE pattern `'%' + activite_filter.split('_')[0] + '%'`. */
  function ActivityPattern(typeActivite: Option<string>): string {
    "%" + Split(ActivityFilter(typeActivite), '_')[0] + "%"
  }

  /** The pattern wraps the longest '_'-free prefix of the activity. */
  lemma ActivityPatternSegment(typeActivite: Option<string>)
    ensures var a := ActivityFilter(typeActivite);
            exists seg :: ActivityPattern(typeActivite) == "%" + seg + "%"
                       && seg <= a && '_' !in seg && (|seg| < |a| ==> a[|seg|] == '_')
  {
    var a := ActivityFilter(typeActivite);
    SplitFirst(a, '_');
    var seg := Split(a, '_')[0];
    assert ActivityPattern(typeActivite) == "%" + seg + "%";
  }

  /** Without an activity, or with an empty one, the pattern is '%sortie%'. */
  lemma DefaultActivityPattern(typeActivite: Option<string>)
    requires typeActivite.None? || typeActivite.value == []
    ensures ActivityPattern(typeActivite) == "%" + "sortie" + "%"
  {
    var a := ActivityFilter(typeActivite);
    assert a == DefaultActivity;
    var head := a[..6];
    assert head == "sortie";
    FirstPiece(a, '_', 6);
    assert ActivityPattern(typeActivite) == "%" + head + "%";
  }

  /** Helper of DefaultActivityPattern: the first piece ends at the first
      separator. */
  lemma FirstPiece(s: string, sep: char, k: nat)
    requires k < |s| && s[k] == sep && sep !in s[..k]
    ensures Split(s, sep)[0] == s[..k]
  {
    SplitFirst(s, sep);
  }

  /** For an activity free of LIKE wildcards other than '_', a stored
      activity matches the pattern exactly when it contains the activity's
      first segment. */
  lemma ActivityPatternMatches(typeActivite: Option<string>, stored: string)
    requires forall i :: 0 <= i < |ActivityFilter(typeActivite)| ==>
               ActivityFilter(typeActivite)[i] != '%' && ActivityFilter(typeActivite)[i] != '\\'
    ensures var seg := Split(ActivityFilter(typeActivite), '_')[0];
            HybridQuery.Like(stored, ActivityPattern(typeActivite))
            <==> exists k :: 0 <= k <= |stored| && seg <= stored[k..]
  {
    var a := ActivityFilter(typeActivite);
    SplitFirst(a, '_');
    var seg := Split(a, '_')[0];
    assert forall i :: 0 <= i < |seg| ==> seg[i] == a[i];
    HybridQuery.LikeContains(stored, seg);
  }

  /** A row of recommandations_base. */
  datatype Reco = Reco(profilCible: string, niveauPollution: string, typeActivite: Option<string>,
                       conseil: string, urgence: int, icone: string)

  /** The advice returned: conseil, niveau_urgence and icone. */
  datatype Advice = Advice(conseil: string, urgence: int, icone: string)

  const DefaultAdvice: Advice := Advice("Consultez les données de pollution avant toute activité", 2, "warning")

  /** The WHERE clause of the recommendation query; a null activity
      satisfies neither LIKE nor '='. */
  predicate RecoMatches(r: Reco, profil: string, level: Level, pattern: string) {
    && r.profilCible == profil
    && r.niveauPollution == LevelName(level)
    && r.typeActivite.Some?
    && (HybridQuery.Like(r.typeActivite.value, pattern) || r.typeActivite.value == DefaultActivity)
  }

  /** The index of the matching row of highest urgency, the earliest one on
      a tie, or None when no row matches. */
  function BestReco(recos: seq<Reco>, profil: string, level: Level, pattern: string): (r: Option<nat>)
    ensures r.None? <==> forall i :: 0 <= i < |recos| ==> !RecoMatches(recos[i], profil, level, pattern)
    ensures r.Some? ==> r.value < |recos| && RecoMatches(recos[r.value], profil, level, pattern)
    ensures r.Some? ==> forall i :: 0 <= i < |recos| && RecoMatches(recos[i], profil, level, pattern) ==>
                          recos[i].urgence <= recos[r.value].urgence
    decreases |recos|
  {
    if recos == [] then None
    else
      var rest := BestReco(recos[1..], profil, level, pattern);
      assert forall i :: 1 <= i < |recos| ==> recos[i] == recos[1..][i - 1];
      if RecoMatches(recos[0], profil, level, pattern)
         && (rest.None? || recos[1..][rest.value].urgence <= recos[0].urgence)
      then Some(0)
      else if rest.None? then None
      else Some(rest.value + 1)
  }

  /** The advice of the recommendation query, or the default advice when no
      row matches. */
  function ChooseAdvice(recos: seq<Reco>, profil: string, level: Level, pattern: string): (a: Advice)
    ensures (forall i :: 0 <= i < |recos| ==> !RecoMatches(recos[i], profil, level, pattern)) ==> a == DefaultAdvice
    ensures (exists i :: 0 <= i < |recos| && RecoMatches(recos[i], profil, level, pattern)) ==>
              exists i :: && 0 <= i < |recos| && RecoMatches(recos[i], profil, level, pattern)
                          && a == Advice(recos[i].conseil, recos[i].urgence, recos[i].icone)
                          && forall j :: 0 <= j < |recos| && RecoMatches(recos[j], profil, level, pattern) ==>
                               recos[j].urgence <= a.urgence
  {
    match BestReco(recos, profil, level, pattern)
    case None => DefaultAdvice
    case Some(i) => Advice(recos[i].conseil, recos[i].urgence, recos[i].icone)
  }

  // ---------------------------------------------------------------------
  // get_recommandations

  /** The profile row: profile type and commune of residence. */
  datatype Profil = Profil(typeProfil: string, commune: string)

  /** The response of get_recommandations. */
  datatype Recommendation = Recommendation(profilType: string, commune: string, niveau: Level,
                                           advice: Advice, details: map<string, Detail>)

  const NotFound: int := 404
  const ServerError: int := 500

  /** The status get_recommandations answers, as written, when the profile
      is missing or the commune has no recent measurement: the 404 raised
      inside the `try` block is caught by `except Exception` and re-raised
      as a 500. None when no error is raised. */
  function ErrorStatusAsWritten(profil: Option<Profil>, pollution: seq<Measurement>): (r: Option<int>)
    ensures r.Some? <==> profil.None? || pollution == []
    ensures r.Some? ==> r.value == ServerError
  {
    var raised := if profil.None? || pollution == [] then Some(NotFound) else None;
    match raised
    case None => None
    case Some(_) => Some(ServerError)
  }

  /** An unknown profile is answered with 500, not with the documented 404. */
  lemma UnknownProfileGivesServerError()
    ensures ErrorStatusAsWritten(None, []) == Some(ServerError) != Some(NotFound)
  {
  }

  /** get_recommandations on the given tables, answering 404 for a missing
      profile or no recent data as its documentation states: the level is
      the personalised level, the advice the best matching recommendation
      or the default one, and the details those of the rated pollutants. */
  method GetRecommandations(profil: Option<Profil>, pollution: seq<Measurement>, seuils: Seuils,
                            recos: seq<Reco>, typeActivite: Option<string>)
    returns (r: Result<Recommendation, int>)
    ensures r.Failure? <==> profil.None? || pollution == []
    ensures r.Failure? ==> r.error == NotFound
    ensures r.Success? ==>
              && r.value.profilType == profil.value.typeProfil && r.value.commune == profil.value.commune
              && r.value.niveau == PersonalLevel(profil.value.typeProfil, pollution, seuils)
              && r.value.advice == ChooseAdvice(recos, profil.value.typeProfil, r.value.niveau,
                                                ActivityPattern(typeActivite))
              && r.value.details == DetailsOf(profil.value.typeProfil, pollution, seuils)
  {
    if profil.None? {
      return Failure(NotFound);
    }
    if pollution == [] {
      return Failure(NotFound);
    }
    var p := profil.value;
    var niveau := CalculatePersonalPollutionLevel(p.typeProfil, pollution, seuils);
    var advice := ChooseAdvice(recos, p.typeProfil, niveau, ActivityPattern(typeActivite));
    var details := PollutantDetails(p.typeProfil, pollution, seuils);
    return Success(Recommendation(p.typeProfil, p.commune, niveau, advice, details));
  }
}

=== FILE: router_validation.dfy ===
/** The request validators of scripts/api/routers/security/input_validation.py:
    the same air-quality checks as SecurityValidation without a station
    check, a stricter aasqa rule, the checks of StationCreateValidation and
    the length check of validate_sql_params. */
module RouterValidation {
  import opened Wrappers
  import opened Text
  import opened Patterns
  import S = SecurityValidation

  /** QualiteAirQuery here has no station validator. */
  predicate QualiteAirOk(q: S.QualiteAirQuery) {
    S.CodeInseeOk(q.codeInsee) && S.PolluantOk(q.codePolluant) && S.LimitOk(q.limit, 100)
  }

  /** The two QualiteAirQuery models agree except on over-long station
      names, which only the other one rejects. */
  lemma QualiteAirAgreement(q: S.QualiteAirQuery)
    ensures S.QualiteAirOk(q) <==> QualiteAirOk(q) && S.StationOk(q.station)
  {
  }

  /** `[A-Z0-9]{2,10}`. */
  predicate AasqaShape(v: string) {
    UpperAlnum(v, 2, 10)
  }

  /** validate_aasqa: two to ten capital letters or digits. */
  predicate AasqaOk(v: Option<string>) {
    !S.Truthy(v) || Anchored(v.value, AasqaShape)
  }

  predicate EpisodesOk(q: S.EpisodesQuery) {
    AasqaOk(q.aasqa) && S.DateOk(q.dateDebut) && S.DateOk(q.dateFin) && S.LimitOk(q.limit, 50)
  }

  /** This EpisodesQuery is stricter than the other one, which also accepts
      one-character aasqa codes such as "A". */
  lemma EpisodesStricter(q: S.EpisodesQuery)
    ensures EpisodesOk(q) ==> S.EpisodesOk(q)
    ensures S.AasqaOk(Some("A")) && !AasqaOk(Some("A"))
  {
    if q.aasqa.Some? && q.aasqa.value != [] && Anchored(q.aasqa.value, AasqaShape) {
      var v := q.aasqa.value;
      if !AasqaShape(v) {
        assert S.AasqaShape(v[..|v| - 1]);
      }
    }
  }

  // ---------------------------------------------------------------------
  // StationCreateValidation

  /** validate_nom_station and validate_commune: at least two characters
      once stripped, at most 100 as given, none of < > " ' ;, and the
      stripped text is kept. */
  function ValidateName(v: string): (r: Option<string>)
    ensures r.Some? <==> 2 <= |Strip(v)| && |v| <= 100 && !HasForbidden(v)
    ensures r.Some? ==> r.value == Strip(v)
  {
    var s := Strip(v);
    if |s| < 2 || |v| > 100 || HasForbidden(v) then None else Some(s)
  }

  /** An accepted name is 2 to 100 characters long and holds no forbidden
      character. */
  lemma ValidateNameClean(v: string)
    requires ValidateName(v).Some?
    ensures 2 <= |ValidateName(v).value| <= 100
    ensures !HasForbidden(ValidateName(v).value)
  {
    StripKeepsForbidden(v);
  }

  /** An accepted name is accepted again unchanged. */
  lemma ValidateNameIdempotent(v: string)
    requires ValidateName(v).Some?
    ensures ValidateName(ValidateName(v).value) == ValidateName(v)
  {
    StripIdempotent(v);
    StripKeepsForbidden(v);
  }

  /** Helper of ValidateNameClean and ValidateNameIdempotent: stripping adds no forbidden character. */
  lemma StripKeepsForbidden(v: string)
    requires !HasForbidden(v)
    ensures !HasForbidden(Strip(v))
  {
    StripKeepsCount(v, '<');
    StripKeepsCount(v, '>');
    StripKeepsCount(v, '"');
    StripKeepsCount(v, '\'');
    StripKeepsCount(v, ';');
  }

  /** The fields of StationCreateValidation. */
  datatype StationInput = StationInput(nomStation: string, codeStation: string, commune: string,
                                       codeInsee: string, latitude: Option<real>,
                                       longitude: Option<real>, altitude: Option<int>)

  /** An optional value inside inclusive bounds, None being accepted. */
  predicate InRange(v: Option<real>, lo: real, hi: real) {
    v.None? || lo <= v.value <= hi
  }

  predicate AltitudeOk(v: Option<int>) {
    v.None? || -500 <= v.value <= 5000
  }

  /** The station as built by the model: the names stripped, everything
      else unchanged, or None when any validator raises. */
  function ValidateStation(s: StationInput): (r: Option<StationInput>)
    ensures r.Some? <==> && ValidateName(s.nomStation).Some? && ValidateName(s.commune).Some?
                         && Anchored(s.codeStation, StationCodeShape)
                         && Anchored(s.codeInsee, FiveDigits)
                         && InRange(s.latitude, -90.0, 90.0) && InRange(s.longitude, -180.0, 180.0)
                         && AltitudeOk(s.altitude)
    ensures r.Some? ==> r.value == s.(nomStation := Strip(s.nomStation), commune := Strip(s.commune))
  {
    var nom := ValidateName(s.nomStation);
    var commune := ValidateName(s.commune);
    if nom.None? || commune.None? then None
    else if !Anchored(s.codeStation, StationCodeShape) || !Anchored(s.codeInsee, FiveDigits) then None
    else if !InRange(s.latitude, -90.0, 90.0) || !InRange(s.longitude, -180.0, 180.0) then None
    else if !AltitudeOk(s.altitude) then None
    else Some(s.(nomStation := nom.value, commune := commune.value))
  }

  /** Validation is idempotent: a validated station validates to itself. */
  lemma ValidateStationIdempotent(s: StationInput)
    requires ValidateStation(s).Some?
    ensures ValidateStation(ValidateStation(s).value) == ValidateStation(s)
  {
    ValidateNameIdempotent(s.nomStation);
    ValidateNameIdempotent(s.commune);
  }

  /** Here the INSEE code is mandatory: the empty code the query models
      accept is refused for a station. */
  lemma StationInseeMandatory(s: StationInput)
    requires s.codeInsee == []
    ensures ValidateStation(s).None? && S.CodeInseeOk(Some(s.codeInsee))
  {
  }

  // ---------------------------------------------------------------------
  // validate_sql_params

  /** The dictionary without its null values, each value unchanged. */
  function NonNull(query: map<string, Param>): map<string, Param> {
    map k | k in query && query[k] != Null :: query[k]
  }

  /** A non-null value whose text exceeds 100 characters. */
  predicate TooLong(p: Param) {
    p != Null && |Show(p)| > 100
  }

  /** validate_sql_params: the error names a key whose value is too long,
      and there is such a key exactly when it fails; otherwise null values
      are dropped and every other value is kept with its type. */
  method ValidateSqlParams(query: map<string, Param>) returns (r: Result<map<string, Param>, string>)
    ensures r.Failure? <==> exists k :: k in query && TooLong(query[k])
    ensures r.Failure? ==> r.error in query && TooLong(query[r.error])
    ensures r.Success? ==> r.value == NonNull(query)
    ensures r.Success? ==> forall k :: k in r.value ==> |Show(r.value[k])| <= 100
  {
    var validated: map<string, Param> := map[];
    var todo := query.Keys;
    while todo != {}
      invariant todo <= query.Keys
      invariant forall k :: k in query && k !in todo ==> !TooLong(query[k])
      invariant validated == map k | k in query && k !in todo && query[k] != Null :: query[k]
      decreases |todo|
    {
      var k :| k in todo;
      var value := query[k];
      if value != Null {
        var text := Show(value);
        if |text| > 100 {
          return Failure(k);
        }
        validated := validated[k := value];
      }
      todo := todo - {k};
    }
    return Success(validated);
  }
}

=== FILE: security_validation.dfy ===
/** The request validators and the parameter sanitiser of
    scripts/api/security/input_validation.py. Each validator accepts a
    falsy value (None, "" or 0) unchanged and otherwise checks its shape;
    acceptance of a whole query is the conjunction of its fields' checks. */
module SecurityValidation {
  import opened Wrappers
  import opened Text
  import opened Patterns

  /** Python truthiness of an optional text. */
  predicate Truthy(v: Option<string>) {
    v.Some? && v.value != []
  }

  /** validate_code_insee: five digits. */
  predicate CodeInseeOk(v: Option<string>) {
    !Truthy(v) || Anchored(v.value, FiveDigits)
  }

  const AllowedPolluants: seq<string> := ["PM10", "PM25", "NO2", "O3", "SO2"]

  /** validate_polluant: one of the allowed codes. */
  predicate PolluantOk(v: Option<string>) {
    !Truthy(v) || v.value in AllowedPolluants
  }

  /** validate_station: at most 100 characters. */
  predicate StationOk(v: Option<string>) {
    !Truthy(v) || |v.value| <= 100
  }

  /** validate_limit: a non-zero limit lies in [1, hi]. */
  predicate LimitOk(v: Option<int>, hi: int) {
    v.None? || v.value == 0 || 1 <= v.value <= hi
  }

  /** The fields of QualiteAirQuery. */
  datatype QualiteAirQuery = QualiteAirQuery(codeInsee: Option<string>, codePolluant: Option<string>,
                                             station: Option<string>, limit: Option<int>)

  const QualiteAirDefaults: QualiteAirQuery := QualiteAirQuery(None, None, None, Some(50))

  predicate QualiteAirOk(q: QualiteAirQuery) {
    CodeInseeOk(q.codeInsee) && PolluantOk(q.codePolluant) && StationOk(q.station) && LimitOk(q.limit, 100)
  }

  /** `[A-Z0-9]{1,10}`. */
  predicate AasqaShape(v: string) {
    UpperAlnum(v, 1, 10)
  }

  /** validate_aasqa: one to ten capital letters or digits. */
  predicate AasqaOk(v: Option<string>) {
    !Truthy(v) || Anchored(v.value, AasqaShape)
  }

  /** validate_date: the shape YYYY-MM-DD. */
  predicate DateOk(v: Option<string>) {
    !Truthy(v) || Anchored(v.value, DateShape)
  }

  /** The fields of EpisodesQuery. */
  datatype EpisodesQuery = EpisodesQuery(aasqa: Option<string>, dateDebut: Option<string>,
                                         dateFin: Option<string>, limit: Option<int>)

  const EpisodesDefaults: EpisodesQuery := EpisodesQuery(None, None, None, Some(20))

  predicate EpisodesOk(q: EpisodesQuery) {
    AasqaOk(q.aasqa) && DateOk(q.dateDebut) && DateOk(q.dateFin) && LimitOk(q.limit, 50)
  }

  /** The default queries are accepted, and so are the falsy values. */
  lemma DefaultsAccepted()
    ensures QualiteAirOk(QualiteAirDefaults) && EpisodesOk(EpisodesDefaults)
    ensures QualiteAirOk(QualiteAirQuery(Some(""), Some(""), Some(""), Some(0)))
    ensures EpisodesOk(EpisodesQuery(Some(""), Some(""), Some(""), Some(0)))
  {
  }

  /** The allow-list is exact: 'PM25' passes, 'PM2.5' and 'pm10' do not. */
  lemma PolluantAllowList()
    ensures PolluantOk(Some("PM25")) && !PolluantOk(Some("PM2.5")) && !PolluantOk(Some("pm10"))
  {
  }

  /** The episode limit is the stricter one: an accepted episode limit is
      an accepted air-quality limit, but 51 is accepted only by the latter.
      A negative limit is rejected by both. */
  lemma EpisodeLimitStricter(v: Option<int>)
    ensures LimitOk(v, 50) ==> LimitOk(v, 100)
    ensures LimitOk(Some(51), 100) && !LimitOk(Some(51), 50)
    ensures v.Some? && v.value < 0 ==> !LimitOk(v, 100)
  {
  }

  /** The value of a run of ASCII digits is below 10 to the power of its
      length. */
  lemma {:induction false} DigitsValueBound(s: string, bound: nat)
    requires AllDigits(s) && bound == Pow10(|s|)
    ensures DigitsValue(s) < bound
    decreases |s|
  {
    if s != [] {
      var init := s[..|s| - 1];
      assert AllDigits(init) by {
        forall i | 0 <= i < |init| ensures IsDigit(init[i]) { assert init[i] == s[i]; }
      }
      DigitsValueBound(init, Pow10(|init|));
    }
  }

  function Pow10(n: nat): (p: nat)
    ensures p >= 1
  {
    if n == 0 then 1 else 10 * Pow10(n - 1)
  }

  /** An accepted, non-empty INSEE code without a trailing newline is the
      text of a number below 100000. */
  lemma CodeInseeIsNumber(v: string)
    requires v != [] && CodeInseeOk(Some(v)) && v[|v| - 1] != '\n'
    ensures ParseInt(v).Some? && 0 <= ParseInt(v).value < 100000
  {
    DigitsValueBound(v, Pow10(5));
  }

  /** Python's `$` lets one trailing newline through, and the date check
      is a shape check only: month 13 passes. */
  lemma ShapeOnlyChecks()
    ensures CodeInseeOk(Some("75056\n"))
    ensures DateOk(Some("2024-13-45"))
    ensures !CodeInseeOk(Some("7505")) && !CodeInseeOk(Some("75056\n\n"))
  {
    AnchoredTrailingNewline("75056", FiveDigits);
    assert "75056" + "\n" == "75056\n";
    assert Anchored("2024-13-45", DateShape) by {
      var v := "2024-13-45";
      assert v[..4] == "2024" && v[5..7] == "13" && v[8..] == "45";
    }
    var w := "75056\n\n";
    assert w[..|w| - 1] == "75056\n";
    assert !FiveDigits(w[..|w| - 1]) by { assert w[..|w| - 1][5] == '\n'; }
  }

  // ---------------------------------------------------------------------
  // secure_sql_params

  /** `str(value).replace("'", "''").replace(";", "")` on the text. */
  function Sanitize(s: string): string {
    RemoveAll(EscapeQuotes(s), ";")
  }

  /** A sanitised value holds no ';', twice the quotes of the input, and
      is as long as the input plus its quotes minus its semicolons. */
  lemma SanitizeFacts(s: string)
    ensures ';' !in Sanitize(s)
    ensures Count(Sanitize(s), '\'') == 2 * Count(s, '\'')
    ensures |Sanitize(s)| == |s| + Count(s, '\'') - Count(s, ';')
  {
    var e := EscapeQuotes(s);
    EscapeQuotesFacts(s, ';');
    EscapeQuotesFacts(s, '\'');
    RemoveCharCounts(e, ';', '\'');
    RemoveCharCounts(e, ';', ';');
  }

  /** Without ';', sanitising is undone by reading "''" as "'". */
  lemma SanitizeUndone(s: string)
    requires ';' !in s
    ensures UnescapeQuotes(Sanitize(s)) == s
  {
    var e := EscapeQuotes(s);
    EscapeQuotesFacts(s, ';');
    RemoveAbsentChar(e, ';');
  }

  /** The dictionary secure_sql_params builds: null values dropped, every
      other value sanitised. */
  function Secured(query: map<string, Param>): map<string, string> {
    map k | k in query && query[k] != Null :: Sanitize(Show(query[k]))
  }

  /** secure_sql_params. */
  method SecureSqlParams(query: map<string, Param>) returns (secured: map<string, string>)
    ensures secured == Secured(query)
    ensures secured.Keys == set k | k in query && query[k] != Null
    ensures forall k :: k in secured ==> ';' !in secured[k]
  {
    secured := map[];
    var todo := query.Keys;
    while todo != {}
      invariant todo <= query.Keys
      invariant secured == map k | k in query && k !in todo && query[k] != Null :: Sanitize(Show(query[k]))
      decreases |todo|
    {
      var k :| k in todo;
      if query[k] != Null {
        secured := secured[k := Sanitize(Show(query[k]))];
      }
      todo := todo - {k};
    }
    forall k | k in secured ensures ';' !in secured[k] {
      SanitizeFacts(Show(query[k]));
    }
  }
}

=== FILE: seqs.dfy ===
/** Sequence operations shared by the scripts: filtering in order, and
    first-occurrence deduplication on a key, the scheme shared by
    remove_duplicates (the episode files) and the clean_file loop (the
    scraped files): a `seen` set of keys, a list of kept items, and a
    counter of the items dropped because their key was already seen. */
module Seqs {

  /** The keys of the items of `xs`. */
  function KeysOf<T, K>(xs: seq<T>, key: T -> K): (ks: set<K>)
    ensures forall i :: 0 <= i < |xs| ==> key(xs[i]) in ks
  {
    set i | 0 <= i < |xs| :: key(xs[i])
  }

  /** Appending an item adds its key. */
  lemma KeysOfSnoc<T, K>(xs: seq<T>, x: T, key: T -> K)
    ensures KeysOf(xs + [x], key) == KeysOf(xs, key) + {key(x)}
  {
    var ys := xs + [x];
    forall k | k in KeysOf(ys, key) ensures k in KeysOf(xs, key) + {key(x)} {
      var i :| 0 <= i < |ys| && k == key(ys[i]);
      if i < |xs| { assert ys[i] == xs[i]; }
    }
    forall k | k in KeysOf(xs, key) ensures k in KeysOf(ys, key) {
      var i :| 0 <= i < |xs| && k == key(xs[i]);
      assert ys[i] == xs[i];
    }
    assert key(ys[|xs|]) in KeysOf(ys, key);
  }

  /** No two items of `xs` share a key. */
  ghost predicate DistinctKeys<T, K>(xs: seq<T>, key: T -> K) {
    forall i, j :: 0 <= i < j < |xs| ==> key(xs[i]) != key(xs[j])
  }

  /** `a` is `b` with some items left out, the order of the rest kept. */
  ghost predicate IsSubseq<T>(a: seq<T>, b: seq<T>)
    decreases |b|
  {
    if a == [] then true
    else if b == [] then false
    else (a[|a| - 1] == b[|b| - 1] && IsSubseq(a[..|a| - 1], b[..|b| - 1]))
         || IsSubseq(a, b[..|b| - 1])
  }

  /** The items of `xs` kept by a first-occurrence pass: an item is kept
      exactly when no earlier item has its key. */
  function KeepFirst<T, K(==)>(xs: seq<T>, key: T -> K): seq<T>
    decreases |xs|
  {
    if xs == [] then []
    else
      var kept := KeepFirst(xs[..|xs| - 1], key);
      if key(xs[|xs| - 1]) in KeysOf(kept, key) then kept else kept + [xs[|xs| - 1]]
  }

  /** The kept items carry every key of the input and no other. */
  lemma {:induction false} KeepFirstKeys<T, K>(xs: seq<T>, key: T -> K)
    ensures KeysOf(KeepFirst(xs, key), key) == KeysOf(xs, key)
    decreases |xs|
  {
    if xs != [] {
      var init := xs[..|xs| - 1];
      KeepFirstKeys(init, key);
      var kept := KeepFirst(init, key);
      var x := xs[|xs| - 1];
      assert xs == init + [x];
      assert KeysOf(xs, key) == KeysOf(init, key) + {key(x)} by {
        forall k | k in KeysOf(xs, key) ensures k in KeysOf(init, key) + {key(x)} {
          var i :| 0 <= i < |xs| && k == key(xs[i]);
          if i < |init| { assert xs[i] == init[i]; }
        }
      }
      if key(x) !in KeysOf(kept, key) {
        var r := kept + [x];
        assert KeysOf(r, key) == KeysOf(kept, key) + {key(x)} by {
          forall k | k in KeysOf(r, key) ensures k in KeysOf(kept, key) + {key(x)} {
            var i :| 0 <= i < |r| && k == key(r[i]);
            if i < |kept| { assert r[i] == kept[i]; }
          }
          assert key(r[|r| - 1]) in KeysOf(r, key);
          forall k | k in KeysOf(kept, key) ensures k in KeysOf(r, key) {
            var i :| 0 <= i < |kept| && k == key(kept[i]);
            assert r[i] == kept[i];
          }
        }
      }
    }
  }

  /** No two kept items share a key. */
  lemma {:induction false} KeepFirstDistinct<T, K>(xs: seq<T>, key: T -> K)
    ensures DistinctKeys(KeepFirst(xs, key), key)
    decreases |xs|
  {
    if xs != [] {
      var init := xs[..|xs| - 1];
      KeepFirstDistinct(init, key);
    }
  }

  /** The kept items are an order-preserving subsequence of the input. */
  lemma {:induction false} KeepFirstSubseq<T, K>(xs: seq<T>, key: T -> K)
    ensures IsSubseq(KeepFirst(xs, key), xs)
    decreases |xs|
  {
    if xs != [] {
      var init := xs[..|xs| - 1];
      KeepFirstSubseq(init, key);
      var kept := KeepFirst(init, key);
      var x := xs[|xs| - 1];
      if key(x) in KeysOf(kept, key) {
        if kept != [] {
          assert IsSubseq(kept, init);
        }
      } else {
        var r := kept + [x];
        assert r[..|r| - 1] == kept;
      }
    }
  }

  /** A subsequence is never longer than the sequence it is taken from. */
  lemma {:induction false} SubseqLength<T>(a: seq<T>, b: seq<T>)
    requires IsSubseq(a, b)
    ensures |a| <= |b|
    decreases |b|
  {
    if a != [] {
      if a[|a| - 1] == b[|b| - 1] && IsSubseq(a[..|a| - 1], b[..|b| - 1]) {
        SubseqLength(a[..|a| - 1], b[..|b| - 1]);
      } else {
        SubseqLength(a, b[..|b| - 1]);
      }
    }
  }

  /** Every item whose key does not occur earlier in the input is kept. */
  lemma {:induction false} KeepFirstKeepsFirsts<T, K>(xs: seq<T>, key: T -> K, i: nat)
    requires i < |xs|
    requires forall j :: 0 <= j < i ==> key(xs[j]) != key(xs[i])
    ensures xs[i] in KeepFirst(xs, key)
    decreases |xs|
  {
    var init := xs[..|xs| - 1];
    var kept := KeepFirst(init, key);
    if i == |xs| - 1 {
      KeepFirstKeys(init, key);
      assert key(xs[i]) !in KeysOf(init, key) by {
        forall j | 0 <= j < |init| ensures key(init[j]) != key(xs[i]) {
          assert init[j] == xs[j];
        }
      }
    } else {
      KeepFirstKeepsFirsts(init, key, i);
    }
  }

  /** An input whose keys are already distinct is kept whole. */
  lemma {:induction false} KeepFirstOfDistinct<T, K>(xs: seq<T>, key: T -> K)
    requires DistinctKeys(xs, key)
    ensures KeepFirst(xs, key) == xs
    decreases |xs|
  {
    if xs != [] {
      var init := xs[..|xs| - 1];
      assert DistinctKeys(init, key) by {
        forall i, j | 0 <= i < j < |init| ensures key(init[i]) != key(init[j]) {
          assert init[i] == xs[i] && init[j] == xs[j];
        }
      }
      KeepFirstOfDistinct(init, key);
      var x := xs[|xs| - 1];
      assert key(x) !in KeysOf(init, key) by {
        forall j | 0 <= j < |init| ensures key(init[j]) != key(x) {
          assert init[j] == xs[j];
        }
      }
      assert xs == init + [x];
    }
  }

  /** A second pass keeps everything: it finds no duplicate. */
  lemma KeepFirstIdempotent<T, K>(xs: seq<T>, key: T -> K)
    ensures KeepFirst(KeepFirst(xs, key), key) == KeepFirst(xs, key)
  {
    KeepFirstDistinct(xs, key);
    KeepFirstOfDistinct(KeepFirst(xs, key), key);
  }

  /** The number of dropped items is the input length minus the kept count,
      and is never negative. */
  lemma KeepFirstCount<T, K>(xs: seq<T>, key: T -> K)
    ensures |KeepFirst(xs, key)| <= |xs|
  {
    KeepFirstSubseq(xs, key);
    SubseqLength(KeepFirst(xs, key), xs);
  }

  /** Every element of a subsequence is an element of the sequence. */
  lemma {:induction false} SubseqMember<T>(a: seq<T>, b: seq<T>, i: nat)
    requires IsSubseq(a, b) && i < |a|
    ensures a[i] in b
    decreases |b|
  {
    if a[|a| - 1] == b[|b| - 1] && IsSubseq(a[..|a| - 1], b[..|b| - 1]) {
      if i < |a| - 1 {
        SubseqMember(a[..|a| - 1], b[..|b| - 1], i);
        assert a[..|a| - 1][i] == a[i];
      }
    } else {
      SubseqMember(a, b[..|b| - 1], i);
    }
  }

  /** The items of `xs` that satisfy `p`, in their original order. */
  function Filter<T(==)>(xs: seq<T>, p: T -> bool): (r: seq<T>)
    ensures |r| <= |xs|
    ensures forall i :: 0 <= i < |r| ==> p(r[i]) && r[i] in xs
    ensures forall i :: 0 <= i < |xs| && p(xs[i]) ==> xs[i] in r
    ensures multiset(r) <= multiset(xs)
    decreases |xs|
  {
    if xs == [] then []
    else
      var rest := Filter(xs[..|xs| - 1], p);
      var x := xs[|xs| - 1];
      assert xs == xs[..|xs| - 1] + [x];
      if p(x) then rest + [x] else rest
  }

  /** Filtering one more item keeps it at the end when it qualifies. */
  lemma FilterSnoc<T>(xs: seq<T>, x: T, p: T -> bool)
    ensures Filter(xs + [x], p) == Filter(xs, p) + (if p(x) then [x] else [])
  {
    assert (xs + [x])[..|xs|] == xs;
  }

  /** Filtering keeps the order of the items it keeps. */
  lemma {:induction false} FilterSubseq<T>(xs: seq<T>, p: T -> bool)
    ensures IsSubseq(Filter(xs, p), xs)
    decreases |xs|
  {
    if xs != [] {
      var init := xs[..|xs| - 1];
      FilterSubseq(init, p);
      var r := Filter(xs, p);
      if p(xs[|xs| - 1]) {
        assert r[..|r| - 1] == Filter(init, p);
      } else if r != [] {
        assert r == Filter(init, p);
      }
    }
  }

  /** Two predicates that agree on every item select the same items. */
  lemma {:induction false} FilterCongruent<T>(xs: seq<T>, p: T -> bool, q: T -> bool)
    requires forall x :: x in xs ==> p(x) == q(x)
    ensures Filter(xs, p) == Filter(xs, q)
    decreases |xs|
  {
    if xs != [] {
      FilterCongruent(xs[..|xs| - 1], p, q);
      assert xs[|xs| - 1] in xs;
    }
  }

  /** Filtering by `p` then by `q` is filtering by their conjunction `pq`. */
  lemma {:induction false} FilterFilter<T>(xs: seq<T>, p: T -> bool, q: T -> bool, pq: T -> bool)
    requires forall x :: x in xs ==> pq(x) == (p(x) && q(x))
    ensures Filter(Filter(xs, p), q) == Filter(xs, pq)
    decreases |xs|
  {
    if xs != [] {
      var init := xs[..|xs| - 1];
      var x := xs[|xs| - 1];
      forall y | y in init ensures pq(y) == (p(y) && q(y)) {
        assert y in xs;
      }
      FilterFilter(init, p, q, pq);
      assert x in xs;
      var r := Filter(init, p);
      if p(x) {
        assert (r + [x])[..|r + [x]| - 1] == r;
      }
    }
  }

  /** A predicate every item satisfies keeps them all. */
  lemma {:induction false} FilterAll<T>(xs: seq<T>, p: T -> bool)
    requires forall x :: x in xs ==> p(x)
    ensures Filter(xs, p) == xs
    decreases |xs|
  {
    if xs != [] {
      var init := xs[..|xs| - 1];
      var last := xs[|xs| - 1];
      assert xs == init + [last];
      FilterAll(init, p);
      FilterSnoc(init, last, p);
    }
  }
}

=== FILE: text.dfy ===
/** The Python string operations the scripts rely on, written out over
    `seq<char>`: strip(), split(sep), replace(old, ''), upper(), lower(),
    str(int), and the counting facts the cleaning code depends on. */
module Text {
  import opened Wrappers

  /** The characters for which Python's str.isspace() holds, i.e. what
      str.strip() with no argument removes. U+FEFF is not among them. */
  predicate IsSpace(c: char) {
    c == ' ' || c == '\t' || c == '\n' || c == '\r' || c == '\U{000B}' || c == '\U{000C}'
    || ('\U{001C}' <= c <= '\U{001F}') || c == '\U{0085}' || c == '\U{00A0}'
    || c == '\U{1680}' || ('\U{2000}' <= c <= '\U{200A}') || c == '\U{2028}'
    || c == '\U{2029}' || c == '\U{202F}' || c == '\U{205F}' || c == '\U{3000}'
  }

  /** Number of occurrences of the character `c` in `s`. */
  function Count(s: string, c: char): (n: nat)
    ensures n <= |s|
    ensures n == 0 <==> c !in s
  {
    if s == [] then 0 else (if s[0] == c then 1 else 0) + Count(s[1..], c)
  }

  lemma {:induction false} CountAppend(a: string, b: string, c: char)
    ensures Count(a + b, c) == Count(a, c) + Count(b, c)
  {
    if a == [] {
      assert a + b == b;
    } else {
      assert (a + b)[1..] == a[1..] + b;
      CountAppend(a[1..], b, c);
    }
  }

  function TrimLeft(s: string): (r: string)
    ensures |r| <= |s|
    ensures r == [] || !IsSpace(r[0])
  {
    if s != [] && IsSpace(s[0]) then TrimLeft(s[1..]) else s
  }

  function TrimRight(s: string): (r: string)
    ensures |r| <= |s|
    ensures r == [] || !IsSpace(r[|r| - 1])
  {
    if s != [] && IsSpace(s[|s| - 1]) then TrimRight(s[..|s| - 1]) else s
  }

  /** TrimLeft keeps a suffix. */
  lemma {:induction false} TrimLeftSuffix(s: string)
    ensures TrimLeft(s) == s[|s| - |TrimLeft(s)|..]
    decreases |s|
  {
    if s != [] && IsSpace(s[0]) {
      TrimLeftSuffix(s[1..]);
      assert s[1..][|s| - 1 - |TrimLeft(s)|..] == s[|s| - |TrimLeft(s)|..];
    }
  }

  /** TrimRight keeps a prefix. */
  lemma {:induction false} TrimRightPrefix(s: string)
    ensures TrimRight(s) == s[..|TrimRight(s)|]
    decreases |s|
  {
    if s != [] && IsSpace(s[|s| - 1]) {
      TrimRightPrefix(s[..|s| - 1]);
      assert s[..|s| - 1][..|TrimRight(s)|] == s[..|TrimRight(s)|];
    }
  }

  /** TrimLeft removes whitespace only. */
  lemma {:induction false} TrimLeftRemovesSpace(s: string, i: nat)
    requires i < |s| - |TrimLeft(s)|
    ensures IsSpace(s[i])
  {
    if i > 0 {
      TrimLeftRemovesSpace(s[1..], i - 1);
    }
  }

  /** TrimRight removes whitespace only. */
  lemma {:induction false} TrimRightRemovesSpace(s: string, i: nat)
    requires |TrimRight(s)| <= i < |s|
    ensures IsSpace(s[i])
  {
    if i < |s| - 1 {
      TrimRightRemovesSpace(s[..|s| - 1], i);
    }
  }

  /** Python's str.strip(): the longest infix of `s` that neither starts nor
      ends with whitespace, obtained by removing only whitespace. */
  function Strip(s: string): (r: string)
    ensures r == [] || (!IsSpace(r[0]) && !IsSpace(r[|r| - 1]))
    ensures |r| <= |s|
  {
    TrimRightPrefix(TrimLeft(s));
    TrimRight(TrimLeft(s))
  }

  /** strip() is idempotent. */
  lemma StripIdempotent(s: string)
    ensures Strip(Strip(s)) == Strip(s)
  {
    var r := Strip(s);
    assert TrimLeft(r) == r;
    assert TrimRight(r) == r;
  }

  lemma TrimLeftKeepsCount(s: string, c: char)
    requires !IsSpace(c)
    ensures Count(TrimLeft(s), c) == Count(s, c)
  {
    var l := TrimLeft(s);
    var k := |s| - |l|;
    TrimLeftSuffix(s);
    assert s == s[..k] + l;
    CountAppend(s[..k], l, c);
    assert c !in s[..k] by {
      forall i | 0 <= i < k ensures s[..k][i] != c { TrimLeftRemovesSpace(s, i); }
    }
  }

  lemma TrimRightKeepsCount(s: string, c: char)
    requires !IsSpace(c)
    ensures Count(TrimRight(s), c) == Count(s, c)
  {
    var r := TrimRight(s);
    TrimRightPrefix(s);
    assert s == r + s[|r|..];
    CountAppend(r, s[|r|..], c);
    assert c !in s[|r|..] by {
      forall i | 0 <= i < |s| - |r| ensures s[|r|..][i] != c { TrimRightRemovesSpace(s, |r| + i); }
    }
  }

  /** Stripping removes only whitespace: a non-whitespace character occurs
      as often after strip() as before. */
  lemma StripKeepsCount(s: string, c: char)
    requires !IsSpace(c)
    ensures Count(Strip(s), c) == Count(s, c)
  {
    TrimLeftKeepsCount(s, c);
    TrimRightKeepsCount(TrimLeft(s), c);
  }

  /** strip() yields the empty string exactly for whitespace-only input. */
  lemma StripEmptyIffBlank(s: string)
    ensures Strip(s) == [] <==> forall i :: 0 <= i < |s| ==> IsSpace(s[i])
  {
    var l := TrimLeft(s);
    TrimLeftSuffix(s);
    TrimRightPrefix(l);
    if l != [] {
      assert !IsSpace(l[0]);
      assert !IsSpace(s[|s| - |l|]);
      if TrimRight(l) == [] {
        TrimRightRemovesSpace(l, 0);
      }
    } else {
      forall i | 0 <= i < |s| ensures IsSpace(s[i]) {
        TrimLeftRemovesSpace(s, i);
      }
    }
  }

  /** Python's s.split(sep) for a one-character separator: never empty, and
      "" splits into [""]. */
  function Split(s: string, sep: char): (r: seq<string>)
    ensures |r| >= 1
    decreases |s|
  {
    if s == [] then [[]]
    else if s[0] == sep then [[]] + Split(s[1..], sep)
    else
      var rest := Split(s[1..], sep);
      [[s[0]] + rest[0]] + rest[1..]
  }

  /** sep.join(pieces), the inverse of Split. */
  function Join(pieces: seq<string>, sep: char): string
    requires |pieces| >= 1
    decreases |pieces|
  {
    if |pieces| == 1 then pieces[0] else pieces[0] + [sep] + Join(pieces[1..], sep)
  }

  /** Split yields one more piece than there are separators. */
  lemma {:induction false} SplitCount(s: string, sep: char)
    ensures |Split(s, sep)| == Count(s, sep) + 1
    decreases |s|
  {
    if s != [] {
      SplitCount(s[1..], sep);
    }
  }

  /** No piece produced by Split contains the separator. */
  lemma {:induction false} SplitNoSep(s: string, sep: char)
    ensures forall i :: 0 <= i < |Split(s, sep)| ==> sep !in Split(s, sep)[i]
    decreases |s|
  {
    if s != [] {
      SplitNoSep(s[1..], sep);
      var rest := Split(s[1..], sep);
      if s[0] != sep {
        assert sep !in rest[0];
        assert sep !in [s[0]] + rest[0];
      }
    }
  }

  /** The first piece of Split is the longest prefix free of the separator. */
  lemma {:induction false} SplitFirst(s: string, sep: char)
    ensures Split(s, sep)[0] <= s && sep !in Split(s, sep)[0]
    ensures |Split(s, sep)[0]| < |s| ==> s[|Split(s, sep)[0]|] == sep
    decreases |s|
  {
    if s != [] && s[0] != sep {
      SplitFirst(s[1..], sep);
      var f := Split(s[1..], sep)[0];
      assert Split(s, sep)[0] == [s[0]] + f;
      assert s == [s[0]] + s[1..];
    }
  }

  /** Joining the pieces of Split with the separator gives back the input. */
  lemma {:induction false} SplitJoin(s: string, sep: char)
    ensures Join(Split(s, sep), sep) == s
    decreases |s|
  {
    if s == [] {
    } else if s[0] == sep {
      SplitJoin(s[1..], sep);
      var r := Split(s, sep);
      assert r[1..] == Split(s[1..], sep);
    } else {
      SplitJoin(s[1..], sep);
      var rest := Split(s[1..], sep);
      var r := Split(s, sep);
      assert r[1..] == rest[1..];
      if |rest| > 1 {
        assert Join(rest, sep) == rest[0] + [sep] + Join(rest[1..], sep);
      }
    }
  }

  /** Python's s.replace(pat, "") for a non-empty pattern: the leftmost
      occurrences are removed, scanning left to right without overlap. */
  function RemoveAll(s: string, pat: string): (r: string)
    requires |pat| > 0
    ensures |r| <= |s|
    decreases |s|
  {
    if |s| < |pat| then s
    else if s[..|pat|] == pat then RemoveAll(s[|pat|..], pat)
    else [s[0]] + RemoveAll(s[1..], pat)
  }

  /** A pattern with a character absent from `s` is not found in `s`. */
  lemma {:induction false} RemoveAllAbsent(s: string, pat: string, c: char)
    requires |pat| > 0 && c in pat && c !in s
    ensures RemoveAll(s, pat) == s
    decreases |s|
  {
    if |s| >= |pat| {
      assert s[..|pat|] != pat by {
        var k :| 0 <= k < |pat| && pat[k] == c;
        assert s[..|pat|][k] == s[k];
      }
      RemoveAllAbsent(s[1..], pat, c);
      assert s == [s[0]] + s[1..];
    }
  }

  /** A pattern whose first character occurs only at the end is removed
      from the end and nowhere else. */
  lemma {:induction false} RemoveAllSuffix(stem: string, pat: string)
    requires |pat| > 0 && pat[0] !in stem
    ensures RemoveAll(stem + pat, pat) == stem
    decreases |stem|
  {
    var s := stem + pat;
    if stem == [] {
      assert s == pat && s[..|pat|] == pat && s[|pat|..] == [];
    } else {
      assert s[..|pat|][0] == stem[0] != pat[0];
      assert s[1..] == stem[1..] + pat;
      RemoveAllSuffix(stem[1..], pat);
    }
  }

  /** Removing a single character deletes exactly its occurrences and keeps
      every other character. */
  lemma {:induction false} RemoveCharCounts(s: string, c: char, d: char)
    ensures |RemoveAll(s, [c])| == |s| - Count(s, c)
    ensures Count(RemoveAll(s, [c]), d) == if d == c then 0 else Count(s, d)
  {
    if s != [] {
      RemoveCharCounts(s[1..], c, d);
      assert s[..1] == [s[0]];
    }
  }

  /** A pattern that does not occur is not removed. */
  lemma {:induction false} RemoveAbsentChar(s: string, c: char)
    requires c !in s
    ensures RemoveAll(s, [c]) == s
  {
    if s != [] {
      assert s[..1] == [s[0]];
      RemoveAbsentChar(s[1..], c);
    }
  }

  /** Python's s.replace("'", "''"). */
  function EscapeQuotes(s: string): (r: string)
  {
    if s == [] then [] else (if s[0] == '\'' then "''" else [s[0]]) + EscapeQuotes(s[1..])
  }

  /** The reading of a string escaped by EscapeQuotes: "''" stands for "'". */
  function UnescapeQuotes(t: string): (r: string)
    decreases |t|
  {
    if t == [] then []
    else if |t| >= 2 && t[0] == '\'' && t[1] == '\'' then "'" + UnescapeQuotes(t[2..])
    else [t[0]] + UnescapeQuotes(t[1..])
  }

  /** Escaping doubles every quote, adds one character per quote, keeps every
      other character, and is undone by UnescapeQuotes. */
  lemma EscapeQuotesFacts(s: string, d: char)
    ensures |EscapeQuotes(s)| == |s| + Count(s, '\'')
    ensures Count(EscapeQuotes(s), d) == if d == '\'' then 2 * Count(s, d) else Count(s, d)
    ensures UnescapeQuotes(EscapeQuotes(s)) == s
  {
    EscapeQuotesLength(s);
    EscapeQuotesCount(s, d);
    EscapeQuotesUndone(s);
  }

  /** Helper of EscapeQuotesFacts: one more character per quote. */
  lemma {:induction false} EscapeQuotesLength(s: string)
    ensures |EscapeQuotes(s)| == |s| + Count(s, '\'')
    decreases |s|
  {
    if s != [] {
      EscapeQuotesLength(s[1..]);
    }
  }

  /** Helper of EscapeQuotesFacts: quotes doubled, other characters kept. */
  lemma {:induction false} EscapeQuotesCount(s: string, d: char)
    ensures Count(EscapeQuotes(s), d) == if d == '\'' then 2 * Count(s, d) else Count(s, d)
    decreases |s|
  {
    if s != [] {
      EscapeQuotesCount(s[1..], d);
      var head := if s[0] == '\'' then "''" else [s[0]];
      CountAppend(head, EscapeQuotes(s[1..]), d);
    }
  }

  /** Helper of EscapeQuotesFacts: un-doubling restores the text. */
  lemma {:induction false} EscapeQuotesUndone(s: string)
    ensures UnescapeQuotes(EscapeQuotes(s)) == s
    decreases |s|
  {
    if s != [] {
      EscapeQuotesUndone(s[1..]);
      var e := EscapeQuotes(s);
      if s[0] == '\'' {
        assert e[2..] == EscapeQuotes(s[1..]);
      } else {
        assert e[1..] == EscapeQuotes(s[1..]);
      }
    }
  }

  function UpperChar(c: char): char {
    if 'a' <= c <= 'z' then (c as int - 32) as char else c
  }

  function LowerChar(c: char): char {
    if 'A' <= c <= 'Z' then (c as int + 32) as char else c
  }

  /** Python's str.upper() on ASCII letters. */
  function Upper(s: string): (r: string)
    ensures |r| == |s|
    ensures forall i :: 0 <= i < |s| ==> r[i] == UpperChar(s[i])
  {
    if s == [] then [] else [UpperChar(s[0])] + Upper(s[1..])
  }

  /** Python's str.lower() on ASCII letters. */
  function Lower(s: string): (r: string)
    ensures |r| == |s|
    ensures forall i :: 0 <= i < |s| ==> r[i] == LowerChar(s[i])
  {
    if s == [] then [] else [LowerChar(s[0])] + Lower(s[1..])
  }

  function DigitChar(d: nat): (c: char)
    requires d < 10
    ensures '0' <= c <= '9'
  {
    (48 + d) as char
  }

  predicate IsDigit(c: char) {
    '0' <= c <= '9'
  }

  predicate AllDigits(s: string) {
    forall i :: 0 <= i < |s| ==> IsDigit(s[i])
  }

  /** The number written by a non-empty string of ASCII digits. */
  function DigitsValue(s: string): nat
    requires AllDigits(s)
    decreases |s|
  {
    if s == [] then 0 else DigitsValue(s[..|s| - 1]) * 10 + (s[|s| - 1] as int - 48)
  }

  /** Python's int(s) on a stripped text: an optional sign followed by one
      or more ASCII digits, None where int() raises ValueError. */
  function ParseInt(s: string): (r: Option<int>)
  {
    if |s| >= 2 && (s[0] == '+' || s[0] == '-') && AllDigits(s[1..]) then
      Some(if s[0] == '-' then 0 - DigitsValue(s[1..]) as int else DigitsValue(s[1..]) as int)
    else if s != [] && AllDigits(s) then Some(DigitsValue(s))
    else None
  }

  function NatToString(n: nat): (r: string)
    ensures |r| >= 1
    decreases n
  {
    if n < 10 then [DigitChar(n)] else NatToString(n / 10) + [DigitChar(n % 10)]
  }

  /** Python's str() of an int. */
  function IntToString(i: int): (r: string)
    ensures |r| >= 1
  {
    if i < 0 then "-" + NatToString(-i) else NatToString(i)
  }

  lemma {:induction false} NatToStringDigits(n: nat)
    ensures AllDigits(NatToString(n)) && DigitsValue(NatToString(n)) == n
    decreases n
  {
    if n >= 10 {
      NatToStringDigits(n / 10);
      var s := NatToString(n);
      assert s[..|s| - 1] == NatToString(n / 10);
    }
  }

  /** int(str(i)) == i. */
  lemma ParseIntOfString(i: int)
    ensures ParseInt(IntToString(i)) == Some(i)
  {
    var s := IntToString(i);
    if i < 0 {
      var digits := NatToString(-i);
      NatToStringDigits(-i);
      assert s == "-" + digits;
      assert s[0] == '-' && s[1..] == digits;
    } else {
      NatToStringDigits(i);
      assert IsDigit(s[0]);
    }
  }

  /** Python's str() of a bool. */
  function BoolToString(b: bool): string {
    if b then "True" else "False"
  }

  /** Python's str.endswith(suffix). */
  predicate EndsWith(s: string, suffix: string) {
    |suffix| <= |s| && s[|s| - |suffix|..] == suffix
  }
}

=== FILE: wrappers.dfy ===
/** Option and Result: the absent value (Python's None) and the raised
    exception of the modelled scripts, as values. */
module Wrappers {

  datatype Option<+T> = None | Some(value: T) {
    function GetOr(default: T): T {
      match this
      case Some(v) => v
      case None => default
    }
  }

  datatype Result<+R, +E> = Success(value: R) | Failure(error: E)
}
